=== FILE: README.md ===
# hireflow-ats: a Dafny model of the job board's core

hireflow-ats is a job board. Candidates sign up with an emailed one-time code
and are meant to apply to jobs with an uploaded resume; as written, the apply
handler refuses every application (see "## Findings"). Recruiters post jobs and move
applications through a status pipeline. Sessions use a short-lived access
token and a seven-day refresh token that is rotated on every use.

This project models the backend's core as pure Dafny functions over immutable
state, and proves properties of that model. It covers:

- **Stores.** The user, job and application collections are maps from opaque
  ids. The one-time-code and refresh-token collections are sequences in store
  order, so that `findOne` and `deleteOne` pick the first match.
- **Schema behaviour.** The schemas' setters (trim, lower-case), defaults,
  validators and unique indexes.
- **Services.** `AuthService`, `OtpService`, `JobService`,
  `ApplicationService` and `UserService`, each with its checks in the order
  the code runs them.
- **Request validation.** The class-validator request bodies. Each one
  reports its failing properties in declaration order.
- **Middleware.** The bearer-token gate, the role gate and the multipart
  upload filter.
- **Routers.** The job and application routers, run as a trace of what
  happens on the way to a handler.
- **Handlers.** The authentication controller's decision order (status
  codes, what is consumed, what is returned) and the apply handler.
- **Client.** The authentication reducer and the register form schema.

Foreign calls are modelled as follows:

- bcrypt is an injective hash.
- A signed JWT is its payload plus the issue second (`Math.floor(now / 1000)`).
- `crypto.randomInt` and `Date.now()` are parameters.
- Mail delivery is a boolean parameter.

Three defects in the source are recorded under "## Findings". Each has an
as-written member and a corrected member:

- **Role gate.** The role gate does not stop after answering 403. The model
  keeps both gates, selected by `GateMode`.
- **Refresh tokens.** Two refresh tokens signed for one user in one second
  are equal. The model keeps both minting schemes, selected by `Minting`.
  `AsWritten` follows jwt.ts. `WithJwtId` adds a distinct `jti` claim. The
  login and refresh handlers take the scheme as a parameter, so the replay
  is stated at the handler level as well.
- **Apply call.** The apply handler passes five positional arguments to a
  service method that takes one input object, so the service sees no role
  and refuses every request. The model keeps both calls, selected by
  `ApplyCall`.

Where the code and the written design disagree, the model follows the code:

- The register handler reads `accessToken` and `refreshToken` from the
  service's result, but the service returns `{user, token}`. A successful
  registration therefore answers 201 without tokens (`AuthController.Register`).
  The register form still dispatches `loginSuccess` with the missing token,
  so the client counts as signed in while holding no access token
  (`AuthSlice.RegisterLeavesNoToken`).
- Both password-reset handlers call service methods that `AuthService` does
  not define. Requesting a reset code therefore answers 500, and resetting a
  password answers 400. Neither ever succeeds (`AuthController.PasswordResetNeverSucceeds`).
- The register body requires `role` (`@IsEnum` without `@IsOptional`) and
  accepts `admin`. The service's `role || candidate` fallback is still
  modelled (`Auth.Register`).

## Model

| member | source | states |
|---|---|---|
| `Text.Trim` | backend/src/models/user.model.ts:16-21 | A non-empty result neither starts nor ends with whitespace (the ECMAScript WhiteSpace and LineTerminator characters, U+2003 and U+3000 included). |
| `Text.TrimCutsOnlySpace` | backend/src/models/user.model.ts:16-21 | `trim` is never longer than its input, and every character it cuts, at the front or at the back, is whitespace. |
| `Text.TrimDropsLeadingSpace` | backend/src/models/job.model.ts:28-33 | A leading whitespace character makes no difference to the trimmed result. |
| `Text.TrimmedIsFixed` | backend/src/models/user.model.ts:16-21 | `trim` leaves a string unchanged exactly when neither end is whitespace. |
| `Text.TrimShortens` | backend/src/models/job.model.ts:28-33 | `trim` shortens a string exactly when one of its ends is whitespace. |
| `Text.TrimIdempotent` | backend/src/models/user.model.ts:22-28 | Trimming twice gives the same result as trimming once, and the result is trimmed. |
| `Text.Lower` | backend/src/models/user.model.ts:22-28 | Lower-casing keeps the length and maps every character independently. |
| `Text.LowerIsLower` | backend/src/models/user.model.ts:22-28 | Lower-cased text has no upper-case letter and is a fixed point of lower-casing. |
| `Text.TrimKeepsLower` | backend/src/models/user.model.ts:22-28 | Trimming lower-case text leaves it lower-case, so the `lowercase` then `trim` setters commute with a second pass. |
| `Text.LowerOfLower` | backend/src/models/user.model.ts:22-28 | Lower-casing changes nothing in text that is already lower-case. |
| `Text.Utf16Length` | backend/src/models/job.model.ts:32 | A string's JavaScript `length`, counted in UTF-16 units, lies between its number of characters and twice that. |
| `Text.PlainTextLengths` | backend/src/dtos/job.dto.ts:7 | On text of the Basic Multilingual Plane without variation selectors, the UTF-16 length and the `isLength` count both equal the number of characters. |
| `Text.Utf16LengthAppend` | backend/src/models/job.model.ts:32 | The UTF-16 length of a concatenation is the sum of the parts' lengths. |
| `Text.IsLengthCount` | backend/src/dtos/auth.dto.ts:19 | The `isLength` count of a string never exceeds its number of characters. |
| `Text.IsLengthCountAppend` | backend/src/dtos/auth.dto.ts:19 | The `isLength` count of a concatenation is the sum of the parts' counts. |
| `Text.LastIndexOf` | backend/src/dtos/auth.dto.ts:15 | The index found holds the character sought and no later position does; -1 means the character does not occur. |
| `Text.LastIndexOfAt` | backend/src/dtos/auth.dto.ts:15 | The last `@` of `a@b`, when `b` has no `@`, is the one after `a`. |
| `Text.Split` | backend/src/dtos/auth.dto.ts:15 | `split` yields at least one piece and no piece contains the separator. |
| `Text.SplitAtFirst` | backend/src/dtos/auth.dto.ts:15 | Splitting `a` + separator + `b`, with no separator in `a`, gives `a` followed by the pieces of `b`. |
| `Text.SplitCovers` | backend/src/dtos/auth.dto.ts:15 | When every piece of a split has a property, every character of the string is the separator or has that property. |
| `Roles.ParseRole` | backend/src/dtos/auth.dto.ts:22-23 | A string is accepted as a role exactly when it is the spelling of one of the three roles, and the parsed role has that spelling. |
| `Roles.ParseRoleName` | backend/src/models/user.model.ts:35-39 | Parsing the spelling of any role gives back that role. |
| `Roles.RoleNameIsLower` | backend/src/controllers/auth.controller.ts:90 | `role.toLowerCase()` in the responses changes no role's spelling. |
| `Tokens.IssuedAtSameSecond` | backend/src/utils/jwt.ts:17-29 | Two clock readings within the same whole second give the same `iat`. |
| `Tokens.SignAccess` | backend/src/utils/jwt.ts:3-15 | An access token carries exactly the user id and role it was signed for. |
| `Tokens.VerifyRefresh` | backend/src/utils/jwt.ts:17-29 | A refresh token verifies exactly when this server signed it and fewer than seven days, counted in whole seconds, have passed since its issue second. It then yields the token's user id. |
| `Decimal.ParseToDecimal` | backend/src/services/otp.service.ts:8-11 | Reading back the decimal rendering of a number gives that number. |
| `Decimal.ToDecimalWidth` | backend/src/services/otp.service.ts:8-11 | A number's rendering fits in `k` digits exactly when the number is below 10^k. |
| `Decimal.ParseLeadingZeros` | backend/src/services/otp.service.ts:8-11 | Zero padding on the left does not change the number a digit string reads as. |
| `Decimal.ParseZeroIffAllZero` | backend/src/services/otp.service.ts:8-11 | A digit string reads as 0 exactly when it consists only of zeros. |
| `Decimal.ToDecimalOfParse` | backend/src/services/otp.service.ts:8-11 | Rendering the number a digit string reads as gives that string without its leading zeros. |
| `Decimal.PadStripped` | backend/src/services/otp.service.ts:8-11 | Padding a stripped digit string back to its original width restores it. |
| `Decimal.PadStart` | backend/src/services/otp.service.ts:9 | `padStart` leaves a string that is wide enough unchanged. A shorter string is extended with zeros to exactly the width, and its text is kept at the right. |
| `Validation.Failing` | backend/src/dtos/auth.dto.ts:10-29 | The reported paths are exactly the declared paths that fail, and there are never more of them than declared paths. |
| `Users.NormalizedIsFixed` | backend/src/models/user.model.ts:22-28 | Setters applied to an email that is already lower-case and trimmed change nothing. |
| `Users.NormalizeEmailIdempotent` | backend/src/models/user.model.ts:22-28 | Applying the email setters gives a normalised email, and applying them again changes nothing. |
| `Users.Build` | backend/src/models/user.model.ts:16-43 | A document is built exactly when the trimmed name has at least 2 UTF-16 units and the normalised email is non-empty. The built user has the trimmed name, the normalised email, the given hash, the given role (candidate by default) and is active. |
| `Users.FindByEmail` | backend/src/repositories/user.repository.ts:7-9 | The lookup finds a user exactly when some stored email equals the normalised argument, and the user it finds has that email. |
| `Users.FindById` | backend/src/repositories/user.repository.ts:11-13 | The lookup finds a user exactly when the id is stored. It returns every field of that user except the password. |
| `Users.Create` | backend/src/repositories/user.repository.ts:15-17 | A user is stored exactly when the document builds and no stored user has its email. The store then gains just that user. |
| `Users.CreateUnclaimed` | backend/src/models/user.model.ts:22-28 | When the email is not taken, creation fails only on validation. |
| `Users.StoreKeepsValid` | backend/src/models/user.model.ts:22-28 | Storing a well-formed user whose email no other user holds keeps the unique email index and every schema guarantee. |
| `Users.CreateKeepsValid` | backend/src/repositories/user.repository.ts:15-17 | A successful create keeps the store valid: emails stay unique and every user stays well-formed. |
| `Users.CreateThenFind` | backend/src/repositories/user.repository.ts:7-17 | A created user is found by the email it was created with. |
| `Users.MergeWellFormed` | backend/src/repositories/user.repository.ts:19-24 | A patch whose supplied name and email pass their validators keeps a well-formed user well-formed. |
| `Users.Update` | backend/src/repositories/user.repository.ts:19-24 | The supplied name and email are validated first, whether or not the id exists. A valid patch for an unknown id gives null and changes nothing. For a stored id, the update succeeds exactly when the supplied paths validate and no other user holds the merged email. Only that user then changes, and a failure changes nothing. |
| `Users.UpdateKeepsValid` | backend/src/repositories/user.repository.ts:19-24 | Every update keeps the store valid. |
| `Users.InvalidPatchRefusedForAnyId` | backend/src/repositories/user.repository.ts:19-24 | A patch the validators refuse is refused with the same error for every id, stored or not. |
| `Users.EmptyPatchIsIdentity` | backend/src/repositories/user.repository.ts:19-24 | An update that supplies no field changes nothing and returns the user as stored. |
| `Users.GetCurrentUser` | backend/src/services/user.service.ts:11-18 | The profile is returned exactly when the id is stored, with every field except the password. An unknown id is an error. |
| `Users.CurrentUserOfEmail` | backend/src/services/user.service.ts:11-18 | The profile of the user found by an email has that email in normalised form. |
| `Otp.LookupAtIndex` | backend/src/services/otp.service.ts:25 | `findOne({email})` finds nothing exactly when no record has the email. Otherwise it returns the first record for the email, and the later records for the email follow it. |
| `Otp.DeleteOne` | backend/src/services/otp.service.ts:14 | `deleteOne({email})` removes exactly the first record for the email. Every other email's records are unchanged. |
| `Otp.GenerateOtp` | backend/src/services/otp.service.ts:8-11 | A draw from [0, 10^6) gives a six-character digit string that reads back as the draw. |
| `Otp.GenerateOtpOnto` | backend/src/services/otp.service.ts:8-11 | Every six-digit string is the code of some draw, namely the number it reads as. |
| `Otp.GenerateOtpInjective` | backend/src/services/otp.service.ts:8-11 | Two draws give the same code exactly when they are equal. |
| `Otp.CreateOtp` | backend/src/services/otp.service.ts:13-22 | The returned code is the draw's code. The email's only record then holds that code's hash, expires 5 minutes after `now` and has no attempts. One record per email is preserved, and other emails are untouched. |
| `Otp.InsertWithoutDeleteDuplicates` | backend/src/models/otpVerification.model.ts:13-17 | Without the preceding delete, a second issue for an email leaves two records, because the email index is not unique. |
| `Otp.VerifyOtp` | backend/src/services/otp.service.ts:24-47 | The checks run in order: existence, then the 20-attempt cap, then expiry, then the hash. A code is accepted exactly when the email's record has attempts left, has not expired and matches. A wrong code adds one attempt. Every other outcome except "not found" removes the record. Other emails are untouched. |
| `Otp.VerifyKeepsOnePerEmail` | backend/src/services/otp.service.ts:24-47 | A verify keeps one record per email. After a wrong code the record remains with one more attempt. After any other outcome no record remains for the email. |
| `Otp.SavePreserves` | backend/src/services/otp.service.ts:40-41 | Saving the record after the attempt counter moves changes only that record. Every email keeps its count of records. |
| `Otp.IssueThenVerify` | backend/src/services/otp.service.ts:13-47 | The code just issued is accepted until it expires, and any other string is refused as a wrong code. |
| `Otp.SingleUse` | backend/src/services/otp.service.ts:44 | Once a code has been accepted, presenting it again finds no record. |
| `Otp.ComparisonsWithinBudget` | backend/src/services/otp.service.ts:30-43 | However the verify calls are spread over codes and times, a record allows at most its remaining attempts' worth of hash comparisons. |
| `Otp.AtMostTwentyComparisons` | backend/src/services/otp.service.ts:6 | A freshly issued code is compared against at most 20 guesses. |
| `Otp.WrongAttemptsAccumulate` | backend/src/services/otp.service.ts:38-43 | A run of wrong codes before expiry only counts up the record's attempts, one per call. |
| `Otp.WrongAttemptCounts` | backend/src/services/otp.service.ts:38-43 | One wrong code before expiry, with attempts to spare, is refused as invalid and leaves the record with exactly one more attempt. |
| `Otp.LockedAfterTwentyWrong` | backend/src/services/otp.service.ts:30-33 | After 20 wrong codes even the right code, presented on time, is refused with "too many attempts". |
| `Otp.SweepKeepsVerdict` | backend/src/models/otpVerification.model.ts:37 | The TTL deletion of expired records keeps one record per email. It never changes whether a code is accepted at that time or later. |
| `Auth.FindRecord` | backend/src/services/auth.service.ts:74-77 | The lookup returns a record holding both the token and the user, and finds nothing when no record holds the token. |
| `Auth.Mint` | backend/src/utils/jwt.ts:17-29 | A minted refresh token carries the user and the issue second. As written it has no `jti`. With `jti` minting it carries the count of tokens minted so far. |
| `Auth.PersistKeepsFresh` | backend/src/services/auth.service.ts:52-57 | Storing a token minted with a `jti` keeps every stored token distinct. |
| `Auth.Register` | backend/src/services/auth.service.ts:19-35 | A taken email is refused and nothing changes. Registration succeeds exactly when the email is free and the trimmed name has at least 2 UTF-16 units. Only the new user is then added, with the trimmed name, the normalised email, the bcrypt hash of the password and the given role (candidate by default), and an access token is signed for that user and role. |
| `Auth.RegisterKeepsValid` | backend/src/services/auth.service.ts:19-35 | Registration keeps the user store valid. |
| `Auth.Login` | backend/src/services/auth.service.ts:39-60 | An unknown email and a wrong password fail alike with "invalid credentials" and change nothing. Otherwise both tokens are signed for the found user, and the refresh token is stored for seven days. |
| `Auth.RegisterThenLogin` | backend/src/services/auth.service.ts:19-60 | A user who registered can log in with the same email and password, as the new user. |
| `Auth.Logout` | backend/src/services/auth.service.ts:62-65 | No refresh record of the user remains. Every other user's records are unchanged, and no token gains records. |
| `Auth.LogoutKeepsFresh` | backend/src/services/auth.service.ts:62-65 | Logout keeps every stored token distinct. |
| `Auth.Refresh` | backend/src/services/auth.service.ts:68-106 | A token that does not verify is refused and nothing changes. The presented token is consumed exactly when it verifies and its first stored record exists and has not expired. Only that record is then deleted and a new token is stored. The user is looked up only after that, and a missing user fails after the rotation. |
| `Auth.RotationCounts` | backend/src/services/auth.service.ts:83-92 | A rotation removes one record for the presented token and adds one for the minted token. Every other token's record count is unchanged. |
| `Auth.RefreshKeepsFresh` | backend/src/services/auth.service.ts:68-106 | A refresh with `jti` minting keeps every stored token distinct. |
| `Auth.ConsumedUnlessReminted` | backend/src/services/auth.service.ts:79-92 | A token held by at most one record is refused after its rotation, unless the rotation minted that very token again. |
| `Auth.RefreshSingleUse` | backend/src/services/auth.service.ts:68-106 | With `jti` minting a refresh token is single use. Once rotated, the same token is refused at any later time and changes nothing. |
| `Auth.AsWrittenSingleUseAcrossSeconds` | backend/src/services/auth.service.ts:83-92 | As written, a token rotated in a later second than its issue is refused afterwards. |
| `Auth.SameSecondReplay` | backend/src/services/auth.service.ts:85 | As written, two refreshes in the same second as the login both succeed with the same token. Each re-mints the presented token. |
| `Auth.LoginThenRefresh` | backend/src/services/auth.service.ts:39-106 | The refresh token from a login is rotated successfully while both the token and its record are live. |
| `Auth.LogoutRevokes` | backend/src/services/auth.service.ts:62-81 | After logout no refresh token of that user is accepted, and the refused refresh changes nothing. |
| `Auth.Sweep` | backend/src/models/refreshToken.model.ts:32 | After the TTL deletion no remaining record has expired, and each token keeps exactly its live records. |
| `Auth.SweepKeepsFresh` | backend/src/models/refreshToken.model.ts:32 | The TTL deletion keeps every stored token distinct. |
| `Auth.RefreshAnswerDeterminedBy` | backend/src/services/auth.service.ts:74-106 | The answer of a refresh depends on the store only through two things: whether the store holds a live record for the token, and how many tokens have been minted. |
| `Auth.SweepKeepsRefreshVerdict` | backend/src/services/auth.service.ts:79-81 | The TTL deletion, run at any time up to the refresh, never changes what a refresh answers. |
| `AuthDto.RegisterErrors` | backend/src/dtos/auth.dto.ts:10-29 | The reported properties are exactly the failing ones. |
| `AuthDto.ValidateRegister` | backend/src/dtos/auth.dto.ts:10-29 | A body passes exactly when every property passes its decorators: a non-empty name; an email that `isEmail` accepts with its default options (at most 254 UTF-16 units, a local part of at most 64 UTF-8 bytes in non-empty dot-separated pieces of allowed characters, a domain after the last `@` that passes `isFQDN` with a top-level domain); a password whose `isLength` count (characters other than U+FE0E and U+FE0F) is at least 6; one of the three roles; a non-empty code. The typed body carries the given values. A failure lists exactly the failing properties. |
| `AuthDto.AnyRoleAccepted` | backend/src/dtos/auth.dto.ts:22-23 | Every role, admin included, passes the server's role check and is kept. |
| `AuthDto.LoginErrors` | backend/src/dtos/auth.dto.ts:31-38 | The reported login properties are exactly the failing ones. |
| `AuthDto.ValidateLogin` | backend/src/dtos/auth.dto.ts:31-38 | A body passes exactly when `isEmail` accepts the email and the password is a non-empty string. A failure lists exactly the failing properties. |
| `AuthDto.ShortPasswordPassesLogin` | backend/src/dtos/auth.dto.ts:18-38 | For any address `isEmail` accepts, a one-character password passes login validation but fails register validation. |
| `Email.FormEmailIsAscii` | frontend/src/features/auth/registerSchema.ts:5 | An address the form's `email()` accepts is entirely ASCII. |
| `Email.AsciiServerEmailIsFormEmail` | backend/src/dtos/auth.dto.ts:15 | Every ASCII address that the server's `IsEmail` accepts is accepted by the form as well. |
| `Email.AsciiLocalPartIsFormLocal` | frontend/src/features/auth/registerSchema.ts:5 | An ASCII local part whose dot-pieces `isEmail` allows is non-empty and made of characters the form pattern allows. |
| `Email.AsciiLabelIsFormLabel` | frontend/src/features/auth/registerSchema.ts:5 | An ASCII label that `isFQDN` allows is a label of the form pattern. |
| `Email.ShortTldSplitsTheTests` | frontend/src/features/auth/registerSchema.ts:5 | "a@b.c" passes the form but not the server, because its top-level domain has one letter. |
| `Email.OneLetterTldSplitsTheTests` | frontend/src/features/auth/registerSchema.ts:5 | Any address whose top-level domain is one ASCII letter passes the form and is refused by the server. |
| `Email.BareHostSplitsTheTests` | frontend/src/features/auth/registerSchema.ts:5 | "a@b" passes the form but not the server, because it has no top-level domain. |
| `Email.ForeignLocalCharRefusedByBoth` | backend/src/dtos/auth.dto.ts:15 | A local part holding a character neither test allows, such as a parenthesis, is refused by both. |
| `Email.SimpleDomain` | backend/src/dtos/auth.dto.ts:15 | `host.tld`, with an alphanumeric host and a top-level domain of two or more ASCII letters, passes `isFQDN`. |
| `Email.OnePieceAddressIsEmail` | backend/src/dtos/auth.dto.ts:15 | A short local part without dots, followed by `@` and an ASCII domain that passes `isFQDN`, is accepted by the server. |
| `Email.SimpleAddressIsEmail` | backend/src/dtos/auth.dto.ts:15 | `local@host.tld` of that shape is accepted by the server, whatever characters of its allowed set the local part uses. |
| `Email.AsciiDomainFormEmail` | frontend/src/features/auth/registerSchema.ts:5 | For an address the server accepts, with an ASCII domain, the form agrees exactly when the local part is ASCII. |
| `Email.SimpleAddressFormEmail` | frontend/src/features/auth/registerSchema.ts:5 | So `local@host.tld` passes the form exactly when its local part is ASCII: "josé@example.com" passes the server and not the form. |
| `AuthController.View` | backend/src/controllers/auth.controller.ts:85-91 | The response's user has the stored id, name and email, and the role's lower-case spelling. |
| `AuthController.RequestRegisterOtp` | backend/src/controllers/auth.controller.ts:19-51 | A missing email gives 400 and a registered email gives 409, both changing nothing. Otherwise a code is issued for the email as given and mailed. The answer is 200, or 500 when the mail fails, although the code is stored either way. Users and sessions never change. |
| `AuthController.Register` | backend/src/controllers/auth.controller.ts:54-99 | An invalid body gives 400 and consumes nothing. Every answer is 201 or 400. A valid body always runs the code check, so an accepted code is consumed even when the account then fails. The answer is 201 exactly when the body validates, the code is redeemable and the account is created. The 201 body has the user and no tokens. Users change only in that case, and sessions never change. |
| `AuthController.OtpThenRegister` | backend/src/controllers/auth.controller.ts:19-99 | A code is requested, then the mailed code is used to register before it expires, with an email `isEmail` accepts and a password of at least six counted characters. The account is created exactly when the trimmed name has at least two UTF-16 units, and the new user is then found by email with the role asked for. |
| `AuthController.MailedCodeBodyValid` | backend/src/dtos/auth.dto.ts:10-29 | A register body with a present name, an `isEmail` address, a password of at least six counted characters, a known role and a six-digit code passes validation with exactly those values. |
| `AuthController.OtpConsumedWhenRegisterFails` | backend/src/controllers/auth.controller.ts:72-79 | When the account fails after the code was accepted, no user is added, and presenting the code again finds no record. |
| `AuthController.Login` | backend/src/controllers/auth.controller.ts:102-139 | An invalid body gives 400 and changes nothing. A service failure gives 401, and a success gives 200 with both tokens and the user. Only the sessions change. The token scheme is a parameter: `AsWritten` is jwt.ts. |
| `AuthController.LoginFailuresLookAlike` | backend/src/controllers/auth.controller.ts:102-139 | An unknown email and a wrong password get identical 401 responses, and neither changes anything. |
| `AuthController.Refresh` | backend/src/controllers/auth.controller.ts:162-186 | A missing token gives 400 and changes nothing. Otherwise the service's rotation, under the given token scheme, is applied: a failure gives 401, and a success gives 200 with the new tokens. |
| `AuthController.AsWrittenReplayAnswered` | backend/src/controllers/auth.controller.ts:162-186 | As written, a login followed by two refreshes with its refresh token in the same second is answered 200, 200 and 200, and both refreshes return the token that was presented. |
| `AuthController.RefreshAnsweredOnce` | backend/src/controllers/auth.controller.ts:162-186 | With a `jti` in every token, the first refresh of a live token is answered 200 and a second refresh with the same token, at any time, 401. |
| `AuthController.Logout` | backend/src/controllers/auth.controller.ts:142-160 | The answer is 200, and every refresh record of the user, and only those, is deleted. |
| `AuthController.RequestPasswordResetOtp` | backend/src/controllers/auth.controller.ts:191-215 | A missing email gives 400. Any other request gives 500, because the service method does not exist. Nothing changes. |
| `AuthController.ResetPassword` | backend/src/controllers/auth.controller.ts:217-248 | Missing fields give 400, and so does a new password under 6 UTF-16 units. Past both checks, the missing service method also gives 400. Nothing changes. |
| `AuthController.PasswordResetNeverSucceeds` | backend/src/controllers/auth.controller.ts:191-248 | No reset request succeeds or changes a password, and no reset-code request answers 200. |
| `Gates.VerifyAccess` | backend/src/utils/jwt.ts:3-15 | An access token verifies exactly when this server signed it and fewer than 15 minutes, in whole seconds, have passed since its issue second. |
| `Gates.BearerToken` | backend/src/middlewares/auth.middleware.ts:18 | The extracted token is the second space-separated segment and holds no space. |
| `Gates.Authenticate` | backend/src/middlewares/auth.middleware.ts:9-39 | A missing header, or one without the exact `Bearer ` prefix, gets 401. The caller is attached exactly when the token verifies, with the token's user and role. Every refusal is 401. |
| `Gates.BearerRoundTrip` | backend/src/middlewares/auth.middleware.ts:12-18 | The header the client builds yields back the token it carries, with or without trailing segments. |
| `Gates.SignedTokenAuthenticates` | backend/src/middlewares/auth.middleware.ts:20-30 | A signed, unexpired token presented as `Bearer <token>` authenticates as its user and role. |
| `Gates.LowerCaseSchemeRefused` | backend/src/middlewares/auth.middleware.ts:12-17 | `bearer <token>` is refused even for a valid token, because the scheme is matched case-sensitively (section 2.1 of RFC 7235 makes it case-insensitive). |
| `Gates.AuthorizeAsWritten` | backend/src/middlewares/role.middleware.ts:6-18 | As written, the gate answers 403 exactly when there is no user or the role is not listed, and it continues in every case. |
| `Gates.Authorize` | backend/src/middlewares/role.middleware.ts:6-18 | With the evidently intended `return`, the gate continues exactly when the role is listed and answers 403 exactly when it stops. |
| `Gates.GatesDifferOnlyWhenDenied` | backend/src/middlewares/role.middleware.ts:10-16 | The two gates agree on allowed callers. On denied callers both answer 403, but only the written gate continues. |
| `Gates.NoImplicitAdmin` | backend/src/middlewares/role.middleware.ts:10 | An admin passes only a gate that lists admin. |
| `Routes.Resolve` | backend/src/routes/job.routes.ts:8-13 | The chosen route is the first, in registration order, whose method and path match, literal segments compared without regard to case. No route before it matches, and no match means no route at all matches. |
| `Routes.MyBeforeId` | backend/src/routes/job.routes.ts:8-13 | `GET /my`, in any mix of case ("MY", "My"), reaches the poster's list and never the lookup by id. Every other single segment is taken as a job id. |
| `Routes.JobRouteGuards` | backend/src/routes/job.routes.ts:8-13 | Listing and reading jobs are public. Every other job route authenticates and then gates on recruiter. |
| `Routes.NoRouteListsAdmin` | backend/src/routes/application.routes.ts:15-42 | No role gate on either router lists admin. |
| `Routes.Run` | backend/src/routes/application.routes.ts:15-21 | A request runs through a route's steps in order. A denied role gate's first event is a 403, and with the corrected gate the 403 is all that happens. |
| `Routes.AsWrittenUploadAfterForbidden` | backend/src/routes/application.routes.ts:15-21 | As written, a non-candidate applying is answered 403, and yet the files are stored and the apply handler runs for them. |
| `Routes.CorrectedUploadOnlyForCandidates` | backend/src/routes/application.routes.ts:15-21 | With the corrected gate a non-candidate gets only a 403 and nothing is stored. A candidate's acceptable files are stored and then the handler runs. |
| `Routes.AsWrittenAdminUpdate` | backend/src/routes/job.routes.ts:12 | As written, an admin's `PUT /:id` is answered 403, the update handler still runs, and the service lets the admin change the job. With the corrected gate only the 403 happens. |
| `Routes.AdminNeverPastGate` | backend/src/routes/job.routes.ts:8-13 | With the corrected gate an admin reaches no gated job handler. |
| `Upload.FileFilter` | backend/src/middlewares/upload.middleware.ts:35-51 | A file is accepted exactly when its type is PDF, DOC or DOCX. A refusal carries the fixed message. |
| `Upload.PublicId` | backend/src/middlewares/upload.middleware.ts:19-26 | The public id starts with the caller's id followed by a dash. |
| `Upload.FileError` | backend/src/middlewares/upload.middleware.ts:32-58 | A file raises no error exactly when it is on a declared field not used by an earlier file, has an allowed type and is at most 5 MiB. |
| `Upload.FirstError` | backend/src/middlewares/upload.middleware.ts:32-58 | No error is reported exactly when no file from that position on fails. A reported error is the error of the first file that fails. |
| `Upload.NoErrorIffAcceptable` | backend/src/middlewares/upload.middleware.ts:32-58 | No file fails exactly when every file is acceptable and no field repeats. |
| `Upload.UploadFields` | backend/src/middlewares/upload.middleware.ts:55-58 | The upload succeeds exactly when every file is acceptable and no field repeats. The stored paths are keyed by exactly the fields sent, one path each, under the folder and the file's public id. A failure carries the first failing file's error. |
| `Upload.SecondResumeRefused` | backend/src/middlewares/upload.middleware.ts:55-58 | Two resume files fail the request. |
| `Upload.PublicIdRoundTrip` | backend/src/middlewares/upload.middleware.ts:22 | For an id without a dash, the public id reads back as the caller and the millisecond. |
| `Upload.PublicIdInjective` | backend/src/middlewares/upload.middleware.ts:22 | Two uploads share a public id exactly when they come from the same caller in the same millisecond. |
| `Jobs.ParseJobType` | backend/src/models/job.model.ts:4-9 | A string is a job type exactly when it spells one of the four, and the parsed type has that spelling. |
| `Jobs.ParseJobTypeName` | backend/src/models/job.model.ts:53-57 | Parsing the spelling of any job type gives back that type. |
| `Jobs.Failing` | backend/src/models/job.model.ts:28-77 | The reported paths are exactly those whose schema validators fail: title and description are measured in UTF-16 units (5 and 50), the trimmed strings must be non-empty, the job type is one of four, and the status one of three. Skills never fail, because `required` accepts an empty array and `minlength` is not an array validator. |
| `Jobs.Create` | backend/src/repositories/job.repository.ts:7-9 | A job is stored exactly when the document satisfies the schema, and the store gains just that document. A failure lists exactly the failing paths and stores nothing. An empty skills list is stored. |
| `Jobs.FindByPostedBy` | backend/src/repositories/job.repository.ts:15-17 | The result holds exactly the jobs the user posted, unchanged. |
| `Jobs.FindAllOpen` | backend/src/repositories/job.repository.ts:27-29 | The result holds exactly the jobs whose stored status is "open", unchanged. |
| `Jobs.Merge` | backend/src/repositories/job.repository.ts:19-21 | A supplied poster replaces the stored one, a supplied title is stored trimmed and a supplied status as given, and absent fields keep their stored values. |
| `Jobs.MergeIdempotent` | backend/src/repositories/job.repository.ts:19-21 | Merging the same patch twice gives the same result as merging it once. |
| `Jobs.Update` | backend/src/repositories/job.repository.ts:19-21 | An unknown id gives null and changes nothing. Otherwise only that job is replaced by the merge, without validation, and returned. |
| `Jobs.Delete` | backend/src/repositories/job.repository.ts:23-25 | That job is gone and every other job is unchanged. |
| `Wrappers.Lookup` | backend/src/repositories/job.repository.ts:11-13 | `findById` finds a record exactly when the id is stored, and returns the stored record; the application repository's `findById` is the same lookup. |
| `JobDto.CreateErrors` | backend/src/dtos/job.dto.ts:4-44 | The reported properties are exactly the failing ones. |
| `JobDto.ValidateCreate` | backend/src/dtos/job.dto.ts:4-44 | A body passes exactly when every property passes its decorators; title and description lengths are `isLength` counts, which skip U+FE0E and U+FE0F. The typed body carries the given values, with the job type parsed. A failure lists exactly the failing properties. |
| `JobDto.ValidateUpdate` | backend/src/dtos/job.dto.ts:46-82 | An update body is refused only for a supplied job type that is not one of the four. Otherwise every field is passed through as given, including a `postedBy` the body carries, which the DTO does not declare. |
| `JobDto.SelectorNotCounted` | backend/src/dtos/job.dto.ts:7 | A title of four letters and U+FE0F fails the five-character minimum, although its UTF-16 length, which the schema measures, is five. |
| `JobService.JobDataOf` | backend/src/services/job.service.ts:25-29 | The poster is the caller, and the status is the body's status when it is a non-empty string and "open" otherwise. |
| `JobService.CreateJob` | backend/src/services/job.service.ts:16-32 | A caller who is neither recruiter nor admin is refused and nothing changes. Otherwise the job is stored exactly when the schema accepts the document, an empty skills list included. It is then posted by the caller, with the trimmed title, the defaulted status and salary range, and it is well-formed. |
| `JobService.GetJobById` | backend/src/services/job.service.ts:34-40 | The job is returned exactly when it exists; otherwise the answer is "not found". |
| `JobService.GetMyJobs` | backend/src/services/job.service.ts:42-44 | The result holds exactly the caller's postings. |
| `JobService.GetAllOpenJobs` | backend/src/services/job.service.ts:46-48 | The result holds exactly the open jobs, so never a closed or paused one. |
| `JobService.UpdateJob` | backend/src/services/job.service.ts:50-72 | A missing job gives "not found" before ownership is checked. A caller who is neither the poster nor an admin gets "forbidden" and changes nothing. Otherwise only that job is replaced by the merge, a new poster included. |
| `JobService.DeleteJob` | backend/src/services/job.service.ts:74-89 | The same two gates apply, and then exactly that job is removed. |
| `JobService.CreateThenGet` | backend/src/services/job.service.ts:16-48 | A created job can be read back and is among its poster's jobs. It is listed as open exactly when its status is absent or "open". |
| `JobService.DeleteThenNotFound` | backend/src/services/job.service.ts:74-89 | After a delete the job is not found, and a second delete is refused as not found. |
| `JobService.UpdateIdempotent` | backend/src/services/job.service.ts:50-72 | Repeating an update changes the store no further. It answers as before unless the first update handed the job to someone the caller may not act for. |
| `JobService.OwnershipGate` | backend/src/services/job.service.ts:56-67 | Whoever may manage an existing job may both change and remove it, and whoever may not can do neither. An admin may always update. |
| `JobService.UnlistedStatusViaUpdate` | backend/src/repositories/job.repository.ts:19-21 | A status outside the enum fails at create. An owner's update stores it anyway, which hides the job from the open list. |
| `JobService.ArchivedByUpdate` | backend/src/services/job.service.ts:50-72 | An owner's patch of the status alone to "archived" is stored as is, although the schema would refuse it, and the job leaves the open list. |
| `JobService.PaddedTitlePassesDto` | backend/src/dtos/job.dto.ts:4-44 | A five-character plain-text title with whitespace at either end passes the request check, but fails the schema once trimmed, so creation fails. |
| `JobService.PaddedAstralTitlePassesBoth` | backend/src/models/job.model.ts:28-33 | A title of a leading space, three letters and a character beyond U+FFFF (" abc" and an emoji) passes the request check, and its trimmed form passes the schema, because the emoji counts two UTF-16 units. |
| `JobService.EmptySkillsAccepted` | backend/src/models/job.model.ts:63-67 | An empty skills list passes the request check and the schema: creation succeeds exactly when it would with any other list, and stores the empty list. |
| `JobService.SkillsNotValidated` | backend/src/models/job.model.ts:63-67 | No schema validator looks at the skills: replacing them never changes whether a job is well formed. |
| `JobService.OwnerHandsJobOver` | backend/src/services/job.service.ts:56-65 | An owner's update that names another poster succeeds and hands the job over: it leaves the owner's list, joins the other's, and the former owner, unless an admin, can no longer change it. |
| `Applications.ParseStatus` | backend/src/models/application.model.ts:3-9 | A string is a status exactly when it spells one of the five, and the parsed status has that spelling. |
| `Applications.ParseStatusName` | backend/src/models/application.model.ts:33-37 | Parsing the spelling of any status gives back that status. |
| `Applications.CompleteIffAllPaths` | backend/src/models/application.model.ts:23-41 | The data is complete exactly when every required path validates. |
| `Applications.MissingOf` | backend/src/models/application.model.ts:23-41 | The reported paths are exactly the missing required ones. |
| `Applications.Create` | backend/src/repositories/application.repository.ts:8-10 | An application is stored exactly when every required path is present and the pair (job, candidate) is new. Status defaults to "applied" and the cover letter to null. Missing paths are listed, and the unique pair index is preserved. |
| `Applications.FindByCandidate` | backend/src/repositories/application.repository.ts:16-18 | The result holds exactly the candidate's applications, unchanged. |
| `Applications.FindByJob` | backend/src/repositories/application.repository.ts:20-22 | The result holds exactly the job's applications, unchanged. |
| `Applications.UpdateStatus` | backend/src/repositories/application.repository.ts:24-34 | An unknown id gives null. Otherwise only that record's status changes, notes are dropped, and the unique pair index is preserved. |
| `Applications.AtMostOnePerPair` | backend/src/models/application.model.ts:52 | Under the unique index, a candidate's list and a job's list share at most one application. |
| `Applications.PairScan` | backend/src/services/application.service.ts:36-41 | Scanning the candidate's applications for the job is exactly the unique index's pair test. |
| `ApplicationDto.ValidateApply` | backend/src/dtos/application.dto.ts:4-7 | An apply body passes exactly when the job id is a 24-character string of hexadecimal digits, optionally after a `0x` or `0h` prefix in either case, and the typed body carries it. |
| `ApplicationDto.UpdateStatusErrors` | backend/src/dtos/application.dto.ts:11-20 | The reported properties are exactly the failing ones. |
| `ApplicationDto.ValidateUpdateStatus` | backend/src/dtos/application.dto.ts:11-20 | A body passes exactly when the status is one of the five and the notes, if given, are a string. The typed body carries the given status and notes. A failure lists exactly the failing properties. |
| `ApplicationDto.StatusAcceptedIffEnum` | backend/src/dtos/application.dto.ts:12-15 | A status string passes exactly when it spells one of the five statuses. |
| `ApplicationDto.PrefixedIdAccepted` | backend/src/dtos/application.dto.ts:5 | `0x` or `0h` followed by 22 hexadecimal digits passes `IsMongoId` unchanged, although it is not a string of 24 hexadecimal digits. |
| `ApplicationService.FirstFile` | backend/src/services/application.service.ts:29-34 | The first stored file of a field is found exactly when the field holds at least one file. |
| `ApplicationService.ApplicationData` | backend/src/services/application.service.ts:43-49 | The data to create names the job and the caller, with status "applied". |
| `ApplicationService.ApplyToJob` | backend/src/services/application.service.ts:22-50 | The checks run in order: role, resume, duplicate. Applying succeeds exactly when the caller is a candidate with a non-empty resume path who has not applied to the job. The new record is "applied", belongs to the caller and points at the uploaded files. Failures change nothing, and the unique pair index is preserved. |
| `ApplicationService.GetMyApplications` | backend/src/services/application.service.ts:52-54 | The result holds exactly the caller's applications. |
| `ApplicationService.GetApplicationsForJob` | backend/src/services/application.service.ts:56-66 | A non-staff caller is refused. Any recruiter or admin sees exactly the job's applications, whoever posted the job. |
| `ApplicationService.UpdateApplicationStatus` | backend/src/services/application.service.ts:68-97 | Role is checked first, then existence. The update succeeds exactly when the caller is staff and the id exists. Only that record's status then changes, and failures change nothing. |
| `ApplicationService.SecondApplyFails` | backend/src/services/application.service.ts:36-41 | Once a candidate has applied to a job, applying again is a duplicate and stores nothing. |
| `ApplicationService.ApplyCheckOrder` | backend/src/services/application.service.ts:25-34 | A non-candidate is refused before files are looked at. A missing resume is reported before duplicates are looked for. |
| `ApplicationService.ApplyThenListed` | backend/src/services/application.service.ts:22-66 | A successful application is listed among the candidate's and the job's applications, and it is the only one in both. |
| `ApplicationService.AnyTransition` | backend/src/services/application.service.ts:68-97 | There is no transition rule: any application may be moved from any status to any status, and its job and candidate are kept. |
| `ApplicationService.RoleBeforeExistence` | backend/src/services/application.service.ts:72-81 | A candidate is refused as forbidden even for an unknown id, while a recruiter gets "not found". |
| `ApplicationService.NotesIgnored` | backend/src/repositories/application.repository.ts:24-34 | An update with notes has the same effect as one without. |
| `ApplicationController.ApplyToJobWith` | backend/src/services/application.service.ts:22-27 | Given the input object, the service runs as modelled by `ApplyToJob`. Given the caller's id string instead, destructuring yields no role, and the request is refused as forbidden with nothing stored. |
| `ApplicationController.ServiceInputFor` | backend/src/controllers/application.controller.ts:42-48 | The call as written hands the service only the caller's id. The corrected call hands it the caller's id and role, the job id and the files. |
| `ApplicationController.Apply` | backend/src/controllers/application.controller.ts:12-61 | An invalid body gives 400 with the failing properties, and a missing resume 400. Every answer is 201 or 400, and only a 201 stores anything. With the corrected call the answer is 201 exactly when the body validates, the caller is a candidate with a non-empty resume path and has not applied to the job. A 201 carries the new application, "applied", of that job and caller, and the store gains just it. |
| `ApplicationController.AsWrittenNeverApplies` | backend/src/controllers/application.controller.ts:42-48 | As written, every apply request is answered 400 and stores nothing; a valid one with a resume is refused as forbidden. |
| `ApplicationController.PositionalCallRefusesCandidate` | backend/src/controllers/application.controller.ts:42-48 | A candidate's valid first application with a resume is answered 201 by the corrected call and 400 "forbidden" by the call as written. |
| `ApplicationController.CorrectedSecondApplyRefused` | backend/src/controllers/application.controller.ts:42-61 | With the corrected call, a second application by the same candidate to the same job is answered 400 as a duplicate and stores nothing. |
| `RegisterSchema.ValidateForm` | frontend/src/features/auth/registerSchema.ts:3-8 | The reported fields are exactly the failing ones, and none are reported exactly when the form is valid. Name and password lengths are UTF-16 units (2 and 6), the email passes the HTML email pattern Yup v1 uses, and the role is candidate or recruiter. |
| `RegisterSchema.ClientStricter` | frontend/src/features/auth/registerSchema.ts:3-8 | Whatever the form accepts, the server's register check accepts too once a code is attached, provided the email passes `isEmail` and the password has six counted characters; the role is never admin. |
| `RegisterSchema.FormAcceptsServerRefuses` | frontend/src/features/auth/registerSchema.ts:5-6 | Without those provisions the inclusion fails: the form accepts the email "a@b.c" and the password of three emoji, and the server refuses each. |
| `RegisterSchema.ServerLooser` | frontend/src/features/auth/registerSchema.ts:4-7 | For a form whose email and password the server accepts, the form refuses an admin role and a one-character name, and the server's register body check accepts both. The one-character name is then refused when the account is created, after the code has been consumed (`AuthController.OtpConsumedWhenRegisterFails`). |
| `AuthSlice.Reduce` | frontend/src/features/auth/authSlice.ts:24-36 | A login installs the payload's token, which may be undefined, and its user, and marks the state authenticated. A logout restores the initial state. |
| `AuthSlice.LastActionDecides` | frontend/src/features/auth/authSlice.ts:24-36 | After any non-empty run of actions, the state is what the last action makes of the initial state. |
| `AuthSlice.AuthenticatedIffLastLogin` | frontend/src/features/auth/authSlice.ts:14-36 | Starting from the initial state, the client is authenticated exactly when the last action was a login. It holds a token only when authenticated, and it is authenticated without a token exactly when that login carried none. |
| `AuthSlice.Dispatched` | frontend/src/features/auth/OtpVerify.tsx:53-58 | The sign-in forms dispatch a login carrying the answer's `accessToken`, present or not, and its `user`. |
| `AuthSlice.RegisterLeavesNoToken` | frontend/src/features/auth/OtpVerify.tsx:48-58 | After a 201 from registration the client is authenticated and holds the new user, but no access token. |
| `AuthSlice.LoginLeavesToken` | frontend/src/features/auth/Login.tsx:35-42 | After a 200 from login the client is authenticated and holds the access token signed for the user who logged in. |
| `AuthSlice.LogoutIdempotent` | frontend/src/features/auth/authSlice.ts:32-36 | Logging out twice has the same effect as logging out once, from any state. |
| `AuthSlice.LoginReplaces` | frontend/src/features/auth/authSlice.ts:24-31 | A login replaces any earlier session completely. |

## Left out

- The rest of the HTTP glue is not modelled: the job controller, the
  application controller's three read and update handlers, the dependency
  container, `app.ts` and `server.ts`. The routers are modelled as route
  tables and step traces, and those handlers as the services they call.
- As the repository stands, no API route is reachable. `app.ts` (lines 8-20)
  mounts no router, only `GET /`. The container (`container.ts`:10-12) binds
  only the user repository, `AuthService` and `UserService`, so the
  `container.get` calls for `JobService` and `ApplicationService` at the top
  of the two controllers fail as soon as those modules load. Every route table
  is modelled as if the routers were mounted under `/api`, the prefix the
  client's base URL uses, and as if both services and their repositories were
  bound.
- Routes: a trailing slash and percent-encoded segments are not modelled;
  a path is a sequence of raw segments.
- `backend/src/types/roles.ts` and `backend/src/constants/statusCodes.ts` are
  not part of this model. Roles are taken to be `candidate`, `recruiter` and
  `admin`, and status codes are the standard HTTP ones.
- `Messages.USER_NOT_FOUND`, which the messages file does not define, is
  modelled as an error value without text.
- Error message texts are modelled as error constructors, except for the
  upload filter's message and the authentication gate's two messages.
- Mongo ObjectId casting and `CastError`s are not modelled. Ids are opaque
  strings, and only the DTO's `IsMongoId` shape test is modelled. So an id
  of `0x` and 22 hexadecimal digits passes the DTO (`ApplicationDto.PrefixedIdAccepted`)
  where the later cast to an ObjectId would fail.
- `createdAt` and `updatedAt` timestamps are not modelled. Nothing the core
  decides depends on them.
- Email delivery, Cloudinary storage and bcrypt salts are left out. Mail
  delivery is a boolean parameter, and a hash is determined by its input. A
  stored file is modelled by the folder/public-id tail of the `secure_url`
  that the Cloudinary storage reports as the file's `path`. The https host
  and the rest of that URL are not modelled.
- Concurrency is not modelled. Each service call is atomic, so races between
  `findOne` and `deleteOne` in the code-check and refresh flows are not
  captured.
- When an upload fails, multer removes files it already stored. That cleanup
  is not modelled; a failed upload is a single `UploadFailed` event.
- `Text.Lower`: lower-cases ASCII letters only, where JavaScript's
  `toLowerCase` also maps other Unicode letters.
- `AuthDto.ValidateRegister`, `AuthDto.ValidateLogin`: `isEmail`'s quoted
  local parts (`"a b"@example.com`) are not modelled and are refused; its
  other default options (no display name, no IP-address domain, no
  blacklist) are as modelled.
- `JobDto.ValidateUpdate`, `Jobs.Merge`, `JobService.UpdateJob`: a field sent
  as an explicit `null` is modelled as absent, while `findByIdAndUpdate`
  stores the `null`. Non-string values for string fields are also not
  modelled. Of the undeclared properties a body may carry, only `postedBy`
  is modelled: every other schema path is declared by the DTO, and the
  timestamps are not modelled.
- `Auth.Sweep` models the TTL index as a single deletion at a chosen time.
  `Otp.SweepKeepsVerdict` models it as deleting any chosen set of expired
  records. The background monitor's schedule is not modelled.
- The frontend pages and components are left out, except for the
  authentication reducer and the register form schema. The pages only render
  data and call the API.

## Findings

| source | as written | input that shows it | evidently intended | confidence | as-written member | corrected member |
|---|---|---|---|---|---|---|
| backend/src/middlewares/role.middleware.ts:10-16 | `authorize` sends the 403 response and then calls `next()` anyway, because there is no `return` after the response | Once the routers are mounted under `/api` and the services bound, an admin with a valid token sends `PUT /api/jobs/<id>`. The admin gets 403, the update handler still runs, and the service lets an admin change any job, so the job is changed. The handler's own `res.status(200).json(...)` then throws `ERR_HTTP_HEADERS_SENT`, and so does the catch block's 400 response. The handler's promise is rejected, which on Express 4 under Node 15 or later ends the process; this consequence is not modelled. A recruiter who sends `POST /api/applications` with a resume also gets 403, and the file is uploaded and the apply handler runs. | A denied caller gets 403 and nothing after the gate runs | high; not executed | `Gates.AuthorizeAsWritten`, `Routes.AsWrittenAdminUpdate` | `Gates.Authorize`, `Routes.AdminNeverPastGate` |
| backend/src/services/auth.service.ts:85 | The rotated refresh token is signed over `{userId}` alone, plus the issue second (jwt.ts:17-29). A refresh in the same second as the token's issue therefore re-mints the presented token and stores it again. | Log in at 1000 ms, then present the returned refresh token twice at 1500 ms. Both refreshes succeed and return the same token, so a consumed token is honoured again. | Every rotation yields a token distinct from every earlier one, so a consumed token is refused | medium; not executed | `Auth.SameSecondReplay` | `Auth.RefreshSingleUse` |
| backend/src/controllers/application.controller.ts:42-48 | The handler calls `applyToJob(user.id, user.role, dto.jobId, resumeUrl, coverLetterUrl)`, but `applyToJob` takes one input object and destructures `userId`, `role`, `jobId` and `files` from it. The object it gets is the id string, whose `role` is undefined, so the role check throws "forbidden" and the handler answers 400. TypeScript would reject the call (TS2554); the model follows the emitted JavaScript. | Once the routers are mounted under `/api` and the services bound, a candidate with a valid token sends `POST /api/applications` with a valid job id and a resume. The answer is 400 "Forbidden", and no application is stored. | The handler passes `{ userId, role, jobId, files }`, and the candidate's application is stored with 201 | high; not executed | `ApplicationController.AsWrittenNeverApplies` | `ApplicationController.PositionalCallRefusesCandidate`, `ApplicationController.Apply` |

=== FILE: application_controller.dfy ===
/** The apply handler (application.controller.ts): validate the body, insist
    on an uploaded resume, then hand the request to `applyToJob` and answer
    201 with the stored application or 400 with the error.

    `applyToJob` takes one input object and destructures `userId`, `role`,
    `jobId` and `files` from it, but the handler calls it with five
    positional arguments, so the object it destructures is the caller's id
    — a string, whose `role` property is undefined. The role check then
    refuses every request. `ApplyCall` selects between that call and the
    evidently intended one that passes the input object.
 */
module ApplicationController {
  import opened Wrappers
  import opened Roles
  import opened Tokens
  import opened Applications
  import opened ApplicationDto
  import opened ApplicationService
  import Gates

  const StatusCreated: nat := 201
  const StatusBadRequest: nat := 400

  /** How the handler calls the service: `Positional` is the five-argument
      call in the source; `InputObject` passes `{ userId, role, jobId, files }`. */
  datatype ApplyCall = Positional | InputObject

  /** What `applyToJob` receives as its one parameter. */
  datatype ServiceInput =
    | Input(userId: UserId, role: Role, jobId: JobRef, files: Files)
    | IdOnly(id: UserId)

  /** `applyToJob(input)` after destructuring: a string input has no `role`,
      and an undefined role is not the candidate role. */
  function ApplyToJobWith(apps: AppStore, newId: AppId, input: ServiceInput): (r: AppStep<Application>)
    requires newId !in apps
    ensures input.IdOnly? ==> r == AppStep(apps, Err(Forbidden))
    ensures input.Input? ==> r == ApplyToJob(apps, newId, input.userId, input.role, input.jobId, input.files)
  {
    match input
    case IdOnly(_) => AppStep(apps, Err(Forbidden))
    case Input(userId, role, jobId, files) => ApplyToJob(apps, newId, userId, role, jobId, files)
  }

  datatype ApplyReply =
    | Created(application: Application)
    | ValidationFailed(errors: seq<ApplyField>)
    | ResumeMissing
    | ServiceRefused(error: AppError)

  datatype Response = Response(status: nat, body: ApplyReply)

  datatype Handled = Handled(apps: AppStore, response: Response)

  /** The service input the handler builds under each call shape. */
  function ServiceInputFor(caller: Gates.Caller, jobId: JobRef, files: Files, call: ApplyCall): (input: ServiceInput)
    ensures call == Positional <==> input.IdOnly?
    ensures input.Input? ==> input == Input(caller.id, caller.role, jobId, files)
  {
    match call
    case Positional => IdOnly(caller.id)
    case InputObject => Input(caller.id, caller.role, jobId, files)
  }

  /** `applyToJob` (the handler), after `authenticate` has set the caller. */
  function Apply(apps: AppStore, newId: AppId, caller: Gates.Caller, body: ApplyBody, files: Files, call: ApplyCall)
    : (r: Handled)
    requires newId !in apps
    ensures r.response.status == StatusCreated || r.response.status == StatusBadRequest
    ensures r.response.status != StatusCreated ==> r.apps == apps
    ensures ValidateApply(body).Err? ==>
      r == Handled(apps, Response(StatusBadRequest, ValidationFailed(ValidateApply(body).error)))
    ensures ValidateApply(body).Ok? && FirstFile(files, "resume").None? ==>
      r == Handled(apps, Response(StatusBadRequest, ResumeMissing))
    ensures call == InputObject ==>
      (r.response.status == StatusCreated <==>
        && ValidateApply(body).Ok?
        && caller.role == Candidate
        && FirstFile(files, "resume").Some? && FirstFile(files, "resume").value != []
        && !HasApplied(apps, caller.id, ValidateApply(body).value.jobId))
    ensures r.response.status == StatusCreated ==>
      && ValidateApply(body).Ok?
      && r.response.body.Created?
      && r.response.body.application.job == ValidateApply(body).value.jobId
      && r.response.body.application.candidate == caller.id
      && r.response.body.application.status == Applied
      && r.apps == apps[newId := r.response.body.application]
  {
    match ValidateApply(body)
    case Err(fs) => Handled(apps, Response(StatusBadRequest, ValidationFailed(fs)))
    case Ok(dto) =>
      if FirstFile(files, "resume").None? then Handled(apps, Response(StatusBadRequest, ResumeMissing))
      else
        var step := ApplyToJobWith(apps, newId, ServiceInputFor(caller, dto.jobId, files, call));
        match step.result
        case Ok(a) => Handled(step.apps, Response(StatusCreated, Created(a)))
        case Err(e) => Handled(apps, Response(StatusBadRequest, ServiceRefused(e)))
  }

  /** As written, no request ever creates an application: a well-formed
      request from a candidate with a resume is answered 400 "Forbidden". */
  lemma AsWrittenNeverApplies(apps: AppStore, newId: AppId, caller: Gates.Caller, body: ApplyBody, files: Files)
    requires newId !in apps
    ensures var r := Apply(apps, newId, caller, body, files, Positional);
      && r.response.status == StatusBadRequest
      && r.apps == apps
      && (ValidateApply(body).Ok? && FirstFile(files, "resume").Some? ==> r.response.body == ServiceRefused(Forbidden))
  {
    var r := Apply(apps, newId, caller, body, files, Positional);
    if ValidateApply(body).Ok? && FirstFile(files, "resume").Some? {
      assert ServiceInputFor(caller, ValidateApply(body).value.jobId, files, Positional).IdOnly?;
    }
  }

  /** The input with the discrepancy: the same candidate request that the
      intended call stores is refused by the call as written. */
  lemma PositionalCallRefusesCandidate(apps: AppStore, newId: AppId, caller: Gates.Caller, body: ApplyBody, files: Files)
    requires newId !in apps
    requires caller.role == Candidate
    requires ValidateApply(body).Ok?
    requires FirstFile(files, "resume").Some? && FirstFile(files, "resume").value != []
    requires !HasApplied(apps, caller.id, ValidateApply(body).value.jobId)
    ensures Apply(apps, newId, caller, body, files, InputObject).response.status == StatusCreated
    ensures Apply(apps, newId, caller, body, files, Positional).response
         == Response(StatusBadRequest, ServiceRefused(Forbidden))
  {
    AsWrittenNeverApplies(apps, newId, caller, body, files);
  }

  /** With the intended call, a candidate's second application to the same
      job is answered 400 and stores nothing. */
  lemma CorrectedSecondApplyRefused(apps: AppStore, id1: AppId, id2: AppId, caller: Gates.Caller,
                                    body: ApplyBody, files1: Files, files2: Files)
    requires id1 !in apps
    requires Apply(apps, id1, caller, body, files1, InputObject).response.status == StatusCreated
    requires id2 !in Apply(apps, id1, caller, body, files1, InputObject).apps
    requires FirstFile(files2, "resume").Some?
    ensures var once := Apply(apps, id1, caller, body, files1, InputObject).apps;
      Apply(once, id2, caller, body, files2, InputObject)
        == Handled(once, Response(StatusBadRequest, ServiceRefused(AlreadyApplied)))
  {
    var jobId := ValidateApply(body).value.jobId;
    assert ApplyToJob(apps, id1, caller.id, Candidate, jobId, files1).result.Ok?;
    SecondApplyFails(apps, id1, id2, caller.id, jobId, files1, files2);
  }
}

=== FILE: application_dto.dfy ===
/** The application request bodies (application.dto.ts). The apply body
    carries only the job id; who applies and the initial status come from
    the authenticated caller and the service, never from the body.
 */
module ApplicationDto {
  import opened Wrappers
  import opened Text
  import opened Applications
  import Validation

  /** A JSON body value as class-validator sees it: a string or anything else. */
  datatype BodyValue = Str(s: string) | NonString

  datatype ApplyBody = ApplyBody(jobId: Option<BodyValue>)
  datatype ApplyDto = ApplyDto(jobId: string)

  datatype ApplyField = JobIdField

  /** `IsMongoId`: 24 hexadecimal characters, else "Invalid job ID". */
  function ValidateApply(b: ApplyBody): (r: Result<ApplyDto, seq<ApplyField>>)
    ensures r.Ok? <==> b.jobId.Some? && b.jobId.value.Str? && IsMongoIdShaped(b.jobId.value.s)
    ensures r.Ok? ==> b.jobId == Some(Str(r.value.jobId)) && IsMongoIdShaped(r.value.jobId)
    ensures r.Err? ==> r.error == [JobIdField]
  {
    match b.jobId
    case Some(Str(s)) => if IsMongoIdShaped(s) then Ok(ApplyDto(s)) else Err([JobIdField])
    case _ => Err([JobIdField])
  }

  datatype UpdateStatusBody = UpdateStatusBody(status: Option<BodyValue>, notes: Option<BodyValue>)
  datatype UpdateStatusDto = UpdateStatusDto(status: ApplicationStatus, notes: Option<string>)

  datatype UpdateStatusField = StatusField | NotesField

  /** The DTO's properties, in declaration order. */
  const UpdateStatusFields: seq<UpdateStatusField> := [StatusField, NotesField]

  lemma AllUpdateStatusFields()
    ensures forall f: UpdateStatusField :: f in UpdateStatusFields
  {
    forall f: UpdateStatusField ensures f in UpdateStatusFields {
      assert f.StatusField? || f.NotesField?;
    }
  }

  predicate UpdateStatusFieldValid(b: UpdateStatusBody, f: UpdateStatusField)
  {
    match f
    case StatusField => b.status.Some? && b.status.value.Str? && ParseStatus(b.status.value.s).Some?
    case NotesField => b.notes.None? || b.notes.value.Str?
  }

  /** The failing properties, in declaration order. */
  function UpdateStatusErrors(b: UpdateStatusBody): (errs: seq<UpdateStatusField>)
    ensures forall f :: f in errs <==> !UpdateStatusFieldValid(b, f)
  {
    AllUpdateStatusFields();
    Validation.Failing(UpdateStatusFields, set f | f in UpdateStatusFields && !UpdateStatusFieldValid(b, f))
  }

  /** `IsEnum(ApplicationStatus)` on status, else "Invalid application
      status"; `IsOptional` then `IsString` on notes. */
  function ValidateUpdateStatus(b: UpdateStatusBody): (r: Result<UpdateStatusDto, seq<UpdateStatusField>>)
    ensures r.Ok? <==> forall f :: UpdateStatusFieldValid(b, f)
    ensures r.Err? ==> r.error != [] && forall f :: f in r.error <==> !UpdateStatusFieldValid(b, f)
    ensures r.Ok? ==>
      && b.status == Some(Str(StatusName(r.value.status)))
      && (r.value.notes.None? <==> b.notes.None?)
      && (r.value.notes.Some? ==> b.notes == Some(Str(r.value.notes.value)))
  {
    if forall f :: UpdateStatusFieldValid(b, f) then
      assert UpdateStatusFieldValid(b, StatusField) && UpdateStatusFieldValid(b, NotesField);
      Ok(UpdateStatusDto(ParseStatus(b.status.value.s).value,
                         if b.notes.Some? then Some(b.notes.value.s) else None))
    else Err(UpdateStatusErrors(b))
  }

  /** Every one of the five statuses, and nothing else, passes the check. */
  lemma StatusAcceptedIffEnum(s: string, notes: Option<BodyValue>)
    requires notes.None? || notes.value.Str?
    ensures ValidateUpdateStatus(UpdateStatusBody(Some(Str(s)), notes)).Ok?
        <==> exists t: ApplicationStatus :: StatusName(t) == s
  {
    if exists t: ApplicationStatus :: StatusName(t) == s {
      var t: ApplicationStatus :| StatusName(t) == s;
      ParseStatusName(t);
    }
  }

  /** A 24-character id that is a `0x` or `0h` prefix (in either case) and 22
      hexadecimal digits passes `IsMongoId` unchanged, although it is not a
      string of 24 hexadecimal digits. */
  lemma PrefixedIdAccepted(prefix: string, digits: string)
    requires prefix in ["0x", "0X", "0h", "0H"]
    requires |digits| == 22 && AllHex(digits)
    ensures ValidateApply(ApplyBody(Some(Str(prefix + digits)))) == Ok(ApplyDto(prefix + digits))
    ensures !AllHex(prefix + digits)
  {
    var s := prefix + digits;
    assert s[2..] == digits;
    assert s[0] == '0' && s[1] in "xXhH";
    assert !IsHexDigit(s[1]);
  }
}

=== FILE: application_service.dfy ===
/** `ApplicationService` (application.service.ts). Applying runs four checks
    in a fixed order — role, resume, duplicate, create — and the status
    update is an unconstrained overwrite gated on role alone.
 */
module ApplicationService {
  import opened Wrappers
  import opened Text
  import opened Roles
  import opened Tokens
  import opened Applications

  /** The uploaded files by field name, as multer leaves them on the request:
      each entry lists the stored files' paths; `None` is a request without
      any multipart files. */
  type Files = Option<map<string, seq<string>>>

  /** `files?.[field]?.[0]?.path`: the first stored file of a field. */
  function FirstFile(files: Files, field: string): (r: Option<string>)
    ensures r.Some? <==> files.Some? && field in files.value && files.value[field] != []
    ensures r.Some? ==> r.value == files.value[field][0]
  {
    if files.Some? && field in files.value && files.value[field] != [] then Some(files.value[field][0]) else None
  }

  datatype AppError = Forbidden | ResumeRequired | AlreadyApplied | ResourceNotFound | UpdateFailed
                    | CreateFailed(cause: CreateError)

  datatype AppStep<T> = AppStep(apps: AppStore, result: Result<T, AppError>)

  predicate HasApplied(apps: AppStore, userId: UserId, jobId: JobRef)
  {
    exists id :: id in FindByCandidate(apps, userId) && FindByCandidate(apps, userId)[id].job == jobId
  }

  /** The record `applyToJob` asks the repository to create. */
  function ApplicationData(userId: UserId, jobId: JobRef, resume: string, cover: Option<string>): (d: AppData)
    ensures d.job == Some(jobId) && d.candidate == Some(userId) && d.status == Some(Applied)
  {
    AppData(Some(jobId), Some(userId), Some(Applied), Some(resume), cover)
  }

  /** `applyToJob`: only a candidate may apply, a resume must have been
      uploaded, and a second application to the same job is refused; the
      new record is "applied", belongs to the caller and points at the
      uploaded files. */
  function ApplyToJob(apps: AppStore, newId: AppId, userId: UserId, role: Role, jobId: JobRef, files: Files)
    : (r: AppStep<Application>)
    requires newId !in apps
    ensures r.result.Err? ==> r.apps == apps
    ensures role != Candidate ==> r.result == Err(Forbidden)
    ensures role == Candidate && FirstFile(files, "resume").None? ==> r.result == Err(ResumeRequired)
    ensures role == Candidate && FirstFile(files, "resume").Some? && HasApplied(apps, userId, jobId)
            ==> r.result == Err(AlreadyApplied)
    ensures r.result.Ok? <==>
      && role == Candidate
      && FirstFile(files, "resume").Some? && FirstFile(files, "resume").value != []
      && !HasApplied(apps, userId, jobId)
    ensures r.result.Ok? ==>
      && r.result.value == Application(jobId, userId, Applied, FirstFile(files, "resume").value,
                                       FirstFile(files, "coverLetter"))
      && r.apps == apps[newId := r.result.value]
    ensures UniquePairs(apps) ==> UniquePairs(r.apps)
  {
    if role != Candidate then AppStep(apps, Err(Forbidden))
    else
      match FirstFile(files, "resume")
      case None => AppStep(apps, Err(ResumeRequired))
      case Some(resume) =>
        if HasApplied(apps, userId, jobId) then AppStep(apps, Err(AlreadyApplied))
        else
          PairScan(apps, jobId, userId);
          var cover := FirstFile(files, "coverLetter");
          match Applications.Create(apps, newId, ApplicationData(userId, jobId, resume, cover))
          case Err(e) => AppStep(apps, Err(CreateFailed(e)))
          case Ok(stored) => AppStep(stored, Ok(Application(jobId, userId, Applied, resume, cover)))
  }

  /** `getMyApplications`: the caller's applications, for any role. */
  function GetMyApplications(apps: AppStore, candidateId: UserId): (r: AppStore)
    ensures forall id :: id in r <==> id in apps && apps[id].candidate == candidateId
    ensures forall id :: id in r ==> r[id] == apps[id]
  {
    FindByCandidate(apps, candidateId)
  }

  /** `getApplicationsForJob`: a recruiter or admin sees every application to
      the job; whether the caller posted the job is not consulted. */
  function GetApplicationsForJob(apps: AppStore, recruiterId: UserId, role: Role, jobId: JobRef)
    : (r: Result<AppStore, AppError>)
    ensures r.Err? <==> !Staff(role)
    ensures r.Err? ==> r.error == Forbidden
    ensures r.Ok? ==> forall id :: id in r.value <==> id in apps && apps[id].job == jobId
    ensures r.Ok? ==> forall id :: id in r.value ==> r.value[id] == apps[id]
  {
    if !Staff(role) then Err(Forbidden)
    else Ok(FindByJob(apps, jobId))
  }

  /** `updateApplicationStatus`: role first, then existence; any status may
      replace any other, and only that record changes. */
  function UpdateApplicationStatus(apps: AppStore, recruiterId: UserId, role: Role, id: AppId,
                                   status: ApplicationStatus, notes: Option<string>)
    : (r: AppStep<Application>)
    ensures r.result.Err? ==> r.apps == apps
    ensures !Staff(role) ==> r.result == Err(Forbidden)
    ensures Staff(role) && id !in apps ==> r.result == Err(ResourceNotFound)
    ensures r.result.Ok? <==> Staff(role) && id in apps
    ensures r.result.Ok? ==>
      && r.result.value == apps[id].(status := status)
      && r.apps == apps[id := r.result.value]
    ensures UniquePairs(apps) ==> UniquePairs(r.apps)
  {
    if !Staff(role) then AppStep(apps, Err(Forbidden))
    else
      match Lookup(apps, id)
      case None => AppStep(apps, Err(ResourceNotFound))
      case Some(_) =>
        var (after, updated) := UpdateStatus(apps, id, status, notes);
        match updated
        case None => AppStep(apps, Err(UpdateFailed))
        case Some(a) => AppStep(after, Ok(a))
  }

  /** Once a candidate has applied to a job, applying again fails as a
      duplicate and stores nothing, whatever files come with it. */
  lemma SecondApplyFails(apps: AppStore, id1: AppId, id2: AppId, userId: UserId, jobId: JobRef,
                         files1: Files, files2: Files)
    requires id1 !in apps
    requires ApplyToJob(apps, id1, userId, Candidate, jobId, files1).result.Ok?
    requires id2 !in ApplyToJob(apps, id1, userId, Candidate, jobId, files1).apps
    requires FirstFile(files2, "resume").Some?
    ensures var once := ApplyToJob(apps, id1, userId, Candidate, jobId, files1).apps;
      ApplyToJob(once, id2, userId, Candidate, jobId, files2) == AppStep(once, Err(AlreadyApplied))
  {
    var once := ApplyToJob(apps, id1, userId, Candidate, jobId, files1).apps;
    assert id1 in FindByCandidate(once, userId);
  }

  /** The checks run in order: a non-candidate is refused before anything
      about files or earlier applications is looked at, and a missing resume
      is reported even when the candidate has already applied. */
  lemma ApplyCheckOrder(apps: AppStore, newId: AppId, userId: UserId, role: Role, jobId: JobRef, files: Files)
    requires newId !in apps
    ensures role != Candidate ==>
      ApplyToJob(apps, newId, userId, role, jobId, files) == AppStep(apps, Err(Forbidden))
    ensures role == Candidate && FirstFile(files, "resume").None? ==>
      ApplyToJob(apps, newId, userId, role, jobId, files) == AppStep(apps, Err(ResumeRequired))
  {
  }

  /** A successful application is the one and only application of its pair,
      so it appears once among the job's and once among the candidate's. */
  lemma ApplyThenListed(apps: AppStore, newId: AppId, userId: UserId, jobId: JobRef, files: Files, other: AppId)
    requires newId !in apps && UniquePairs(apps)
    requires ApplyToJob(apps, newId, userId, Candidate, jobId, files).result.Ok?
    ensures var after := ApplyToJob(apps, newId, userId, Candidate, jobId, files).apps;
      && newId in GetMyApplications(after, userId)
      && GetApplicationsForJob(after, userId, Recruiter, jobId).Ok?
      && newId in GetApplicationsForJob(after, userId, Recruiter, jobId).value
      && (other in GetMyApplications(after, userId) && other in GetApplicationsForJob(after, userId, Recruiter, jobId).value
          ==> other == newId)
  {
    var after := ApplyToJob(apps, newId, userId, Candidate, jobId, files).apps;
    if other in GetMyApplications(after, userId) && other in GetApplicationsForJob(after, userId, Recruiter, jobId).value {
      AtMostOnePerPair(after, jobId, userId, other, newId);
    }
  }

  /** There is no transition rule: a recruiter may move any application from
      any status to any status, a hired or rejected one included. */
  lemma AnyTransition(apps: AppStore, recruiterId: UserId, id: AppId, target: ApplicationStatus)
    requires id in apps
    ensures var r := UpdateApplicationStatus(apps, recruiterId, Recruiter, id, target, None);
      r.result.Ok? && r.result.value.status == target
      && r.result.value.job == apps[id].job && r.result.value.candidate == apps[id].candidate
  {
  }

  /** Role is checked before existence: a candidate is refused as forbidden
      even for an id that does not exist. */
  lemma RoleBeforeExistence(apps: AppStore, userId: UserId, id: AppId, status: ApplicationStatus)
    requires id !in apps
    ensures UpdateApplicationStatus(apps, userId, Candidate, id, status, None).result == Err(Forbidden)
    ensures UpdateApplicationStatus(apps, userId, Recruiter, id, status, None).result == Err(ResourceNotFound)
  {
  }

  /** Notes are not stored: the same update with or without notes leaves
      the same store. */
  lemma NotesIgnored(apps: AppStore, recruiterId: UserId, role: Role, id: AppId, status: ApplicationStatus, notes: string)
    ensures UpdateApplicationStatus(apps, recruiterId, role, id, status, Some(notes))
         == UpdateApplicationStatus(apps, recruiterId, role, id, status, None)
  {
  }
}

=== FILE: applications.dfy ===
/** The application collection (application.model.ts) and its repository
    (application.repository.ts).

    Applications live in a map from opaque ids. The schema requires a job,
    a candidate and a resume URL, defaults the status to "applied" and the
    cover letter URL to null, and carries a unique index on the pair
    (job, candidate). `notes` is not a schema path, so the strict schema
    drops it on update.
 */
module Applications {
  import opened Wrappers
  import opened Text
  import Validation
  import opened Tokens

  type AppId = string
  type JobRef = string

  datatype ApplicationStatus = Applied | Shortlisted | Interviewed | Rejected | Hired

  function StatusName(s: ApplicationStatus): string
  {
    match s
    case Applied => "applied"
    case Shortlisted => "shortlisted"
    case Interviewed => "interviewed"
    case Rejected => "rejected"
    case Hired => "hired"
  }

  /** Membership in the status enum, as both the schema and `IsEnum` test it. */
  function ParseStatus(s: string): (r: Option<ApplicationStatus>)
    ensures r.Some? ==> StatusName(r.value) == s
    ensures r.None? ==> forall t: ApplicationStatus :: StatusName(t) != s
  {
    if s == "applied" then Some(Applied)
    else if s == "shortlisted" then Some(Shortlisted)
    else if s == "interviewed" then Some(Interviewed)
    else if s == "rejected" then Some(Rejected)
    else if s == "hired" then Some(Hired)
    else None
  }

  lemma ParseStatusName(s: ApplicationStatus)
    ensures ParseStatus(StatusName(s)) == Some(s)
  {
  }

  /** A stored application. The status type is the enum itself, so a stored
      status is always one of the five; a `None` cover letter is null. */
  datatype Application = Application(job: JobRef, candidate: UserId, status: ApplicationStatus,
                                     resumeUrl: string, coverLetterUrl: Option<string>)

  type AppStore = map<AppId, Application>

  /** The data handed to `Application.create`; an absent path is `None`. */
  datatype AppData = AppData(job: Option<JobRef>, candidate: Option<UserId>, status: Option<ApplicationStatus>,
                             resumeUrl: Option<string>, coverLetterUrl: Option<string>)

  datatype AppPath = JobPath | CandidatePath | ResumePath

  /** Mongoose's `required`: an id must be given; a string must be non-empty. */
  predicate AppPathValid(d: AppData, p: AppPath)
  {
    match p
    case JobPath => d.job.Some?
    case CandidatePath => d.candidate.Some?
    case ResumePath => Present(d.resumeUrl)
  }

  /** The schema's required paths, in declaration order. */
  const AppPaths: seq<AppPath> := [JobPath, CandidatePath, ResumePath]

  lemma AllAppPaths()
    ensures forall p: AppPath :: p in AppPaths
  {
    forall p: AppPath ensures p in AppPaths {
      assert p.JobPath? || p.CandidatePath? || p.ResumePath?;
    }
  }

  /** Every required path is there. */
  predicate Complete(d: AppData)
  {
    d.job.Some? && d.candidate.Some? && Present(d.resumeUrl)
  }

  lemma CompleteIffAllPaths(d: AppData)
    ensures Complete(d) <==> forall p :: AppPathValid(d, p)
  {
    if Complete(d) {
      forall p ensures AppPathValid(d, p) {
        assert p.JobPath? || p.CandidatePath? || p.ResumePath?;
      }
    } else {
      assert !AppPathValid(d, JobPath) || !AppPathValid(d, CandidatePath) || !AppPathValid(d, ResumePath);
    }
  }

  /** The required paths that are missing, in declaration order. */
  function MissingOf(d: AppData): (errs: seq<AppPath>)
    ensures forall p :: p in errs <==> !AppPathValid(d, p)
  {
    AllAppPaths();
    Validation.Failing(AppPaths, set p | p in AppPaths && !AppPathValid(d, p))
  }

  datatype CreateError = MissingPaths(paths: seq<AppPath>) | DuplicateKey

  /** The unique index on (job, candidate): no two stored applications share
      a job and a candidate. */
  ghost predicate UniquePairs(apps: AppStore)
  {
    forall a, b :: a in apps && b in apps && a != b ==>
      apps[a].job != apps[b].job || apps[a].candidate != apps[b].candidate
  }

  predicate HasPair(apps: AppStore, job: JobRef, candidate: UserId)
  {
    exists id :: id in apps && apps[id].job == job && apps[id].candidate == candidate
  }

  /** `create`: the required paths are validated first, then the unique
      index refuses a second application for the same pair. */
  function Create(apps: AppStore, id: AppId, d: AppData): (r: Result<AppStore, CreateError>)
    requires id !in apps
    ensures r.Ok? <==> Complete(d) && !HasPair(apps, d.job.value, d.candidate.value)
    ensures r.Ok? ==> r.value == apps[id := Application(d.job.value, d.candidate.value, d.status.GetOr(Applied),
                                                       d.resumeUrl.value, d.coverLetterUrl)]
    ensures r.Err? && r.error.MissingPaths? ==>
      r.error.paths != [] && forall p :: p in r.error.paths <==> !AppPathValid(d, p)
    ensures UniquePairs(apps) && r.Ok? ==> UniquePairs(r.value)
  {
    CompleteIffAllPaths(d);
    if Complete(d) then
      if HasPair(apps, d.job.value, d.candidate.value) then Err(DuplicateKey)
      else
        Ok(apps[id := Application(d.job.value, d.candidate.value, d.status.GetOr(Applied),
                                  d.resumeUrl.value, d.coverLetterUrl)])
    else Err(MissingPaths(MissingOf(d)))
  }

  /** `find({candidate: userId})`: exactly that candidate's applications. */
  function FindByCandidate(apps: AppStore, userId: UserId): (r: AppStore)
    ensures forall id :: id in r <==> id in apps && apps[id].candidate == userId
    ensures forall id :: id in r ==> r[id] == apps[id]
  {
    map id | id in apps && apps[id].candidate == userId :: apps[id]
  }

  /** `find({job: jobId})`: exactly the applications to that job. */
  function FindByJob(apps: AppStore, jobId: JobRef): (r: AppStore)
    ensures forall id :: id in r <==> id in apps && apps[id].job == jobId
    ensures forall id :: id in r ==> r[id] == apps[id]
  {
    map id | id in apps && apps[id].job == jobId :: apps[id]
  }

  /** `findByIdAndUpdate(id, {status, notes}, {new: true})`: the record with
      the new status, or null; `notes` is not a schema path and is dropped. */
  function UpdateStatus(apps: AppStore, id: AppId, status: ApplicationStatus, notes: Option<string>)
    : (r: (AppStore, Option<Application>))
    ensures id !in apps ==> r == (apps, None)
    ensures id in apps ==>
      && r.1 == Some(apps[id].(status := status))
      && r.0 == apps[id := apps[id].(status := status)]
    ensures UniquePairs(apps) ==> UniquePairs(r.0)
  {
    if id in apps then
      var a := apps[id].(status := status);
      (apps[id := a], Some(a))
    else (apps, None)
  }

  /** Under the index, the candidate's and the job's lists share at most one
      application. */
  lemma AtMostOnePerPair(apps: AppStore, job: JobRef, candidate: UserId, a: AppId, b: AppId)
    requires UniquePairs(apps)
    requires a in FindByCandidate(apps, candidate) && a in FindByJob(apps, job)
    requires b in FindByCandidate(apps, candidate) && b in FindByJob(apps, job)
    ensures a == b
  {
  }

  /** The pair test the service runs over the candidate's list is the
      index's own test. */
  lemma PairScan(apps: AppStore, job: JobRef, candidate: UserId)
    ensures HasPair(apps, job, candidate) <==>
      exists id :: id in FindByCandidate(apps, candidate) && FindByCandidate(apps, candidate)[id].job == job
  {
    var mine := FindByCandidate(apps, candidate);
    if HasPair(apps, job, candidate) {
      var id :| id in apps && apps[id].job == job && apps[id].candidate == candidate;
      assert id in mine && mine[id].job == job;
    }
  }
}

=== FILE: auth.dfy ===
/** `AuthService` (auth.service.ts) over the user store and the refresh-token
    collection (refreshToken.model.ts).

    The refresh-token collection is a sequence of records in store order; a
    `findOne` returns the first match. How refresh tokens are minted is a
    parameter: `AsWritten` signs only `{userId}` (plus the issue second), as
    jwt.ts does, so two tokens minted for one user in one second are equal;
    `WithJwtId` adds a `jti` drawn from a counter of issued tokens, which
    makes every minted token distinct. The handlers take the scheme as a
    parameter; `AsWritten` is jwt.ts.
 */
module Auth {
  import opened Wrappers
  import opened Roles
  import opened Tokens
  import opened Users

  datatype RefreshRecord = RefreshRecord(token: RefreshJwt, user: UserId, expiresAt: int)

  /** The refresh-token collection and the number of tokens minted with a
      `jti` so far. */
  datatype Sessions = Sessions(records: seq<RefreshRecord>, issued: nat)

  datatype Minting = AsWritten | WithJwtId

  datatype AuthError =
    | EmailAlreadyExists
    | InvalidCredentials
    | RefreshNotVerified          // `jwt.verify` throws: foreign or expired token
    | InvalidOrExpiredRefresh     // no live stored record for the token
    | UserNotFound
    | UserInvalid(cause: UserError)

  /** A query filter over the refresh-token collection; `Live(at)` keeps the
      records the TTL index has no reason to drop at time `at`. */
  datatype Filter = ByToken(token: RefreshJwt) | ByUser(user: UserId) | ExceptUser(other: UserId) | Live(at: int)

  predicate Matches(rec: RefreshRecord, f: Filter)
  {
    match f
    case ByToken(t) => rec.token == t
    case ByUser(u) => rec.user == u
    case ExceptUser(u) => rec.user != u
    case Live(at) => rec.expiresAt >= at
  }

  /** The records a filter selects, in store order. */
  function Select(records: seq<RefreshRecord>, f: Filter): (r: seq<RefreshRecord>)
  {
    if |records| == 0 then []
    else (if Matches(records[0], f) then [records[0]] else []) + Select(records[1..], f)
  }

  /** A selection is never longer than the records it selects from. */
  lemma {:induction false} SelectShrinks(records: seq<RefreshRecord>, f: Filter)
    ensures |Select(records, f)| <= |records|
    decreases |records|
  {
    if |records| > 0 {
      SelectShrinks(records[1..], f);
    }
  }

  /** Every selected record passes the filter. */
  lemma {:induction false} SelectMatches(records: seq<RefreshRecord>, f: Filter)
    ensures forall k :: 0 <= k < |Select(records, f)| ==> Matches(Select(records, f)[k], f)
    decreases |records|
  {
    if |records| > 0 {
      SelectCons(records[0], records[1..], f);
      assert records == [records[0]] + records[1..];
      SelectMatches(records[1..], f);
    }
  }

  /** A filter selects nothing exactly when no record passes it. */
  lemma {:induction false} SelectEmptyIff(records: seq<RefreshRecord>, f: Filter)
    ensures Select(records, f) == [] <==> forall k :: 0 <= k < |records| ==> !Matches(records[k], f)
    decreases |records|
  {
    if |records| > 0 {
      SelectCons(records[0], records[1..], f);
      assert records == [records[0]] + records[1..];
      SelectEmptyIff(records[1..], f);
      assert forall k :: 1 <= k < |records| ==> records[k] == records[1..][k - 1];
    }
  }

  /** Selecting from a store with one more record in front. */
  lemma SelectCons(x: RefreshRecord, rest: seq<RefreshRecord>, f: Filter)
    ensures Select([x] + rest, f) == (if Matches(x, f) then [x] else []) + Select(rest, f)
  {
    assert ([x] + rest)[0] == x;
    assert ([x] + rest)[1..] == rest;
  }

  lemma {:induction false} SelectAppend(a: seq<RefreshRecord>, b: seq<RefreshRecord>, f: Filter)
    ensures Select(a + b, f) == Select(a, f) + Select(b, f)
    decreases |a|
  {
    if |a| > 0 {
      assert (a + b)[0] == a[0];
      assert (a + b)[1..] == a[1..] + b;
      SelectAppend(a[1..], b, f);
    } else {
      assert a + b == b;
    }
  }

  /** Selecting twice does not depend on the order of the filters. */
  lemma {:induction false} SelectCommutes(records: seq<RefreshRecord>, f: Filter, g: Filter)
    ensures Select(Select(records, f), g) == Select(Select(records, g), f)
    decreases |records|
  {
    if |records| > 0 {
      var x := records[0];
      var rest := records[1..];
      var hf := if Matches(x, f) then [x] else [];
      var hg := if Matches(x, g) then [x] else [];
      SelectAppend(hf, Select(rest, f), g);
      SelectAppend(hg, Select(rest, g), f);
      SelectCommutes(rest, f, g);
      assert Select(hf, g) == Select(hg, f) by {
        if Matches(x, f) && Matches(x, g) {
          assert [x][1..] == [];
        }
        if Matches(x, f) && !Matches(x, g) {
          assert [x][1..] == [];
        }
        if !Matches(x, f) && Matches(x, g) {
          assert [x][1..] == [];
        }
      }
    }
  }

  /** A second filter that every record selected by the first passes keeps them all. */
  lemma {:induction false} SelectImplied(records: seq<RefreshRecord>, f: Filter, g: Filter)
    requires forall rec :: Matches(rec, f) ==> Matches(rec, g)
    ensures Select(Select(records, f), g) == Select(records, f)
    decreases |records|
  {
    if |records| > 0 {
      var x := records[0];
      var hf := if Matches(x, f) then [x] else [];
      SelectAppend(hf, Select(records[1..], f), g);
      SelectImplied(records[1..], f, g);
      if Matches(x, f) {
        assert [x][1..] == [];
      }
    }
  }

  /** A second filter that no record selected by the first passes keeps none. */
  lemma {:induction false} SelectExcluded(records: seq<RefreshRecord>, f: Filter, g: Filter)
    requires forall rec :: Matches(rec, f) ==> !Matches(rec, g)
    ensures Select(Select(records, f), g) == []
    decreases |records|
  {
    if |records| > 0 {
      var x := records[0];
      var hf := if Matches(x, f) then [x] else [];
      SelectAppend(hf, Select(records[1..], f), g);
      SelectExcluded(records[1..], f, g);
      if Matches(x, f) {
        assert [x][1..] == [];
      }
    }
  }

  /** `findOne({token, user})`: the position of the first record for that
      token and user. */
  function FindRecord(records: seq<RefreshRecord>, t: RefreshJwt, u: UserId): (r: Option<nat>)
    ensures r.Some? ==> r.value < |records| && records[r.value].token == t && records[r.value].user == u
    ensures Select(records, ByToken(t)) == [] ==> r.None?
  {
    if |records| == 0 then None
    else if records[0].token == t && records[0].user == u then Some(0)
    else
      match FindRecord(records[1..], t, u)
      case None => None
      case Some(k) => Some(k + 1)
  }

  /** How many records can hold a token: none for a token not minted yet
      (or minted without a `jti`), at most one otherwise. */
  function TokenBound(s: Sessions, t: RefreshJwt): nat
  {
    if t.jwtid.Some? && t.jwtid.value < s.issued then 1 else 0
  }

  /** Every stored token is distinct and was minted with a `jti`. */
  ghost predicate Fresh(s: Sessions)
  {
    forall t :: |Select(s.records, ByToken(t))| <= TokenBound(s, t)
  }

  /** `generateRefreshToken({userId})` at time `now`. */
  function Mint(s: Sessions, userId: UserId, now: int, m: Minting): (t: RefreshJwt)
    ensures t.userId == userId && t.iat == IssuedAt(now)
    ensures m == WithJwtId ==> t.jwtid == Some(s.issued)
    ensures m == AsWritten ==> t.jwtid.None?
  {
    RefreshJwt(userId, IssuedAt(now), if m == WithJwtId then Some(s.issued) else None)
  }

  /** `RefreshToken.create`: the minted token, stored for seven days. */
  function Persist(s: Sessions, userId: UserId, now: int, m: Minting): (r: Sessions)
    ensures r.records == s.records + [RefreshRecord(Mint(s, userId, now, m), userId, now + RefreshTtlMs)]
    ensures r.issued == if m == WithJwtId then s.issued + 1 else s.issued
  {
    Sessions(s.records + [RefreshRecord(Mint(s, userId, now, m), userId, now + RefreshTtlMs)],
             if m == WithJwtId then s.issued + 1 else s.issued)
  }

  /** Persisting a token minted with a `jti` keeps every token distinct. */
  lemma PersistKeepsFresh(s: Sessions, userId: UserId, now: int)
    requires Fresh(s)
    ensures Fresh(Persist(s, userId, now, WithJwtId))
  {
    var r := Persist(s, userId, now, WithJwtId);
    var rec := RefreshRecord(Mint(s, userId, now, WithJwtId), userId, now + RefreshTtlMs);
    forall t
      ensures |Select(r.records, ByToken(t))| <= TokenBound(r, t)
    {
      SelectAppend(s.records, [rec], ByToken(t));
      assert [rec][1..] == [];
    }
  }

  datatype Registered = Registered(id: UserId, user: User, token: AccessJwt)
  datatype Registration = Registration(users: UserStore, result: Result<Registered, AuthError>)

  /** `register`: refuses a taken email, then creates the user with the
      hashed password and the role (candidate when none is given), and signs
      an access token for it. No refresh token is minted. */
  function Register(users: UserStore, newId: UserId, name: string, email: string, password: string,
                    role: Option<Role>, now: int): (r: Registration)
    requires EmailsUnique(users) && newId !in users
    ensures FindByEmail(users, email).Some? ==> r == Registration(users, Err(EmailAlreadyExists))
    ensures r.result.Ok? <==>
      FindByEmail(users, email).None? && Text.Utf16Length(Text.Trim(name)) >= NameMinLength && NormalizeEmail(email) != []
    ensures r.result.Err? ==> r.users == users
    ensures r.result.Ok? ==>
      var u := r.result.value.user;
      && r.result.value.id == newId
      && r.users == users[newId := u]
      && u.name == Text.Trim(name)
      && u.email == NormalizeEmail(email) && u.password == Bcrypt(password)
      && u.role == role.GetOr(Candidate) && u.isActive
      && r.result.value.token == AccessJwt(newId, u.role, IssuedAt(now))
  {
    if FindByEmail(users, email).Some? then Registration(users, Err(EmailAlreadyExists))
    else
      var data := NewUser(name, email, Bcrypt(password), role);
      CreateUnclaimed(users, newId, data);
      match Create(users, newId, data)
      case Err(e) => Registration(users, Err(UserInvalid(e)))
      case Ok(created) =>
        var u := created[newId];
        Registration(created, Ok(Registered(newId, u, SignAccess(newId, u.role, now))))
  }

  lemma RegisterKeepsValid(users: UserStore, newId: UserId, name: string, email: string, password: string,
                           role: Option<Role>, now: int)
    requires Valid(users) && newId !in users
    ensures Valid(Register(users, newId, name, email, password, role, now).users)
  {
    if Register(users, newId, name, email, password, role, now).result.Ok? {
      CreateKeepsValid(users, newId, NewUser(name, email, Bcrypt(password), role));
    }
  }

  datatype LoggedIn = LoggedIn(id: UserId, user: User, accessToken: AccessJwt, refreshToken: RefreshJwt)
  datatype SessionStep<T> = SessionStep(sessions: Sessions, result: Result<T, AuthError>)

  /** `login`: an unknown email and a wrong password fail alike and change
      nothing; otherwise an access token and a refresh token are signed and
      the refresh token is stored for seven days. */
  function Login(users: UserStore, s: Sessions, email: string, password: string, now: int, m: Minting)
    : (r: SessionStep<LoggedIn>)
    requires EmailsUnique(users)
    ensures r.result.Err? <==>
      FindByEmail(users, email).None? || !Compare(password, users[FindByEmail(users, email).value].password)
    ensures r.result.Err? ==> r == SessionStep(s, Err(InvalidCredentials))
    ensures r.result.Ok? ==>
      var id := FindByEmail(users, email).value;
      var v := r.result.value;
      && v.id == id && v.user == users[id]
      && v.accessToken == AccessJwt(id, users[id].role, IssuedAt(now))
      && v.refreshToken == Mint(s, id, now, m)
      && r.sessions == Persist(s, id, now, m)
  {
    match FindByEmail(users, email)
    case None => SessionStep(s, Err(InvalidCredentials))
    case Some(id) =>
      var u := users[id];
      if !Compare(password, u.password) then SessionStep(s, Err(InvalidCredentials))
      else
        var t := Mint(s, id, now, m);
        SessionStep(Persist(s, id, now, m), Ok(LoggedIn(id, u, SignAccess(id, u.role, now), t)))
  }

  /** A user who registered can log in with the same email and password. */
  lemma RegisterThenLogin(users: UserStore, s: Sessions, newId: UserId, name: string, email: string,
                          password: string, role: Option<Role>, now: int, later: int, m: Minting)
    requires Valid(users) && newId !in users
    requires Register(users, newId, name, email, password, role, now).result.Ok?
    ensures var after := Register(users, newId, name, email, password, role, now).users;
      EmailsUnique(after)
      && Login(after, s, email, password, later, m).result.Ok?
      && Login(after, s, email, password, later, m).result.value.id == newId
  {
    var data := NewUser(name, email, Bcrypt(password), role);
    var after := Register(users, newId, name, email, password, role, now).users;
    assert after == Create(users, newId, data).value;
    CreateThenFind(users, newId, data);
    assert after[newId].password == Bcrypt(password);
    assert Compare(password, after[newId].password);
  }

  /** `logout`: `deleteMany({user})`. */
  function Logout(s: Sessions, userId: UserId): (r: Sessions)
    ensures r.issued == s.issued
    ensures Select(r.records, ByUser(userId)) == []
    ensures forall u :: u != userId ==> Select(r.records, ByUser(u)) == Select(s.records, ByUser(u))
    ensures forall t :: |Select(r.records, ByToken(t))| <= |Select(s.records, ByToken(t))|
  {
    var kept := Select(s.records, ExceptUser(userId));
    SelectCommutes(s.records, ExceptUser(userId), ByUser(userId));
    SelectExcluded(s.records, ByUser(userId), ExceptUser(userId));
    forall u | u != userId
      ensures Select(kept, ByUser(u)) == Select(s.records, ByUser(u))
    {
      SelectCommutes(s.records, ExceptUser(userId), ByUser(u));
      SelectImplied(s.records, ByUser(u), ExceptUser(userId));
    }
    forall t
      ensures |Select(kept, ByToken(t))| <= |Select(s.records, ByToken(t))|
    {
      SelectCommutes(s.records, ExceptUser(userId), ByToken(t));
      SelectShrinks(Select(s.records, ByToken(t)), ExceptUser(userId));
    }
    Sessions(kept, s.issued)
  }

  lemma LogoutKeepsFresh(s: Sessions, userId: UserId)
    requires Fresh(s)
    ensures Fresh(Logout(s, userId))
  {
  }

  datatype Renewed = Renewed(accessToken: AccessJwt, refreshToken: RefreshJwt)

  /** Whether a refresh call consumed the presented token: it did when it
      succeeded and when the user vanished after the rotation. */
  predicate Rotated(r: SessionStep<Renewed>)
  {
    r.result.Ok? || r.result == Err(AuthError.UserNotFound)
  }

  /** `refresh`: the token must verify, a stored record for it and its user
      must exist and not be past its expiry; that record is deleted, a new
      token is minted and stored, and only then is the user looked up. */
  function Refresh(users: UserStore, s: Sessions, presented: PresentedToken, now: int, m: Minting)
    : (r: SessionStep<Renewed>)
    ensures !Rotated(r) ==> r.sessions == s && r.result.Err?
    ensures VerifyRefresh(presented, now).None? ==> r == SessionStep(s, Err(RefreshNotVerified))
    ensures Rotated(r) <==>
      && VerifyRefresh(presented, now).Some?
      && FindRecord(s.records, presented.jwt, presented.jwt.userId).Some?
      && s.records[FindRecord(s.records, presented.jwt, presented.jwt.userId).value].expiresAt >= now
    ensures Rotated(r) ==>
      var uid := presented.jwt.userId;
      var i := FindRecord(s.records, presented.jwt, uid).value;
      var t := Mint(s, uid, now, m);
      && r.sessions == Persist(Sessions(s.records[..i] + s.records[i + 1..], s.issued), uid, now, m)
      && (r.result.Ok? <==> uid in users)
      && (r.result.Ok? ==> r.result.value == Renewed(AccessJwt(uid, users[uid].role, IssuedAt(now)), t))
  {
    match VerifyRefresh(presented, now)
    case None => SessionStep(s, Err(RefreshNotVerified))
    case Some(uid) =>
      match FindRecord(s.records, presented.jwt, uid)
      case None => SessionStep(s, Err(InvalidOrExpiredRefresh))
      case Some(i) =>
        if s.records[i].expiresAt < now then SessionStep(s, Err(InvalidOrExpiredRefresh))
        else
          var kept := Sessions(s.records[..i] + s.records[i + 1..], s.issued);
          var t := Mint(kept, uid, now, m);
          var after := Persist(kept, uid, now, m);
          if uid !in users then SessionStep(after, Err(AuthError.UserNotFound))
          else SessionStep(after, Ok(Renewed(SignAccess(uid, users[uid].role, now), t)))
  }

  /** A rotation removes one record for the presented token and adds one for
      the minted token; every other token's records are untouched. */
  lemma RotationCounts(users: UserStore, s: Sessions, presented: RefreshJwt, now: int, m: Minting, t: RefreshJwt)
    requires Rotated(Refresh(users, s, Signed(presented), now, m))
    ensures var r := Refresh(users, s, Signed(presented), now, m);
      var minted := Mint(s, presented.userId, now, m);
      |Select(r.sessions.records, ByToken(t))|
        == |Select(s.records, ByToken(t))| - (if t == presented then 1 else 0) + (if t == minted then 1 else 0)
  {
    var r := Refresh(users, s, Signed(presented), now, m);
    var uid := presented.userId;
    var i := FindRecord(s.records, presented, uid).value;
    var minted := Mint(s, uid, now, m);
    var rec := RefreshRecord(minted, uid, now + RefreshTtlMs);
    var a := s.records[..i];
    var b := s.records[i + 1..];
    assert s.records == a + [s.records[i]] + b;
    SelectAppend(a + [s.records[i]], b, ByToken(t));
    SelectAppend(a, [s.records[i]], ByToken(t));
    SelectAppend(a + b, [rec], ByToken(t));
    SelectAppend(a, b, ByToken(t));
    assert [s.records[i]][1..] == [] && [rec][1..] == [];
  }

  /** Rotation under minting with a `jti` keeps every token distinct. */
  lemma RefreshKeepsFresh(users: UserStore, s: Sessions, presented: PresentedToken, now: int)
    requires Fresh(s)
    ensures Fresh(Refresh(users, s, presented, now, WithJwtId).sessions)
  {
    var r := Refresh(users, s, presented, now, WithJwtId);
    if Rotated(r) {
      forall t
        ensures |Select(r.sessions.records, ByToken(t))| <= TokenBound(r.sessions, t)
      {
        RotationCounts(users, s, presented.jwt, now, WithJwtId, t);
      }
    }
  }

  /** Once its only record is consumed, a token is refused again unless the
      rotation minted that very token anew. */
  lemma ConsumedUnlessReminted(users: UserStore, s: Sessions, presented: RefreshJwt, now: int, later: int, m: Minting)
    requires |Select(s.records, ByToken(presented))| <= 1
    requires Rotated(Refresh(users, s, Signed(presented), now, m))
    requires Mint(s, presented.userId, now, m) != presented
    ensures var r := Refresh(users, s, Signed(presented), now, m);
      Refresh(users, r.sessions, Signed(presented), later, m).result.Err?
      && !Rotated(Refresh(users, r.sessions, Signed(presented), later, m))
  {
    RotationCounts(users, s, presented, now, m, presented);
  }

  /** With `jti` minting a refresh token is single use: once rotated, the same
      token is refused at any later time and changes nothing. */
  lemma RefreshSingleUse(users: UserStore, s: Sessions, presented: RefreshJwt, now: int, later: int)
    requires Fresh(s)
    requires Rotated(Refresh(users, s, Signed(presented), now, WithJwtId))
    ensures var r := Refresh(users, s, Signed(presented), now, WithJwtId);
      var again := Refresh(users, r.sessions, Signed(presented), later, WithJwtId);
      again.result.Err? && again.sessions == r.sessions
  {
    assert |Select(s.records, ByToken(presented))| <= TokenBound(s, presented);
    var i := FindRecord(s.records, presented, presented.userId).value;
    assert Select(s.records, ByToken(presented)) != [];
    ConsumedUnlessReminted(users, s, presented, now, later, WithJwtId);
  }

  /** As written, a token rotated in a later second than it was minted is
      refused afterwards, provided it was stored only once. */
  lemma AsWrittenSingleUseAcrossSeconds(users: UserStore, s: Sessions, presented: RefreshJwt, now: int, later: int)
    requires presented.jwtid.None? && IssuedAt(now) != presented.iat
    requires |Select(s.records, ByToken(presented))| <= 1
    requires Rotated(Refresh(users, s, Signed(presented), now, AsWritten))
    ensures var r := Refresh(users, s, Signed(presented), now, AsWritten);
      Refresh(users, r.sessions, Signed(presented), later, AsWritten).result.Err?
  {
    ConsumedUnlessReminted(users, s, presented, now, later, AsWritten);
  }

  /** As written, a refresh in the same second as the login re-mints the
      presented token itself, so the old token keeps working: it is redeemed
      twice (for instance: login at 1000 ms, two refreshes at 1500 ms). */
  lemma SameSecondReplay(users: UserStore, s: Sessions, email: string, password: string, now: int, later: int)
    requires EmailsUnique(users)
    requires Login(users, s, email, password, now, AsWritten).result.Ok?
    requires Select(s.records, ByToken(Login(users, s, email, password, now, AsWritten).result.value.refreshToken)) == []
    requires now <= later && IssuedAt(later) == IssuedAt(now)
    ensures var l := Login(users, s, email, password, now, AsWritten);
      var t := l.result.value.refreshToken;
      var first := Refresh(users, l.sessions, Signed(t), later, AsWritten);
      var second := Refresh(users, first.sessions, Signed(t), later, AsWritten);
      && first.result.Ok? && first.result.value.refreshToken == t
      && second.result.Ok? && second.result.value.refreshToken == t
  {
    var l := Login(users, s, email, password, now, AsWritten);
    var t := l.result.value.refreshToken;
    var id := l.result.value.id;
    var rec := RefreshRecord(t, id, now + RefreshTtlMs);
    assert FindRecord(s.records, t, id).None?;
    FindRecordAppend(s.records, rec);
    var first := Refresh(users, l.sessions, Signed(t), later, AsWritten);
    var i := |s.records|;
    assert l.sessions.records[..i] + l.sessions.records[i + 1..] == s.records;
    var rec2 := RefreshRecord(t, id, later + RefreshTtlMs);
    assert first.sessions.records == s.records + [rec2];
    FindRecordAppend(s.records, rec2);
  }

  /** A token minted at login is accepted by a refresh while both the token
      and its record are live. */
  lemma LoginThenRefresh(users: UserStore, s: Sessions, email: string, password: string, now: int, later: int)
    requires EmailsUnique(users) && Fresh(s)
    requires Login(users, s, email, password, now, WithJwtId).result.Ok?
    requires now <= later <= now + RefreshTtlMs
    requires IssuedAt(later) < IssuedAt(now) + RefreshTtlSeconds
    ensures var l := Login(users, s, email, password, now, WithJwtId);
      Rotated(Refresh(users, l.sessions, Signed(l.result.value.refreshToken), later, WithJwtId))
      && Refresh(users, l.sessions, Signed(l.result.value.refreshToken), later, WithJwtId).result.Ok?
  {
    var l := Login(users, s, email, password, now, WithJwtId);
    var t := l.result.value.refreshToken;
    var id := l.result.value.id;
    var rec := RefreshRecord(t, id, now + RefreshTtlMs);
    assert Select(s.records, ByToken(t)) == [] by {
      assert |Select(s.records, ByToken(t))| <= TokenBound(s, t);
    }
    assert FindRecord(s.records, t, id).None?;
    FindRecordAppend(s.records, rec);
  }

  lemma {:induction false} FindRecordAppend(records: seq<RefreshRecord>, rec: RefreshRecord)
    requires FindRecord(records, rec.token, rec.user).None?
    ensures FindRecord(records + [rec], rec.token, rec.user) == Some(|records|)
    decreases |records|
  {
    if |records| > 0 {
      assert (records + [rec])[1..] == records[1..] + [rec];
      FindRecordAppend(records[1..], rec);
    }
  }

  /** After logout no refresh token of that user is accepted. */
  lemma LogoutRevokes(users: UserStore, s: Sessions, userId: UserId, presented: PresentedToken, now: int, m: Minting)
    requires presented.Signed? && presented.jwt.userId == userId
    ensures var r := Refresh(users, Logout(s, userId), presented, now, m);
      r.result.Err? && !Rotated(r)
  {
    SelectEmptyIff(Logout(s, userId).records, ByUser(userId));
  }

  /** The TTL index on `expiresAt`: at some time `at` the store drops every
      record that expired before it. */
  function Sweep(s: Sessions, at: int): (r: Sessions)
    ensures r.issued == s.issued
    ensures forall k :: 0 <= k < |r.records| ==> r.records[k].expiresAt >= at
    ensures forall t :: Select(r.records, ByToken(t)) == Select(Select(s.records, ByToken(t)), Live(at))
  {
    var r := Sessions(Select(s.records, Live(at)), s.issued);
    SelectMatches(s.records, Live(at));
    forall t ensures Select(r.records, ByToken(t)) == Select(Select(s.records, ByToken(t)), Live(at)) {
      SelectCommutes(s.records, Live(at), ByToken(t));
    }
    r
  }

  lemma SweepKeepsFresh(s: Sessions, at: int)
    requires Fresh(s)
    ensures Fresh(Sweep(s, at))
  {
    forall t ensures |Select(Sweep(s, at).records, ByToken(t))| <= TokenBound(Sweep(s, at), t) {
      SelectShrinks(Select(s.records, ByToken(t)), Live(at));
    }
  }

  /** `findOne` on a store with one more record in front. */
  lemma FindRecordCons(x: RefreshRecord, rest: seq<RefreshRecord>, t: RefreshJwt, u: UserId)
    ensures FindRecord([x] + rest, t, u)
         == if x.token == t && x.user == u then Some(0)
            else match FindRecord(rest, t, u) case None => None case Some(k) => Some(k + 1)
  {
    assert ([x] + rest)[0] == x;
    assert ([x] + rest)[1..] == rest;
  }

  /** For a token held by at most one record, filtering the collection
      either keeps that record, and `findOne` still finds it, or drops it,
      and `findOne` finds nothing. */
  lemma {:induction false} FindRecordSelect(records: seq<RefreshRecord>, t: RefreshJwt, u: UserId, f: Filter)
    requires |Select(records, ByToken(t))| <= 1
    ensures FindRecord(records, t, u).None? ==> FindRecord(Select(records, f), t, u).None?
    ensures FindRecord(records, t, u).Some? ==>
      var rec := records[FindRecord(records, t, u).value];
      && (Matches(rec, f) ==>
            FindRecord(Select(records, f), t, u).Some? && Select(records, f)[FindRecord(Select(records, f), t, u).value] == rec)
      && (!Matches(rec, f) ==> FindRecord(Select(records, f), t, u).None?)
    decreases |records|
  {
    if |records| > 0 {
      var x := records[0];
      var rest := records[1..];
      assert records == [x] + rest;
      FindRecordCons(x, rest, t, u);
      var sel := Select(rest, f);
      assert Select(records, f) == (if Matches(x, f) then [x] else []) + sel;
      if Matches(x, f) {
        assert Select(records, f) == [x] + sel;
        FindRecordCons(x, sel, t, u);
      } else {
        assert Select(records, f) == sel;
      }
      if x.token == t {
        NoTokenBehindHolder(x, rest, t, f);
      } else {
        assert Select(records, ByToken(t)) == Select(rest, ByToken(t)) by {
          SelectCons(x, rest, ByToken(t));
        }
        FindRecordSelect(rest, t, u, f);
      }
    }
  }

  /** When the first record holds a token that at most one record holds, no
      record behind it holds that token, before or after a selection. */
  lemma NoTokenBehindHolder(x: RefreshRecord, rest: seq<RefreshRecord>, t: RefreshJwt, f: Filter)
    requires x.token == t && |Select([x] + rest, ByToken(t))| <= 1
    ensures Select(rest, ByToken(t)) == [] && Select(Select(rest, f), ByToken(t)) == []
  {
    SelectCons(x, rest, ByToken(t));
    SelectCommutes(rest, f, ByToken(t));
  }

  /** Whether a store holds a live record for the token presented. */
  predicate Honoured(s: Sessions, presented: PresentedToken, now: int)
  {
    && VerifyRefresh(presented, now).Some?
    && FindRecord(s.records, presented.jwt, presented.jwt.userId).Some?
    && s.records[FindRecord(s.records, presented.jwt, presented.jwt.userId).value].expiresAt >= now
  }

  /** What a refresh answers depends on the store only through whether it
      honours the token and through the count of tokens minted so far. */
  lemma RefreshAnswerDeterminedBy(users: UserStore, s1: Sessions, s2: Sessions, presented: PresentedToken,
                                  now: int, m: Minting)
    requires s1.issued == s2.issued
    requires Honoured(s1, presented, now) <==> Honoured(s2, presented, now)
    ensures Refresh(users, s1, presented, now, m).result == Refresh(users, s2, presented, now, m).result
  {
  }

  /** The TTL sweep may run at any time before a refresh without changing
      what the refresh answers: a record it drops had expired, and a
      refresh would have refused it anyway. */
  lemma SweepKeepsRefreshVerdict(users: UserStore, s: Sessions, presented: PresentedToken, now: int, at: int, m: Minting)
    requires Fresh(s) && at <= now
    ensures Refresh(users, Sweep(s, at), presented, now, m).result == Refresh(users, s, presented, now, m).result
  {
    var swept := Sweep(s, at);
    if VerifyRefresh(presented, now).Some? {
      var t := presented.jwt;
      var u := t.userId;
      assert |Select(s.records, ByToken(t))| <= 1 by { assert |Select(s.records, ByToken(t))| <= TokenBound(s, t); }
      FindRecordSelect(s.records, t, u, Live(at));
    }
    RefreshAnswerDeterminedBy(users, swept, s, presented, now, m);
  }
}

=== FILE: auth_controller.dfy ===
/** The decision order of the authentication handlers (auth.controller.ts),
    as functions from the backend state and the request to the new state and
    the (status, body) response. Mail delivery is a parameter: whether
    `sendOtpEmail` resolved. The status codes are the standard HTTP ones.
 */
module AuthController {
  import opened Wrappers
  import opened Text
  import opened Roles
  import opened Tokens
  import opened Users
  import opened Decimal
  import opened Otp
  import opened Auth
  import opened AuthDto
  import Email

  const StatusOk: nat := 200
  const StatusCreated: nat := 201
  const StatusBadRequest: nat := 400
  const StatusUnauthorized: nat := 401
  const StatusConflict: nat := 409
  const StatusServerError: nat := 500

  /** The three collections the handlers touch. */
  datatype Backend = Backend(users: UserStore, otps: OtpStore, sessions: Sessions)

  /** The `user` object of the register and login responses. */
  datatype UserView = UserView(id: UserId, name: string, email: string, role: string)

  datatype Reason =
    | MissingField
    | PasswordTooShort
    | UserExists
    | MailFailed
    | OtpRejected(otpError: OtpError)
    | AuthRejected(authError: AuthError)
    | ServiceMethodMissing     // the handler calls a method `AuthService` does not define

  datatype Body =
    | Failure(reason: Reason)
    | RegisterInvalid(registerErrors: seq<RegisterField>)
    | LoginInvalid(loginErrors: seq<LoginField>)
    | Notice
    | SignedIn(accessToken: Option<AccessJwt>, refreshToken: Option<RefreshJwt>, user: UserView)
    | Rotation(newAccess: AccessJwt, newRefresh: RefreshJwt)

  datatype Response = Response(status: nat, body: Body)
  datatype Handled = Handled(backend: Backend, response: Response)

  /** `role.toLowerCase()` over the stored role. */
  function View(id: UserId, u: User): (v: UserView)
    ensures v.id == id && v.name == u.name && v.email == u.email && v.role == RoleName(u.role)
  {
    RoleNameIsLower(u.role);
    UserView(id, u.name, u.email, Lower(RoleName(u.role)))
  }

  datatype Mail = Mail(to: string, code: string)
  datatype OtpRequested = OtpRequested(backend: Backend, response: Response, mail: Option<Mail>)

  /** `requestRegisterOtp`: a missing email is refused, then a registered
      email; otherwise a code is issued for the email as given and mailed. */
  function RequestRegisterOtp(b: Backend, email: Option<string>, draw: nat, now: int, mailDelivered: bool)
    : (r: OtpRequested)
    requires EmailsUnique(b.users) && draw < Pow10(OtpLength)
    ensures !Present(email) ==> r == OtpRequested(b, Response(StatusBadRequest, Failure(MissingField)), None)
    ensures Present(email) && FindByEmail(b.users, email.value).Some? ==>
      r == OtpRequested(b, Response(StatusConflict, Failure(UserExists)), None)
    ensures Present(email) && FindByEmail(b.users, email.value).None? ==>
      var issued := CreateOtp(b.otps, email.value, draw, now);
      && r.backend == b.(otps := issued.store)
      && r.mail == Some(Mail(email.value, issued.code))
      && r.response.status == (if mailDelivered then StatusOk else StatusServerError)
    ensures r.backend.users == b.users && r.backend.sessions == b.sessions
  {
    if !Present(email) then OtpRequested(b, Response(StatusBadRequest, Failure(MissingField)), None)
    else if FindByEmail(b.users, email.value).Some? then
      OtpRequested(b, Response(StatusConflict, Failure(UserExists)), None)
    else
      var issued := CreateOtp(b.otps, email.value, draw, now);
      var after := b.(otps := issued.store);
      var mail := Some(Mail(email.value, issued.code));
      if mailDelivered then OtpRequested(after, Response(StatusOk, Notice), mail)
      else OtpRequested(after, Response(StatusServerError, Failure(MailFailed)), mail)
  }

  /** `register`: validation, then the code, then the account. Nothing is
      consumed by an invalid body; the code is consumed (or charged an
      attempt) before the account is attempted, so a failed account creation
      still uses up the code. The response carries no tokens, because the
      service returns none under the names the handler reads. */
  function Register(b: Backend, body: RegisterBody, newId: UserId, now: int): (r: Handled)
    requires EmailsUnique(b.users) && newId !in b.users
    ensures ValidateRegister(body).Err? ==>
      r == Handled(b, Response(StatusBadRequest, RegisterInvalid(ValidateRegister(body).error)))
    ensures r.response.status == StatusCreated || r.response.status == StatusBadRequest
    ensures r.backend.users != b.users ==>
      ValidateRegister(body).Ok? && Redeemable(b.otps, body.email.value, body.otp.value, now)
    ensures r.response.status == StatusCreated <==>
      && ValidateRegister(body).Ok?
      && Redeemable(b.otps, body.email.value, body.otp.value, now)
      && var dto := ValidateRegister(body).value;
         Auth.Register(b.users, newId, dto.name, dto.email, dto.password, Some(dto.role), now).result.Ok?
    ensures ValidateRegister(body).Ok? ==>
      r.backend.otps == VerifyOtp(b.otps, body.email.value, body.otp.value, now).store
    ensures r.response.status == StatusCreated ==>
      var dto := ValidateRegister(body).value;
      var reg := Auth.Register(b.users, newId, dto.name, dto.email, dto.password, Some(dto.role), now);
      && r.backend.users == reg.users
      && r.response.body == SignedIn(None, None, View(newId, reg.result.value.user))
    ensures r.backend.sessions == b.sessions
  {
    match ValidateRegister(body)
    case Err(fs) => Handled(b, Response(StatusBadRequest, RegisterInvalid(fs)))
    case Ok(dto) =>
      var v := VerifyOtp(b.otps, dto.email, dto.otp, now);
      var checked := b.(otps := v.store);
      if v.outcome.Err? then Handled(checked, Response(StatusBadRequest, Failure(OtpRejected(v.outcome.error))))
      else
        var reg := Auth.Register(b.users, newId, dto.name, dto.email, dto.password, Some(dto.role), now);
        match reg.result
        case Err(e) => Handled(checked, Response(StatusBadRequest, Failure(AuthRejected(e))))
        case Ok(created) =>
          Handled(checked.(users := reg.users), Response(StatusCreated, SignedIn(None, None, View(newId, created.user))))
  }

  /** Request a code, then register with the mailed code before it expires:
      the account is created exactly when the name survives trimming with at
      least two UTF-16 units, and the new user can then be found by email with
      the role that was asked for. */
  lemma OtpThenRegister(b: Backend, email: string, draw: nat, now: int, later: int,
                        name: string, password: string, role: Role, newId: UserId)
    requires Valid(b.users) && OnePerEmail(b.otps) && newId !in b.users && draw < Pow10(OtpLength)
    requires now <= later <= now + OtpExpiryMs
    requires RequestRegisterOtp(b, Some(email), draw, now, true).response.status == StatusOk
    requires Present(Some(name)) && Email.IsEmail(email) && IsLengthCount(password) >= PasswordMinLength
    ensures var req := RequestRegisterOtp(b, Some(email), draw, now, true);
      var body := RegisterBody(Some(name), Some(email), Some(password), Some(RoleName(role)),
                               Some(req.mail.value.code));
      var reg := Register(req.backend, body, newId, later);
      && (reg.response.status == StatusCreated <==>
            Utf16Length(Trim(name)) >= NameMinLength && NormalizeEmail(email) != [])
      && (reg.response.status == StatusCreated ==>
            EmailsUnique(reg.backend.users)
            && FindByEmail(reg.backend.users, email) == Some(newId)
            && reg.backend.users[newId].role == role
            && reg.response.body.user.role == RoleName(role))
  {
    var req := RequestRegisterOtp(b, Some(email), draw, now, true);
    var code := req.mail.value.code;
    var body := RegisterBody(Some(name), Some(email), Some(password), Some(RoleName(role)), Some(code));
    MailedCodeBodyValid(name, email, password, role, code);
    IssueThenVerify(b.otps, email, draw, now, later, code);
    assert Redeemable(req.backend.otps, email, code, later);
    assert req.backend.users == b.users && FindByEmail(b.users, email).None?;
    var reg := Register(req.backend, body, newId, later);
    var created := Auth.Register(b.users, newId, name, email, password, Some(role), later);
    assert reg.response.status == StatusCreated <==> created.result.Ok?;
    if created.result.Ok? {
      var data := NewUser(name, email, Bcrypt(password), Some(role));
      assert created.users == Create(b.users, newId, data).value;
      CreateThenFind(b.users, newId, data);
      assert reg.backend.users == created.users;
    }
  }

  /** A register body with every field well formed and a six-digit code
      passes validation unchanged. */
  lemma MailedCodeBodyValid(name: string, email: string, password: string, role: Role, code: string)
    requires Present(Some(name)) && Email.IsEmail(email) && IsLengthCount(password) >= PasswordMinLength
    requires |code| == OtpLength && AllDigits(code)
    ensures ValidateRegister(RegisterBody(Some(name), Some(email), Some(password), Some(RoleName(role)), Some(code)))
         == Ok(RegisterDto(name, email, password, role, code))
  {
    var body := RegisterBody(Some(name), Some(email), Some(password), Some(RoleName(role)), Some(code));
    ParseRoleName(role);
    forall f ensures RegisterFieldValid(body, f) {
      match f
      case NameField =>
      case EmailField =>
      case PasswordField =>
      case RoleField =>
      case OtpField => GenerateOtpOnto(code);
    }
  }

  /** A failed account creation after an accepted code still consumes the
      code: presenting it again is refused as unknown. */
  lemma OtpConsumedWhenRegisterFails(b: Backend, body: RegisterBody, newId: UserId, now: int, later: int)
    requires EmailsUnique(b.users) && OnePerEmail(b.otps) && newId !in b.users
    requires ValidateRegister(body).Ok? && Redeemable(b.otps, body.email.value, body.otp.value, now)
    requires Register(b, body, newId, now).response.status != StatusCreated
    ensures var r := Register(b, body, newId, now);
      r.backend.users == b.users
      && VerifyOtp(r.backend.otps, body.email.value, body.otp.value, later).outcome == Err(NotFound)
  {
    SingleUse(b.otps, body.email.value, body.otp.value, now, later);
  }

  /** `login`: an invalid body is a 400; every service failure is a 401; a
      success returns both tokens and the user with its role in lower case.
      `m` selects how the service signs refresh tokens: `AsWritten` is the
      code as it stands. */
  function Login(b: Backend, body: LoginBody, now: int, m: Minting): (r: Handled)
    requires EmailsUnique(b.users)
    ensures ValidateLogin(body).Err? ==>
      r == Handled(b, Response(StatusBadRequest, LoginInvalid(ValidateLogin(body).error)))
    ensures ValidateLogin(body).Ok? ==>
      var l := Auth.Login(b.users, b.sessions, body.email.value, body.password.value, now, m);
      && r.backend == b.(sessions := l.sessions)
      && (l.result.Err? ==> r.response == Response(StatusUnauthorized, Failure(AuthRejected(l.result.error))))
      && (l.result.Ok? ==> r.response == Response(StatusOk, SignedIn(Some(l.result.value.accessToken),
            Some(l.result.value.refreshToken), View(l.result.value.id, l.result.value.user))))
    ensures r.response.status == StatusOk || r.response.status == StatusBadRequest
         || r.response.status == StatusUnauthorized
    ensures r.backend.users == b.users && r.backend.otps == b.otps
  {
    match ValidateLogin(body)
    case Err(fs) => Handled(b, Response(StatusBadRequest, LoginInvalid(fs)))
    case Ok(dto) =>
      var l := Auth.Login(b.users, b.sessions, dto.email, dto.password, now, m);
      match l.result
      case Err(e) => Handled(b.(sessions := l.sessions), Response(StatusUnauthorized, Failure(AuthRejected(e))))
      case Ok(v) =>
        Handled(b.(sessions := l.sessions),
                Response(StatusOk, SignedIn(Some(v.accessToken), Some(v.refreshToken), View(v.id, v.user))))
  }

  /** An unknown email and a wrong password produce the same response. */
  lemma LoginFailuresLookAlike(b: Backend, unknown: string, known: string, password: string, now: int,
                               m: Minting)
    requires EmailsUnique(b.users)
    requires Email.IsEmail(unknown) && Email.IsEmail(known) && password != []
    requires FindByEmail(b.users, unknown).None?
    requires FindByEmail(b.users, known).Some?
    requires !Compare(password, b.users[FindByEmail(b.users, known).value].password)
    ensures Login(b, LoginBody(Some(unknown), Some(password)), now, m)
         == Login(b, LoginBody(Some(known), Some(password)), now, m)
    ensures Login(b, LoginBody(Some(unknown), Some(password)), now, m)
         == Handled(b, Response(StatusUnauthorized, Failure(AuthRejected(InvalidCredentials))))
  {
    var b1 := LoginBody(Some(unknown), Some(password));
    var b2 := LoginBody(Some(known), Some(password));
    assert forall f :: LoginFieldValid(b1, f) && LoginFieldValid(b2, f) by {
      forall f ensures LoginFieldValid(b1, f) && LoginFieldValid(b2, f) {
        assert f.LoginEmailField? || f.LoginPasswordField?;
      }
    }
    assert ValidateLogin(b1).value == LoginDto(unknown, password);
    assert ValidateLogin(b2).value == LoginDto(known, password);
  }

  /** A refresh token in the body: one this server signed, or any other string. */
  predicate MissingToken(t: Option<PresentedToken>)
  {
    t.None? || t.value == Unsigned([])
  }

  /** `refresh`: a missing token is a 400, every service failure a 401. */
  function Refresh(b: Backend, token: Option<PresentedToken>, now: int, m: Minting): (r: Handled)
    ensures MissingToken(token) ==> r == Handled(b, Response(StatusBadRequest, Failure(MissingField)))
    ensures !MissingToken(token) ==>
      var s := Auth.Refresh(b.users, b.sessions, token.value, now, m);
      && r.backend == b.(sessions := s.sessions)
      && (s.result.Err? ==> r.response == Response(StatusUnauthorized, Failure(AuthRejected(s.result.error))))
      && (s.result.Ok? ==>
            r.response == Response(StatusOk, Rotation(s.result.value.accessToken, s.result.value.refreshToken)))
    ensures r.backend.users == b.users && r.backend.otps == b.otps
  {
    if MissingToken(token) then Handled(b, Response(StatusBadRequest, Failure(MissingField)))
    else
      var s := Auth.Refresh(b.users, b.sessions, token.value, now, m);
      match s.result
      case Err(e) => Handled(b.(sessions := s.sessions), Response(StatusUnauthorized, Failure(AuthRejected(e))))
      case Ok(v) => Handled(b.(sessions := s.sessions), Response(StatusOk, Rotation(v.accessToken, v.refreshToken)))
  }

  /** As written, the replay of the service reaches the client: a login
      at `now` and two refreshes with its refresh token in the same second
      are answered 200, 200 and 200, and both refreshes return the token
      that was presented (for instance: login at 1000 ms, two refreshes at
      1500 ms). */
  lemma AsWrittenReplayAnswered(b: Backend, email: string, password: string, now: int, later: int)
    requires EmailsUnique(b.users)
    requires ValidateLogin(LoginBody(Some(email), Some(password))).Ok?
    requires Auth.Login(b.users, b.sessions, email, password, now, AsWritten).result.Ok?
    requires Select(b.sessions.records,
                    ByToken(Auth.Login(b.users, b.sessions, email, password, now, AsWritten).result.value.refreshToken)) == []
    requires now <= later && IssuedAt(later) == IssuedAt(now)
    ensures var l := Login(b, LoginBody(Some(email), Some(password)), now, AsWritten);
      var t := l.response.body.refreshToken.value;
      var first := Refresh(l.backend, Some(Signed(t)), later, AsWritten);
      var second := Refresh(first.backend, Some(Signed(t)), later, AsWritten);
      && l.response.status == StatusOk
      && first.response.status == StatusOk && first.response.body.Rotation? && first.response.body.newRefresh == t
      && second.response.status == StatusOk && second.response.body.Rotation? && second.response.body.newRefresh == t
  {
    var body := LoginBody(Some(email), Some(password));
    assert ValidateLogin(body).value == LoginDto(email, password);
    SameSecondReplay(b.users, b.sessions, email, password, now, later);
    var sl := Auth.Login(b.users, b.sessions, email, password, now, AsWritten);
    var t := sl.result.value.refreshToken;
    var l := Login(b, body, now, AsWritten);
    assert l.backend == b.(sessions := sl.sessions) && l.response.body.refreshToken == Some(t);
    var s1 := Auth.Refresh(b.users, sl.sessions, Signed(t), later, AsWritten);
    var first := Refresh(l.backend, Some(Signed(t)), later, AsWritten);
    assert first.backend == l.backend.(sessions := s1.sessions);
    assert first.response == Response(StatusOk, Rotation(s1.result.value.accessToken, t));
    var s2 := Auth.Refresh(b.users, s1.sessions, Signed(t), later, AsWritten);
    var second := Refresh(first.backend, Some(Signed(t)), later, AsWritten);
    assert second.response == Response(StatusOk, Rotation(s2.result.value.accessToken, t));
  }

  /** With a `jti` in every refresh token, the second refresh of the same
      token is answered 401. */
  lemma RefreshAnsweredOnce(b: Backend, presented: RefreshJwt, now: int, later: int)
    requires Fresh(b.sessions)
    requires Auth.Refresh(b.users, b.sessions, Signed(presented), now, WithJwtId).result.Ok?
    ensures var first := Refresh(b, Some(Signed(presented)), now, WithJwtId);
      && first.response.status == StatusOk
      && Refresh(first.backend, Some(Signed(presented)), later, WithJwtId).response.status == StatusUnauthorized
  {
    RefreshSingleUse(b.users, b.sessions, presented, now, later);
  }

  /** `logout` for the authenticated user: every refresh token of that user
      is deleted. */
  function Logout(b: Backend, userId: UserId): (r: Handled)
    ensures r.response == Response(StatusOk, Notice)
    ensures r.backend.users == b.users && r.backend.otps == b.otps
    ensures Select(r.backend.sessions.records, ByUser(userId)) == []
    ensures forall u :: u != userId ==>
      Select(r.backend.sessions.records, ByUser(u)) == Select(b.sessions.records, ByUser(u))
  {
    Handled(b.(sessions := Auth.Logout(b.sessions, userId)), Response(StatusOk, Notice))
  }

  /** `requestPasswordResetOtp`: a missing email is a 400; otherwise the
      handler calls a service method that does not exist, which throws, so the
      answer is a 500 and nothing changes. */
  function RequestPasswordResetOtp(b: Backend, email: Option<string>): (r: Handled)
    ensures r.backend == b
    ensures r.response.status == (if !Present(email) then StatusBadRequest else StatusServerError)
  {
    if !Present(email) then Handled(b, Response(StatusBadRequest, Failure(MissingField)))
    else Handled(b, Response(StatusServerError, Failure(ServiceMethodMissing)))
  }

  /** `resetPassword`: missing fields, then a short new password, are 400s;
      past both checks the handler calls a service method that does not
      exist, which the handler also answers with a 400. */
  function ResetPassword(b: Backend, email: Option<string>, otp: Option<string>, newPassword: Option<string>)
    : (r: Handled)
    ensures r.backend == b
    ensures !Present(email) || !Present(otp) || !Present(newPassword) ==>
      r.response == Response(StatusBadRequest, Failure(MissingField))
    ensures Present(email) && Present(otp) && Present(newPassword) && Utf16Length(newPassword.value) < PasswordMinLength ==>
      r.response == Response(StatusBadRequest, Failure(PasswordTooShort))
    ensures Present(email) && Present(otp) && Present(newPassword) && Utf16Length(newPassword.value) >= PasswordMinLength ==>
      r.response == Response(StatusBadRequest, Failure(ServiceMethodMissing))
  {
    if !Present(email) || !Present(otp) || !Present(newPassword) then
      Handled(b, Response(StatusBadRequest, Failure(MissingField)))
    else if Utf16Length(newPassword.value) < PasswordMinLength then
      Handled(b, Response(StatusBadRequest, Failure(PasswordTooShort)))
    else Handled(b, Response(StatusBadRequest, Failure(ServiceMethodMissing)))
  }

  /** No password reset request ever succeeds or changes a password. */
  lemma PasswordResetNeverSucceeds(b: Backend, email: Option<string>, otp: Option<string>,
                                   newPassword: Option<string>)
    ensures ResetPassword(b, email, otp, newPassword).response.status == StatusBadRequest
    ensures ResetPassword(b, email, otp, newPassword).backend.users == b.users
    ensures RequestPasswordResetOtp(b, email).response.status != StatusOk
  {
  }
}

=== FILE: auth_dto.dfy ===
/** The request bodies of register and login (auth.dto.ts) and their
    class-validator checks. A body field is `None` when the property is
    missing or null; class-validator reports one entry per failing property,
    in declaration order.
 */
module AuthDto {
  import opened Wrappers
  import opened Text
  import opened Roles
  import Validation
  import Email

  datatype RegisterField = NameField | EmailField | PasswordField | RoleField | OtpField

  datatype RegisterBody = RegisterBody(name: Option<string>, email: Option<string>, password: Option<string>,
                                       role: Option<string>, otp: Option<string>)

  /** A register body that passed validation, with the role parsed. */
  datatype RegisterDto = RegisterDto(name: string, email: string, password: string, role: Role, otp: string)

  /** The least password length: the register body's `MinLength(6)`, which
      measures as validator.js's `isLength` does, and the reset handler's
      `length < 6` test, which counts UTF-16 units. */
  const PasswordMinLength: nat := 6

  /** Whether one property of a register body passes its decorators. */
  predicate RegisterFieldValid(b: RegisterBody, f: RegisterField)
  {
    match f
    case NameField => Present(b.name)
    case EmailField => b.email.Some? && Email.IsEmail(b.email.value)
    case PasswordField => b.password.Some? && IsLengthCount(b.password.value) >= PasswordMinLength
    case RoleField => b.role.Some? && ParseRole(b.role.value).Some?
    case OtpField => Present(b.otp)
  }

  /** The DTO's properties, in declaration order. */
  const RegisterFields: seq<RegisterField> := [NameField, EmailField, PasswordField, RoleField, OtpField]

  lemma AllRegisterFields()
    ensures forall f: RegisterField :: f in RegisterFields
  {
    forall f: RegisterField ensures f in RegisterFields {
      assert f.NameField? || f.EmailField? || f.PasswordField? || f.RoleField? || f.OtpField?;
    }
  }

  /** The failing properties, in declaration order. */
  function RegisterErrors(b: RegisterBody): (errs: seq<RegisterField>)
    ensures forall f :: f in errs <==> !RegisterFieldValid(b, f)
  {
    AllRegisterFields();
    Validation.Failing(RegisterFields, set f | f in RegisterFields && !RegisterFieldValid(b, f))
  }

  /** `validate(plainToClass(RegisterDto, body))`: the typed body, or every
      failing property. The role is required and may be any of the three,
      admin included; the code is only required to be a non-empty string. */
  function ValidateRegister(b: RegisterBody): (r: Result<RegisterDto, seq<RegisterField>>)
    ensures r.Ok? <==> forall f :: RegisterFieldValid(b, f)
    ensures r.Err? ==> r.error != [] && forall f :: f in r.error <==> !RegisterFieldValid(b, f)
    ensures r.Ok? ==>
      && Some(r.value.name) == b.name && Some(r.value.email) == b.email
      && Some(r.value.password) == b.password && Some(r.value.otp) == b.otp
      && b.role == Some(RoleName(r.value.role))
  {
    if forall f :: RegisterFieldValid(b, f) then
      assert RegisterFieldValid(b, NameField) && RegisterFieldValid(b, EmailField) && RegisterFieldValid(b, PasswordField);
      assert RegisterFieldValid(b, RoleField) && RegisterFieldValid(b, OtpField);
      Ok(RegisterDto(b.name.value, b.email.value, b.password.value, ParseRole(b.role.value).value, b.otp.value))
    else Err(RegisterErrors(b))
  }

  /** Every role, admin included, passes the server-side role check. */
  lemma AnyRoleAccepted(b: RegisterBody, role: Role)
    requires forall f :: f != RoleField ==> RegisterFieldValid(b, f)
    ensures ValidateRegister(b.(role := Some(RoleName(role)))).Ok?
    ensures ValidateRegister(b.(role := Some(RoleName(role)))).value.role == role
  {
    var b' := b.(role := Some(RoleName(role)));
    ParseRoleName(role);
    assert forall f :: RegisterFieldValid(b', f) by {
      forall f ensures RegisterFieldValid(b', f) {
        if f != RoleField { assert RegisterFieldValid(b, f); }
      }
    }
  }

  datatype LoginField = LoginEmailField | LoginPasswordField

  datatype LoginBody = LoginBody(email: Option<string>, password: Option<string>)
  datatype LoginDto = LoginDto(email: string, password: string)

  /** The DTO's properties, in declaration order. */
  const LoginFields: seq<LoginField> := [LoginEmailField, LoginPasswordField]

  lemma AllLoginFields()
    ensures forall f: LoginField :: f in LoginFields
  {
    forall f: LoginField ensures f in LoginFields {
      assert f.LoginEmailField? || f.LoginPasswordField?;
    }
  }

  /** The failing properties, in declaration order. */
  function LoginErrors(b: LoginBody): (errs: seq<LoginField>)
    ensures forall f :: f in errs <==> !LoginFieldValid(b, f)
  {
    AllLoginFields();
    Validation.Failing(LoginFields, set f | f in LoginFields && !LoginFieldValid(b, f))
  }

  predicate LoginFieldValid(b: LoginBody, f: LoginField)
  {
    match f
    case LoginEmailField => b.email.Some? && Email.IsEmail(b.email.value)
    case LoginPasswordField => Present(b.password)
  }

  /** `validate(plainToClass(LoginDto, body))`: an email `isEmail` accepts
      and a non-empty password of any length. */
  function ValidateLogin(b: LoginBody): (r: Result<LoginDto, seq<LoginField>>)
    ensures r.Ok? <==> forall f :: LoginFieldValid(b, f)
    ensures r.Err? ==> r.error != [] && forall f :: f in r.error <==> !LoginFieldValid(b, f)
    ensures r.Ok? ==> Some(r.value.email) == b.email && Some(r.value.password) == b.password
  {
    if forall f :: LoginFieldValid(b, f) then
      assert LoginFieldValid(b, LoginEmailField) && LoginFieldValid(b, LoginPasswordField);
      Ok(LoginDto(b.email.value, b.password.value))
    else Err(LoginErrors(b))
  }

  /** A one-character password passes login validation although register
      demands six characters. */
  lemma ShortPasswordPassesLogin(email: string)
    requires Email.IsEmail(email)
    ensures ValidateLogin(LoginBody(Some(email), Some("x"))).Ok?
    ensures !RegisterFieldValid(RegisterBody(None, Some(email), Some("x"), None, None), PasswordField)
  {
  }
}

=== FILE: auth_slice.dfy ===
/** The client's authentication state (authSlice.ts): a reducer over two
    actions. `loginSuccess` installs the payload's token and user whatever
    came before; `logout` returns to the initial state.

    The payload is whatever the server answered: the sign-in forms dispatch
    `loginSuccess({accessToken: res.data.accessToken, user: res.data.user})`.
    The register answer carries no `accessToken`, so after registration the
    payload's token is undefined. `None` stands for both `null` and
    `undefined`, which the reducer stores alike.
 */
module AuthSlice {
  import opened Wrappers
  import opened Tokens
  import opened Users
  import Auth
  import AuthDto
  import AuthController

  datatype AuthState = AuthState(accessToken: Option<AccessJwt>, user: Option<AuthController.UserView>,
                                 isAuthenticated: bool)

  /** No token, no user, not authenticated. */
  const Initial: AuthState := AuthState(None, None, false)

  /** The payload's token may be undefined and its user may be null. */
  datatype Action = LoginSuccess(accessToken: Option<AccessJwt>, user: Option<AuthController.UserView>) | Logout

  /** The slice's reducer. */
  function Reduce(s: AuthState, a: Action): (r: AuthState)
    ensures a.LoginSuccess? ==> r.accessToken == a.accessToken && r.user == a.user && r.isAuthenticated
    ensures a.Logout? ==> r == Initial
  {
    match a
    case LoginSuccess(token, user) => s.(accessToken := token, user := user, isAuthenticated := true)
    case Logout => s.(accessToken := None, user := None, isAuthenticated := false)
  }

  /** The state after dispatching `actions` in order from `s`. */
  function Replay(s: AuthState, actions: seq<Action>): AuthState
    decreases |actions|
  {
    if actions == [] then s else Replay(Reduce(s, actions[0]), actions[1..])
  }

  /** Every action overwrites all three fields, so only the last one counts. */
  lemma {:induction false} LastActionDecides(s: AuthState, actions: seq<Action>)
    requires actions != []
    ensures Replay(s, actions) == Reduce(Initial, actions[|actions| - 1])
    decreases |actions|
  {
    if |actions| > 1 {
      LastActionDecides(Reduce(s, actions[0]), actions[1..]);
    }
  }

  /** From the initial state, the client counts as authenticated exactly when
      the last action was a `loginSuccess`; it holds a token only then, and it
      is authenticated without a token exactly when that login carried none. */
  lemma AuthenticatedIffLastLogin(actions: seq<Action>)
    ensures Replay(Initial, actions).isAuthenticated <==> actions != [] && actions[|actions| - 1].LoginSuccess?
    ensures Replay(Initial, actions).accessToken.Some? ==> Replay(Initial, actions).isAuthenticated
    ensures Replay(Initial, actions).isAuthenticated && Replay(Initial, actions).accessToken.None?
        <==> actions != [] && actions[|actions| - 1].LoginSuccess? && actions[|actions| - 1].accessToken.None?
  {
    if actions != [] {
      LastActionDecides(Initial, actions);
    }
  }

  /** Logging out twice is logging out once, from any state. */
  lemma LogoutIdempotent(s: AuthState)
    ensures Reduce(Reduce(s, Logout), Logout) == Reduce(s, Logout) == Initial
  {
  }

  /** A login replaces any previous session completely. */
  lemma LoginReplaces(s: AuthState, t: AuthState, token: Option<AccessJwt>, user: Option<AuthController.UserView>)
    ensures Reduce(s, LoginSuccess(token, user)) == Reduce(t, LoginSuccess(token, user))
  {
  }

  /** What the sign-in forms dispatch for a signed-in answer:
      `{accessToken: res.data.accessToken, user: res.data.user}`. */
  function Dispatched(body: AuthController.Body): (a: Action)
    requires body.SignedIn?
    ensures a.LoginSuccess? && a.accessToken == body.accessToken && a.user == Some(body.user)
  {
    LoginSuccess(body.accessToken, Some(body.user))
  }

  /** After a successful registration the client is authenticated and holds
      the new user, but no access token: the register answer carries none. */
  lemma RegisterLeavesNoToken(s: AuthState, b: AuthController.Backend, body: AuthDto.RegisterBody,
                              newId: UserId, now: int)
    requires EmailsUnique(b.users) && newId !in b.users
    requires AuthController.Register(b, body, newId, now).response.status == AuthController.StatusCreated
    ensures AuthController.Register(b, body, newId, now).response.body.SignedIn?
    ensures var r := Reduce(s, Dispatched(AuthController.Register(b, body, newId, now).response.body));
      && r.isAuthenticated
      && r.accessToken.None?
      && r.user.Some? && r.user.value.id == newId
  {
  }

  /** After a successful login the client holds the access token the server
      signed, for the user who logged in. */
  lemma LoginLeavesToken(s: AuthState, b: AuthController.Backend, body: AuthDto.LoginBody, now: int,
                         m: Auth.Minting)
    requires EmailsUnique(b.users)
    requires AuthController.Login(b, body, now, m).response.status == AuthController.StatusOk
    ensures AuthController.Login(b, body, now, m).response.body.SignedIn?
    ensures var answer := AuthController.Login(b, body, now, m).response.body;
      var r := Reduce(s, Dispatched(answer));
      && r.isAuthenticated
      && r.accessToken.Some? && r.accessToken.value.userId == answer.user.id
  {
  }
}

=== FILE: decimal.dfy ===
/** Decimal rendering of naturals, as `Number.prototype.toString()` and
    `String.prototype.padStart(width, '0')` produce it, with its inverse.
    Used by the OTP code generator and by the upload public id.
 */
module Decimal {

  predicate IsDigit(c: char)
  {
    '0' <= c <= '9'
  }

  predicate AllDigits(s: string)
  {
    forall i :: 0 <= i < |s| ==> IsDigit(s[i])
  }

  predicate AllZero(s: string)
  {
    forall i :: 0 <= i < |s| ==> s[i] == '0'
  }

  function DigitChar(d: nat): (c: char)
    requires d < 10
    ensures IsDigit(c)
  {
    ('0' as int + d) as char
  }

  function DigitValue(c: char): (d: nat)
    requires IsDigit(c)
    ensures d < 10 && DigitChar(d) == c
  {
    c as int - '0' as int
  }

  function Pow10(k: nat): (p: nat)
    ensures p >= 1
  {
    if k == 0 then 1 else 10 * Pow10(k - 1)
  }

  /** `n.toString()`: at least one digit and no leading zero. */
  function ToDecimal(n: nat): (r: string)
    ensures |r| >= 1 && AllDigits(r)
    ensures |r| > 1 ==> r[0] != '0'
    decreases n
  {
    if n < 10 then [DigitChar(n)] else ToDecimal(n / 10) + [DigitChar(n % 10)]
  }

  /** The value of a digit string (leading zeros allowed); it always fits in
      as many decimal places as the string has characters. */
  function ParseDecimal(s: string): (n: nat)
    requires AllDigits(s)
    ensures n < Pow10(|s|)
  {
    if |s| == 0 then 0
    else 10 * ParseDecimal(s[..|s| - 1]) + DigitValue(s[|s| - 1])
  }

  function Zeros(k: nat): (r: string)
    ensures |r| == k && AllZero(r) && AllDigits(r)
  {
    if k == 0 then [] else ['0'] + Zeros(k - 1)
  }

  /** `s.padStart(width, '0')`: zeros on the left up to `width` characters;
      a string already that wide is left alone. */
  function PadStart(s: string, width: nat): (r: string)
    ensures |s| >= width ==> r == s
    ensures |s| < width ==> |r| == width && r[width - |s|..] == s && AllZero(r[..width - |s|])
  {
    if |s| >= width then s else Zeros(width - |s|) + s
  }

  /** Parsing undoes rendering. */
  lemma {:induction false} ParseToDecimal(n: nat)
    ensures ParseDecimal(ToDecimal(n)) == n
    decreases n
  {
    if n >= 10 {
      var t := ToDecimal(n / 10);
      var s := t + [DigitChar(n % 10)];
      assert s[..|s| - 1] == t;
      ParseToDecimal(n / 10);
    }
  }

  /** A natural renders in at most `k` digits exactly when it is below 10^k. */
  lemma {:induction false} ToDecimalWidth(n: nat, k: nat)
    requires k >= 1
    ensures |ToDecimal(n)| <= k <==> n < Pow10(k)
    decreases n
  {
    if n < 10 {
      assert Pow10(k) == 10 * Pow10(k - 1);
    } else {
      assert n == 10 * (n / 10) + n % 10;
      if k == 1 {
        assert Pow10(1) == 10;
      } else {
        ToDecimalWidth(n / 10, k - 1);
        assert Pow10(k) == 10 * Pow10(k - 1);
      }
    }
  }

  /** Leading zeros do not change the parsed value. */
  lemma {:induction false} ParseLeadingZeros(k: nat, s: string)
    requires AllDigits(s)
    ensures AllDigits(Zeros(k) + s)
    ensures ParseDecimal(Zeros(k) + s) == ParseDecimal(s)
    decreases |s|
  {
    var z := Zeros(k) + s;
    if |s| == 0 {
      assert z == Zeros(k);
      ParseZeros(k);
    } else {
      var t := s[..|s| - 1];
      assert z[..|z| - 1] == Zeros(k) + t;
      ParseLeadingZeros(k, t);
    }
  }

  lemma {:induction false} ParseZeros(k: nat)
    ensures ParseDecimal(Zeros(k)) == 0
  {
    if k > 0 {
      var z := Zeros(k);
      assert z[..k - 1] == Zeros(k - 1) by {
        assert forall i :: 0 <= i < k - 1 ==> z[i] == '0';
      }
      ParseZeros(k - 1);
    }
  }

  /** A digit string parses to 0 exactly when every digit is '0'. */
  lemma {:induction false} ParseZeroIffAllZero(s: string)
    requires AllDigits(s)
    ensures ParseDecimal(s) == 0 <==> AllZero(s)
    decreases |s|
  {
    if |s| > 0 {
      var t := s[..|s| - 1];
      ParseZeroIffAllZero(t);
      if AllZero(s) {
        assert AllZero(t);
      }
      if ParseDecimal(s) == 0 {
        assert forall i :: 0 <= i < |s| - 1 ==> s[i] == t[i];
      }
    }
  }

  /** The string without its redundant leading zeros (one digit is kept). */
  function StripZeros(s: string): (r: string)
    requires |s| >= 1
    ensures 1 <= |r| <= |s| && r == s[|s| - |r|..]
    ensures AllZero(s[..|s| - |r|])
    ensures |r| > 1 ==> r[0] != '0'
  {
    if |s| > 1 && s[0] == '0' then
      var r := StripZeros(s[1..]);
      assert AllZero(s[..|s| - |r|]) by {
        assert forall i :: 1 <= i < |s| - |r| ==> s[i] == s[1..][i - 1];
      }
      r
    else s
  }

  lemma {:induction false} StripAllZeroThenDigit(t: string, c: char)
    requires AllZero(t)
    ensures StripZeros(t + [c]) == [c]
    decreases |t|
  {
    if |t| > 0 {
      assert (t + [c])[1..] == t[1..] + [c];
      StripAllZeroThenDigit(t[1..], c);
    }
  }

  lemma {:induction false} StripAppend(t: string, c: char)
    requires |t| >= 1 && !AllZero(t)
    ensures StripZeros(t + [c]) == StripZeros(t) + [c]
    decreases |t|
  {
    if t[0] == '0' {
      assert |t| > 1;
      assert (t + [c])[1..] == t[1..] + [c];
      assert !AllZero(t[1..]) by {
        var i :| 0 <= i < |t| && t[i] != '0';
        assert t[1..][i - 1] == t[i];
      }
      StripAppend(t[1..], c);
    }
  }

  /** Appending a digit to a positive number appends its character. */
  lemma ToDecimalStep(p: nat, d: nat, n: nat)
    requires p >= 1 && d < 10 && n == 10 * p + d
    ensures ToDecimal(n) == ToDecimal(p) + [DigitChar(d)]
  {
    assert n / 10 == p && n % 10 == d;
  }

  /** Appending a digit multiplies the value by ten and adds the digit. */
  lemma ParseSnoc(t: string, c: char)
    requires AllDigits(t) && IsDigit(c)
    ensures AllDigits(t + [c])
    ensures ParseDecimal(t + [c]) == 10 * ParseDecimal(t) + DigitValue(c)
  {
    var s := t + [c];
    assert s[..|s| - 1] == t;
  }

  /** One step of `ToDecimalOfParse` for a prefix with a non-zero digit. */
  lemma ToDecimalSnoc(t: string, c: char)
    requires |t| >= 1 && AllDigits(t) && IsDigit(c) && !AllZero(t)
    requires ToDecimal(ParseDecimal(t)) == StripZeros(t)
    ensures AllDigits(t + [c])
    ensures ToDecimal(ParseDecimal(t + [c])) == StripZeros(t + [c])
  {
    var p, d := ParseDecimal(t), DigitValue(c);
    ParseSnoc(t, c);
    ParseZeroIffAllZero(t);
    ToDecimalStep(p, d, ParseDecimal(t + [c]));
    StripAppend(t, c);
  }

  /** A digit after nothing but zeros renders as that digit alone. */
  lemma ToDecimalZerosSnoc(t: string, c: char)
    requires AllZero(t) && IsDigit(c)
    ensures AllDigits(t + [c])
    ensures ToDecimal(ParseDecimal(t + [c])) == StripZeros(t + [c])
  {
    assert AllDigits(t);
    ParseSnoc(t, c);
    var n := ParseDecimal(t + [c]);
    assert n == DigitValue(c) by {
      ParseZeroIffAllZero(t);
    }
    assert ToDecimal(n) == [c];
    assert StripZeros(t + [c]) == [c] by {
      StripAllZeroThenDigit(t, c);
    }
  }

  /** Rendering the parsed value gives the string back without leading zeros. */
  lemma {:induction false} ToDecimalOfParse(s: string)
    requires |s| >= 1 && AllDigits(s)
    ensures ToDecimal(ParseDecimal(s)) == StripZeros(s)
    decreases |s|
  {
    var t := s[..|s| - 1];
    var c := s[|s| - 1];
    assert s == t + [c];
    if AllZero(t) {
      ToDecimalZerosSnoc(t, c);
    } else {
      ToDecimalOfParse(t);
      ToDecimalSnoc(t, c);
    }
  }

  /** Padding a stripped string back to its width restores it. */
  lemma {:induction false} PadStripped(s: string)
    requires |s| >= 1
    ensures PadStart(StripZeros(s), |s|) == s
  {
    var r := StripZeros(s);
    if |r| < |s| {
      var k := |s| - |r|;
      assert s == s[..k] + r;
      assert s[..k] == Zeros(k);
    }
  }
}

=== FILE: email.dfy ===
/** The two e-mail tests of the system. On the server, class-validator's
    `IsEmail()` runs validator.js's `isEmail` with its default options, which
    require a top-level domain. In the register form, Yup's
    `string().email()` matches the HTML form's e-mail pattern. The two
    disagree in both directions.
 */
module Email {
  import opened Text

  /** A local-part character of the form pattern: an ASCII letter or digit,
      or one of the punctuation marks the pattern lists. */
  predicate FormLocalChar(c: char)
  {
    IsAsciiAlnum(c) || c in ".!#$%&'*+/=?^_`{|}~-"
  }

  /** A domain label of the form pattern: 1 to 63 ASCII letters, digits or
      hyphens that start and end with a letter or digit. */
  predicate FormLabel(l: string)
  {
    && 1 <= |l| <= 63
    && IsAsciiAlnum(l[0]) && IsAsciiAlnum(l[|l| - 1])
    && forall i :: 0 <= i < |l| ==> IsAsciiAlnum(l[i]) || l[i] == '-'
  }

  /** Yup's `email()`: a non-empty local part, one `@`, and one or more
      dot-separated labels. Neither part may contain `@`, so the last `@` is
      the only one. */
  predicate FormEmail(s: string)
  {
    var k := LastIndexOf(s, '@');
    && 0 < k
    && (forall i :: 0 <= i < k ==> FormLocalChar(s[i]))
    && forall l <- Split(s[k + 1..], '.') :: FormLabel(l)
  }

  /** A character `isEmail` allows in an unquoted local part: an ASCII letter
      or digit, one of the listed punctuation marks, or a character in
      U+00A1–U+D7FF, U+F900–U+FDCF or U+FDF0–U+FFEF. */
  predicate UserChar(c: char)
  {
    || IsAsciiAlnum(c) || c in "!#$%&'*+-/=?^_`{|}~"
    || 0xA1 <= c as int <= 0xD7FF || 0xF900 <= c as int <= 0xFDCF || 0xFDF0 <= c as int <= 0xFFEF
  }

  /** One dot-separated piece of the local part: non-empty, of `UserChar`s. */
  predicate UserPart(p: string)
  {
    p != [] && forall i :: 0 <= i < |p| ==> UserChar(p[i])
  }

  /** A character `isFQDN` allows in a label when underscores are refused:
      an ASCII letter, digit or hyphen, or any character from U+00A1 up
      (characters beyond U+FFFF are surrogate pairs, whose halves lie in
      that range) except the full-width forms U+FF01–U+FF5E. */
  predicate LabelChar(c: char)
  {
    && (IsAsciiAlnum(c) || c == '-' || c as int >= 0xA1)
    && !(0xFF01 <= c as int <= 0xFF5E)
  }

  /** A label `isFQDN` allows: non-empty, at most 63 UTF-16 units, of
      `LabelChar`s, neither starting nor ending with a hyphen. */
  predicate FqdnLabel(l: string)
  {
    && l != []
    && Utf16Length(l) <= 63
    && (forall i :: 0 <= i < |l| ==> LabelChar(l[i]))
    && l[0] != '-' && l[|l| - 1] != '-'
  }

  /** A letter of a top-level domain: an ASCII letter, or a character in
      U+00A1–U+00A8, U+00AA–U+D7FF, U+F900–U+FDCF or U+FDF0–U+FFEF. */
  predicate TldChar(c: char)
  {
    || IsAsciiLetter(c)
    || 0xA1 <= c as int <= 0xA8 || 0xAA <= c as int <= 0xD7FF
    || 0xF900 <= c as int <= 0xFDCF || 0xFDF0 <= c as int <= 0xFFEF
  }

  /** A top-level domain `isFQDN` accepts with `require_tld`: two or more
      letters, or `xn` in either case followed by two or more ASCII letters,
      digits or hyphens; in both cases without whitespace. */
  predicate Tld(t: string)
  {
    && (|| (|t| >= 2 && forall i :: 0 <= i < |t| ==> TldChar(t[i]))
        || (&& |t| >= 4 && LowerChar(t[0]) == 'x' && LowerChar(t[1]) == 'n'
            && forall i :: 2 <= i < |t| ==> IsAsciiAlnum(t[i]) || t[i] == '-'))
    && forall i :: 0 <= i < |t| ==> !IsSpace(t[i])
  }

  /** `isFQDN` with `require_tld`: at least two labels, the last a
      top-level domain. */
  predicate IsFqdn(d: string)
  {
    var parts := Split(d, '.');
    && |parts| >= 2
    && Tld(parts[|parts| - 1])
    && forall p <- parts :: FqdnLabel(p)
  }

  /** validator.js's `isEmail` with its default options: at most 254 UTF-16
      units; the domain is what follows the last `@` and must pass
      `isFQDN`; the local part before it is at most 64 UTF-8 bytes and each
      of its dot-separated pieces is a `UserPart`. */
  predicate IsEmail(s: string)
  {
    var k := LastIndexOf(s, '@');
    && 0 <= k
    && Utf16Length(s) <= 254
    && Utf8Length(s[..k]) <= 64 && Utf8Length(s[k + 1..]) <= 254
    && IsFqdn(s[k + 1..])
    && forall p <- Split(s[..k], '.') :: UserPart(p)
  }

  /** The form pattern admits ASCII characters only. */
  lemma FormEmailIsAscii(s: string)
    requires FormEmail(s)
    ensures IsAscii(s)
  {
    var k := LastIndexOf(s, '@');
    var d := s[k + 1..];
    FormDomainIsAscii(d);
    forall i | 0 <= i < |s|
      ensures s[i] as int < 0x80
    {
      if k < i { assert s[i] == d[i - k - 1]; }
    }
  }

  /** A domain of form-pattern labels is ASCII. */
  lemma FormDomainIsAscii(d: string)
    requires forall l <- Split(d, '.') :: FormLabel(l)
    ensures IsAscii(d)
  {
    var P := (c: char) => c as int < 0x80;
    forall l <- Split(d, '.'), j | 0 <= j < |l|
      ensures P(l[j])
    {
      assert FormLabel(l);
    }
    SplitCovers(d, '.', P);
  }

  /** On ASCII text the server's test is the stricter one: every ASCII
      address `isEmail` accepts, the form accepts too. */
  lemma AsciiServerEmailIsFormEmail(s: string)
    requires IsEmail(s) && IsAscii(s)
    ensures FormEmail(s)
  {
    var k := LastIndexOf(s, '@');
    var user := s[..k];
    var d := s[k + 1..];
    assert IsAscii(user) by {
      forall i | 0 <= i < |user| ensures user[i] as int < 0x80 { assert user[i] == s[i]; }
    }
    AsciiLocalPartIsFormLocal(user);
    forall i | 0 <= i < k
      ensures FormLocalChar(s[i])
    {
      assert s[i] == user[i];
    }
    SplitPiecesKeep(d, '.', (c: char) => c as int < 0x80);
    forall l <- Split(d, '.')
      ensures FormLabel(l)
    {
      AsciiLabelIsFormLabel(l);
    }
  }

  /** An ASCII local part whose dot-pieces `isEmail` allows is a non-empty
      run of the form pattern's local-part characters. */
  lemma AsciiLocalPartIsFormLocal(user: string)
    requires IsAscii(user)
    requires forall p <- Split(user, '.') :: UserPart(p)
    ensures user != [] && forall i :: 0 <= i < |user| ==> FormLocalChar(user[i])
  {
    SplitCovers(user, '.', UserChar);
    assert user != [] by {
      assert UserPart(Split(user, '.')[0]);
    }
    forall i | 0 <= i < |user|
      ensures FormLocalChar(user[i])
    {
      assert user[i] == '.' || UserChar(user[i]);
      assert user[i] as int < 0x80;
    }
  }

  /** An ASCII label `isFQDN` allows is a label of the form pattern. */
  lemma AsciiLabelIsFormLabel(l: string)
    requires FqdnLabel(l) && IsAscii(l)
    ensures FormLabel(l)
  {
    BmpUtf16Length(l);
    forall i | 0 <= i < |l|
      ensures IsAsciiAlnum(l[i]) || l[i] == '-'
    {
      assert LabelChar(l[i]) && l[i] as int < 0x80;
    }
  }

  /** An address whose top-level domain is one letter passes the form, and
      the server refuses it. */
  lemma OneLetterTldSplitsTheTests(local: string, host: string, t: char)
    requires local != [] && forall i :: 0 <= i < |local| ==> FormLocalChar(local[i])
    requires FormLabel(host) && IsAsciiLetter(t)
    ensures FormEmail(local + ['@'] + (host + ['.'] + [t]))
    ensures !IsEmail(local + ['@'] + (host + ['.'] + [t]))
  {
    var d := host + ['.'] + [t];
    var s := local + ['@'] + d;
    assert '@' !in d by {
      forall i | 0 <= i < |d| ensures d[i] != '@' {
        if i < |host| { assert d[i] == host[i]; }
      }
    }
    LastIndexOfAt(local, '@', d);
    assert s[..|local|] == local;
    assert s[|local| + 1..] == d;
    assert '.' !in host by {
      forall i | 0 <= i < |host| ensures host[i] != '.' { assert IsAsciiAlnum(host[i]) || host[i] == '-'; }
    }
    SplitWithoutSep([t], '.');
    SplitAtFirst(host, '.', [t]);
    assert FormLabel([t]);
    assert !Tld([t]);
  }

  /** "a@b.c" is such an address. */
  lemma ShortTldSplitsTheTests()
    ensures FormEmail("a@b.c") && !IsEmail("a@b.c")
  {
    assert "a@b.c" == "a" + ['@'] + ("b" + ['.'] + ['c']);
    assert FormLabel("b");
    OneLetterTldSplitsTheTests("a", "b", 'c');
  }

  /** "a@b" passes the form, and the server refuses it: no top-level domain. */
  lemma BareHostSplitsTheTests()
    ensures FormEmail("a@b") && !IsEmail("a@b")
  {
    assert "a@b" == "a" + ['@'] + "b";
    LastIndexOfAt("a", '@', "b");
    assert "a@b"[2..] == "b";
    SplitWithoutSep("b", '.');
  }

  /** A local part with a character outside both sets, such as a
      parenthesis, is refused by both tests. */
  lemma ForeignLocalCharRefusedByBoth(local: string, domain: string, i: nat)
    requires '@' !in domain
    requires i < |local| && !FormLocalChar(local[i]) && !UserChar(local[i]) && local[i] != '.'
    ensures !FormEmail(local + ['@'] + domain) && !IsEmail(local + ['@'] + domain)
  {
    var s := local + ['@'] + domain;
    LastIndexOfAt(local, '@', domain);
    assert s[..|local|] == local;
    assert s[i] == local[i];
    if forall p <- Split(local, '.') :: UserPart(p) {
      SplitCovers(local, '.', UserChar);
    }
  }

  /** A domain `host.tld` with an alphanumeric host and a top-level domain
      of ASCII letters passes `isFQDN`. */
  lemma SimpleDomain(host: string, tld: string)
    requires 1 <= |host| <= 63 && forall i :: 0 <= i < |host| ==> IsAsciiAlnum(host[i])
    requires 2 <= |tld| <= 63 && forall i :: 0 <= i < |tld| ==> IsAsciiLetter(tld[i])
    ensures IsFqdn(host + ['.'] + tld) && IsAscii(host + ['.'] + tld) && '@' !in host + ['.'] + tld
  {
    var d := host + ['.'] + tld;
    assert forall i :: 0 <= i < |d| ==> d[i] == '.' || IsAsciiAlnum(d[i]);
    AlnumLabel(host);
    AlnumLabel(tld);
    SplitWithoutSep(tld, '.');
    SplitAtFirst(host, '.', tld);
    assert Tld(tld);
  }

  /** A run of 1 to 63 ASCII letters and digits is an `isFQDN` label
      without a dot. */
  lemma AlnumLabel(l: string)
    requires 1 <= |l| <= 63 && forall i :: 0 <= i < |l| ==> IsAsciiAlnum(l[i])
    ensures FqdnLabel(l) && '.' !in l
  {
    BmpUtf16Length(l);
  }

  /** A one-piece local part and an ASCII domain that passes `isFQDN`
      make an address the server accepts. */
  lemma OnePieceAddressIsEmail(local: string, d: string)
    requires UserPart(local) && '.' !in local && Utf8Length(local) <= 64
    requires IsFqdn(d) && IsAscii(d) && '@' !in d && |d| <= 127
    ensures IsEmail(local + ['@'] + d)
  {
    var s := local + ['@'] + d;
    LastIndexOfAt(local, '@', d);
    assert s[..|local|] == local;
    assert s[|local| + 1..] == d;
    SplitWithoutSep(local, '.');
    AsciiUtf8Length(d);
    AddressUtf16Length(local, d);
  }

  /** Such an address stays well inside `isEmail`'s 254 UTF-16 units. */
  lemma AddressUtf16Length(local: string, d: string)
    requires UserPart(local) && Utf8Length(local) <= 64
    requires IsAscii(d) && |d| <= 127
    ensures Utf16Length(local + ['@'] + d) <= 254
  {
    assert forall i :: 0 <= i < |local| ==> UserChar(local[i]);
    BmpUtf16Length(local);
    BmpUtf16Length(d);
    assert Utf16Length(['@']) == 1 by { assert ['@'][1..] == []; }
    Utf16LengthAppend(local, ['@']);
    Utf16LengthAppend(local + ['@'], d);
  }

  /** An address `local@host.tld` with a one-piece local part, an
      alphanumeric host and a top-level domain of ASCII letters passes the
      server's test. */
  lemma SimpleAddressIsEmail(local: string, host: string, tld: string)
    requires UserPart(local) && '.' !in local && Utf8Length(local) <= 64
    requires 1 <= |host| <= 63 && forall i :: 0 <= i < |host| ==> IsAsciiAlnum(host[i])
    requires 2 <= |tld| <= 63 && forall i :: 0 <= i < |tld| ==> IsAsciiLetter(tld[i])
    ensures IsEmail(local + ['@'] + (host + ['.'] + tld))
  {
    SimpleDomain(host, tld);
    OnePieceAddressIsEmail(local, host + ['.'] + tld);
  }

  /** An address the server accepts, with an ASCII domain, passes the form
      exactly when its local part is ASCII. */
  lemma AsciiDomainFormEmail(local: string, d: string)
    requires '@' !in d && IsAscii(d) && IsEmail(local + ['@'] + d)
    ensures FormEmail(local + ['@'] + d) <==> IsAscii(local)
  {
    var s := local + ['@'] + d;
    assert forall i :: 0 <= i < |local| ==> s[i] == local[i];
    if IsAscii(local) {
      assert IsAscii(s) by {
        forall i | 0 <= i < |s| ensures s[i] as int < 0x80 {
          if i > |local| { assert s[i] == d[i - |local| - 1]; }
        }
      }
      AsciiServerEmailIsFormEmail(s);
    }
    if FormEmail(s) {
      FormEmailIsAscii(s);
    }
  }

  /** The same address passes the form exactly when its local part is
      ASCII. So "josé@example.com" passes the server and not the form. */
  lemma SimpleAddressFormEmail(local: string, host: string, tld: string)
    requires UserPart(local) && '.' !in local && Utf8Length(local) <= 64
    requires 1 <= |host| <= 63 && forall i :: 0 <= i < |host| ==> IsAsciiAlnum(host[i])
    requires 2 <= |tld| <= 63 && forall i :: 0 <= i < |tld| ==> IsAsciiLetter(tld[i])
    ensures FormEmail(local + ['@'] + (host + ['.'] + tld)) <==> IsAscii(local)
  {
    var d := host + ['.'] + tld;
    SimpleDomain(host, tld);
    OnePieceAddressIsEmail(local, d);
    AsciiDomainFormEmail(local, d);
  }
}

=== FILE: gates.dfy ===
/** The request gates (auth.middleware.ts, role.middleware.ts).

    `authenticate` accepts an `Authorization` header of the form
    `Bearer <token>`, with the scheme spelled exactly so, and takes the
    token to be the second space-separated segment. `authorize` answers 403
    when the caller's role is not listed; as written it then calls `next()`
    anyway, so the rest of the route still runs. `Authorize` is the gate as
    evidently intended, which stops there.
 */
module Gates {
  import opened Wrappers
  import opened Text
  import opened Roles
  import opened Tokens

  const StatusUnauthorized: int := 401
  const StatusForbidden: int := 403

  const BearerPrefix: string := "Bearer "
  const NoTokenMessage: string := "Unauthorized access"
  const BadTokenMessage: string := "Invalid or expired token"

  /** The `req.user` the gate attaches. */
  datatype Caller = Caller(id: UserId, role: Role)

  /** The access tokens this server has signed, by their compact form. */
  type Keyring = map<string, AccessJwt>

  /** `jwt.verify` on an access token: one this server signed, whose `exp`
      (iat + 15 minutes) still lies ahead of the clock in whole seconds. */
  function VerifyAccess(token: string, keys: Keyring, nowMs: int): (r: Option<AccessJwt>)
    ensures r.Some? <==> token in keys && IssuedAt(nowMs) < keys[token].iat + AccessTtlSeconds
    ensures r.Some? ==> r.value == keys[token]
  {
    if token in keys && IssuedAt(nowMs) < keys[token].iat + AccessTtlSeconds then Some(keys[token]) else None
  }

  /** The characters of `s` before its first space. */
  function UpToSpace(s: string): (r: string)
    ensures |r| <= |s| && r == s[..|r|]
    ensures forall i :: 0 <= i < |r| ==> r[i] != ' '
    ensures |r| < |s| ==> s[|r|] == ' '
  {
    if |s| == 0 || s[0] == ' ' then [] else [s[0]] + UpToSpace(s[1..])
  }

  /** `header.split(' ')[1]` for a header that starts with the prefix: the
      prefix holds the first space, so the token runs from there to the next. */
  function BearerToken(header: string): (token: string)
    requires StartsWith(header, BearerPrefix)
    ensures forall i :: 0 <= i < |token| ==> token[i] != ' '
  {
    UpToSpace(header[|BearerPrefix|..])
  }

  datatype AuthOutcome = Refused(status: int, message: string) | Authenticated(caller: Caller)

  /** `authenticate`: a missing header or one without the exact prefix is
      refused; so is a token that does not verify; otherwise the caller is
      the token's user with the token's role. */
  function Authenticate(header: Option<string>, keys: Keyring, nowMs: int): (r: AuthOutcome)
    ensures (header.None? || !StartsWith(header.value, BearerPrefix)) ==>
      r == Refused(StatusUnauthorized, NoTokenMessage)
    ensures r.Authenticated? <==>
      header.Some? && StartsWith(header.value, BearerPrefix)
      && VerifyAccess(BearerToken(header.value), keys, nowMs).Some?
    ensures r.Authenticated? ==>
      var jwt := keys[BearerToken(header.value)];
      r.caller == Caller(jwt.userId, jwt.role)
    ensures r.Refused? ==> r.status == StatusUnauthorized
  {
    if header.None? || !StartsWith(header.value, BearerPrefix) then Refused(StatusUnauthorized, NoTokenMessage)
    else
      match VerifyAccess(BearerToken(header.value), keys, nowMs)
      case None => Refused(StatusUnauthorized, BadTokenMessage)
      case Some(jwt) => Authenticated(Caller(jwt.userId, jwt.role))
  }

  /** The header the client builds (`Bearer ${token}`) yields back the token
      it carries, for any token without a space. */
  lemma BearerRoundTrip(token: string, rest: string)
    requires forall i :: 0 <= i < |token| ==> token[i] != ' '
    ensures StartsWith(BearerPrefix + token, BearerPrefix)
    ensures BearerToken(BearerPrefix + token) == token
    ensures BearerToken(BearerPrefix + token + " " + rest) == token
  {
    var h := BearerPrefix + token;
    assert h[..|BearerPrefix|] == BearerPrefix;
    assert h[|BearerPrefix|..] == token;
    UpToSpaceOf(token, []);
    var h' := BearerPrefix + token + " " + rest;
    assert h'[..|BearerPrefix|] == BearerPrefix;
    assert h'[|BearerPrefix|..] == token + (" " + rest);
    UpToSpaceOf(token, " " + rest);
  }

  lemma {:induction false} UpToSpaceOf(token: string, tail: string)
    requires forall i :: 0 <= i < |token| ==> token[i] != ' '
    requires tail == [] || tail[0] == ' '
    ensures UpToSpace(token + tail) == token
    decreases |token|
  {
    if token != [] {
      assert (token + tail)[1..] == token[1..] + tail;
      UpToSpaceOf(token[1..], tail);
    }
  }

  /** A signed, unexpired token presented the way the client presents it
      authenticates as its user and role. */
  lemma SignedTokenAuthenticates(token: string, keys: Keyring, nowMs: int)
    requires forall i :: 0 <= i < |token| ==> token[i] != ' '
    requires token in keys && IssuedAt(nowMs) < keys[token].iat + AccessTtlSeconds
    ensures Authenticate(Some(BearerPrefix + token), keys, nowMs)
         == Authenticated(Caller(keys[token].userId, keys[token].role))
  {
    BearerRoundTrip(token, []);
  }

  /** The scheme is matched case-sensitively: `bearer <token>` is refused
      even for a valid token, although section 2.1 of RFC 7235 makes
      authentication schemes case-insensitive. */
  lemma LowerCaseSchemeRefused(token: string, keys: Keyring, nowMs: int)
    ensures Authenticate(Some("bearer " + token), keys, nowMs) == Refused(StatusUnauthorized, NoTokenMessage)
  {
    assert ("bearer " + token)[0] != BearerPrefix[0];
  }

  /** Whether `authorize(...allowed)` takes its 403 branch: no user, or a
      role that is not listed. Admin is not implied. */
  predicate Denied(user: Option<Caller>, allowed: seq<Role>)
  {
    user.None? || user.value.role !in allowed
  }

  /** What a middleware did: the response it sent, if any, and whether it
      handed on to the next one. */
  datatype GateEffect = GateEffect(response: Option<int>, continues: bool)

  /** `authorize` as written: the 403 response is sent, and `next()` is
      called in every case. */
  function AuthorizeAsWritten(user: Option<Caller>, allowed: seq<Role>): (e: GateEffect)
    ensures e.response.Some? <==> Denied(user, allowed)
    ensures e.response.Some? ==> e.response.value == StatusForbidden
    ensures e.continues
  {
    GateEffect(if Denied(user, allowed) then Some(StatusForbidden) else None, true)
  }

  /** `authorize` with the missing `return`: a denied caller gets 403 and
      nothing else runs; an allowed one passes silently. */
  function Authorize(user: Option<Caller>, allowed: seq<Role>): (e: GateEffect)
    ensures e.continues <==> !Denied(user, allowed)
    ensures e.response.Some? <==> !e.continues
    ensures e.response.Some? ==> e.response.value == StatusForbidden
  {
    if Denied(user, allowed) then GateEffect(Some(StatusForbidden), false) else GateEffect(None, true)
  }

  /** The two gates agree on allowed callers; on denied ones the written
      gate answers 403 yet still continues. */
  lemma GatesDifferOnlyWhenDenied(user: Option<Caller>, allowed: seq<Role>)
    ensures !Denied(user, allowed) ==> AuthorizeAsWritten(user, allowed) == Authorize(user, allowed)
    ensures Denied(user, allowed) ==>
      && AuthorizeAsWritten(user, allowed) == GateEffect(Some(StatusForbidden), true)
      && Authorize(user, allowed) == GateEffect(Some(StatusForbidden), false)
  {
  }

  /** An admin passes only a gate that lists admin. */
  lemma NoImplicitAdmin(id: UserId, allowed: seq<Role>)
    ensures Authorize(Some(Caller(id, Admin)), allowed).continues <==> Admin in allowed
  {
  }
}

=== FILE: job_dto.dfy ===
/** The job request bodies (job.dto.ts) and their class-validator checks.
    The DTO checks differ from the schema's: lengths are counted before
    trimming and as validator.js's `isLength` counts them, and `status` is
    only required to be a string.
 */
module JobDto {
  import opened Wrappers
  import opened Text
  import opened Jobs
  import Validation

  datatype CreateJobBody = CreateJobBody(
    title: Option<string>, description: Option<string>, companyName: Option<string>,
    location: Option<string>, salaryRange: Option<string>, jobType: Option<string>,
    experience: Option<string>, skills: Option<seq<string>>, status: Option<string>)

  /** A create body that passed validation, with the job type parsed. */
  datatype CreateJobDto = CreateJobDto(
    title: string, description: string, companyName: string, location: string,
    salaryRange: Option<string>, jobType: JobType, experience: string, skills: seq<string>,
    status: Option<string>)

  datatype CreateField = TitleField | DescriptionField | CompanyField | LocationField | JobTypeField
                       | ExperienceField | SkillsField

  predicate CreateFieldValid(b: CreateJobBody, f: CreateField)
  {
    match f
    case TitleField => Present(b.title) && IsLengthCount(b.title.value) >= TitleMinLength
    case DescriptionField => Present(b.description) && IsLengthCount(b.description.value) >= DescriptionMinLength
    case CompanyField => Present(b.companyName)
    case LocationField => Present(b.location)
    case JobTypeField => b.jobType.Some? && ParseJobType(b.jobType.value).Some?
    case ExperienceField => Present(b.experience)
    case SkillsField => b.skills.Some?
  }

  /** The DTO's properties, in declaration order. */
  const CreateFields: seq<CreateField> := [TitleField, DescriptionField, CompanyField, LocationField, JobTypeField, ExperienceField, SkillsField]

  lemma AllCreateFields()
    ensures forall f: CreateField :: f in CreateFields
  {
    forall f: CreateField ensures f in CreateFields {
      assert f.TitleField? || f.DescriptionField? || f.CompanyField? || f.LocationField? || f.JobTypeField? || f.ExperienceField? || f.SkillsField?;
    }
  }

  /** The failing properties, in declaration order. */
  function CreateErrors(b: CreateJobBody): (errs: seq<CreateField>)
    ensures forall f :: f in errs <==> !CreateFieldValid(b, f)
  {
    AllCreateFields();
    Validation.Failing(CreateFields, set f | f in CreateFields && !CreateFieldValid(b, f))
  }

  /** `validate(plainToClass(CreateJobDto, body))`: the typed body, or every
      failing property. `salaryRange` and `status` are optional strings. */
  function ValidateCreate(b: CreateJobBody): (r: Result<CreateJobDto, seq<CreateField>>)
    ensures r.Ok? <==> forall f :: CreateFieldValid(b, f)
    ensures r.Err? ==> r.error != [] && forall f :: f in r.error <==> !CreateFieldValid(b, f)
    ensures r.Ok? ==>
      && Some(r.value.title) == b.title && Some(r.value.description) == b.description
      && Some(r.value.companyName) == b.companyName && Some(r.value.location) == b.location
      && Some(r.value.experience) == b.experience && Some(r.value.skills) == b.skills
      && b.jobType == Some(JobTypeName(r.value.jobType))
      && r.value.salaryRange == b.salaryRange && r.value.status == b.status
  {
    if forall f :: CreateFieldValid(b, f) then
      assert CreateFieldValid(b, TitleField) && CreateFieldValid(b, DescriptionField)
          && CreateFieldValid(b, CompanyField) && CreateFieldValid(b, LocationField)
          && CreateFieldValid(b, JobTypeField) && CreateFieldValid(b, ExperienceField)
          && CreateFieldValid(b, SkillsField);
      Ok(CreateJobDto(b.title.value, b.description.value, b.companyName.value, b.location.value,
                      b.salaryRange, ParseJobType(b.jobType.value).value, b.experience.value,
                      b.skills.value, b.status))
    else Err(CreateErrors(b))
  }

  /** An update body. `postedBy` is not declared by the DTO class, yet
      `plainToClass` copies it onto the instance and `validate` lets it
      through. */
  datatype UpdateJobBody = UpdateJobBody(
    title: Option<string>, description: Option<string>, companyName: Option<string>,
    location: Option<string>, salaryRange: Option<string>, jobType: Option<string>,
    experience: Option<string>, skills: Option<seq<string>>, status: Option<string>,
    postedBy: Option<string>)

  /** `validate(plainToClass(UpdateJobDto, body))`: every field is optional
      and has no length minimum; only a supplied job type is checked, and an
      undeclared `postedBy` passes through. */
  function ValidateUpdate(b: UpdateJobBody): (r: Option<JobPatch>)
    ensures r.None? <==> b.jobType.Some? && ParseJobType(b.jobType.value).None?
    ensures r.Some? ==>
      && r.value.title == b.title && r.value.description == b.description
      && r.value.companyName == b.companyName && r.value.location == b.location
      && r.value.salaryRange == b.salaryRange && r.value.experience == b.experience
      && r.value.skills == b.skills && r.value.status == b.status
      && r.value.postedBy == b.postedBy
      && (b.jobType.None? <==> r.value.jobType.None?)
      && (r.value.jobType.Some? ==> b.jobType == Some(JobTypeName(r.value.jobType.value)))
  {
    var jobType :=
      if b.jobType.Some? then (match ParseJobType(b.jobType.value) case Some(t) => Some(Some(t)) case None => None)
      else Some(None);
    match jobType
    case None => None
    case Some(t) =>
      Some(JobPatch(b.title, b.description, b.companyName, b.location, b.salaryRange, t,
                    b.experience, b.skills, b.status, b.postedBy))
  }

  /** `isLength` does not count a variation selector, so a title of four
      letters and U+FE0F fails the DTO's five-character minimum, although
      the schema, which counts UTF-16 units, would accept it. */
  lemma SelectorNotCounted(b: CreateJobBody)
    requires b.title == Some("abcd\U{FE0F}")
    ensures !CreateFieldValid(b, TitleField)
    ensures ValidateCreate(b).Err? && TitleField in ValidateCreate(b).error
    ensures Utf16Length(b.title.value) >= TitleMinLength
  {
    assert IsLengthCount("abcd\U{FE0F}") == 4;
  }
}

=== FILE: job_service.dfy ===
/** `JobService` (job.service.ts): a role gate on create, and an
    existence-then-ownership gate on update and delete in which an admin
    passes for any job.
 */
module JobService {
  import opened Wrappers
  import opened Text
  import opened Roles
  import opened Tokens
  import opened Jobs
  import opened JobDto

  datatype JobError = Forbidden | ResourceNotFound | JobInvalid(paths: seq<JobPath>)

  datatype JobStep = JobStep(jobs: JobStore, result: Result<Job, JobError>)

  /** Who may change or remove a job: its poster, or any admin. */
  predicate MayManage(job: Job, userId: UserId, role: Role)
  {
    job.postedBy == userId || role == Admin
  }

  /** The data `createJob` hands to the repository: the body, the caller as
      poster, and the status when truthy, else "open". */
  function JobDataOf(dto: CreateJobDto, userId: UserId): (d: JobData)
    ensures d.postedBy == userId
    ensures d.status == Some(if Present(dto.status) then dto.status.value else DefaultStatus)
  {
    JobData(dto.title, dto.description, dto.companyName, dto.location, dto.salaryRange, dto.jobType,
            dto.experience, dto.skills, userId, Some(if Present(dto.status) then dto.status.value else DefaultStatus))
  }

  /** `createJob`: only recruiters and admins may post; the stored job is the
      schema's document for the body, posted by the caller. */
  function CreateJob(jobs: JobStore, newId: JobId, userId: UserId, role: Role, dto: CreateJobDto): (r: JobStep)
    requires newId !in jobs
    ensures !Staff(role) ==> r == JobStep(jobs, Err(Forbidden))
    ensures r.result.Err? ==> r.jobs == jobs
    ensures r.result.Ok? <==> Staff(role) && WellFormedJob(Document(JobDataOf(dto, userId)))
    ensures r.result.Ok? ==>
      && r.jobs == jobs[newId := r.result.value]
      && r.result.value.postedBy == userId
      && r.result.value.title == Trim(dto.title)
      && r.result.value.status == (if Present(dto.status) then dto.status.value else DefaultStatus)
      && r.result.value.salaryRange == dto.salaryRange.GetOr(DefaultSalaryRange)
      && WellFormedJob(r.result.value)
  {
    if !Staff(role) then JobStep(jobs, Err(Forbidden))
    else
      var d := JobDataOf(dto, userId);
      match Jobs.Create(jobs, newId, d)
      case Err(paths) => JobStep(jobs, Err(JobInvalid(paths)))
      case Ok(stored) => JobStep(stored, Ok(Document(d)))
  }

  /** `getJobById`. */
  function GetJobById(jobs: JobStore, id: JobId): (r: Result<Job, JobError>)
    ensures r.Ok? <==> id in jobs
    ensures r.Ok? ==> r.value == jobs[id]
    ensures r.Err? ==> r.error == ResourceNotFound
  {
    match Lookup(jobs, id)
    case None => Err(ResourceNotFound)
    case Some(j) => Ok(j)
  }

  /** `getMyJobs`: the caller's postings. */
  function GetMyJobs(jobs: JobStore, userId: UserId): (r: map<JobId, Job>)
    ensures forall id :: id in r <==> id in jobs && jobs[id].postedBy == userId
    ensures forall id :: id in r ==> r[id] == jobs[id]
  {
    FindByPostedBy(jobs, userId)
  }

  /** `getAllOpenJobs`: never a closed or paused job. */
  function GetAllOpenJobs(jobs: JobStore): (r: map<JobId, Job>)
    ensures forall id :: id in r <==> id in jobs && jobs[id].status == "open"
    ensures forall id :: id in r ==> r[id].status != "closed" && r[id].status != "paused"
  {
    FindAllOpen(jobs)
  }

  /** `updateJob`: a missing job is reported before ownership is checked; a
      caller who neither posted the job nor is an admin changes nothing;
      otherwise the fields are merged without validation. */
  function UpdateJob(jobs: JobStore, userId: UserId, role: Role, jobId: JobId, patch: JobPatch): (r: JobStep)
    ensures jobId !in jobs ==> r == JobStep(jobs, Err(ResourceNotFound))
    ensures jobId in jobs && !MayManage(jobs[jobId], userId, role) ==> r == JobStep(jobs, Err(Forbidden))
    ensures jobId in jobs && MayManage(jobs[jobId], userId, role) ==>
      && r.result == Ok(Merge(jobs[jobId], patch))
      && r.jobs == jobs[jobId := Merge(jobs[jobId], patch)]
  {
    match Lookup(jobs, jobId)
    case None => JobStep(jobs, Err(ResourceNotFound))
    case Some(job) =>
      if !MayManage(job, userId, role) then JobStep(jobs, Err(Forbidden))
      else
        var (after, updated) := Jobs.Update(jobs, jobId, patch);
        match updated
        case None => JobStep(jobs, Err(ResourceNotFound))
        case Some(j) => JobStep(after, Ok(j))
  }

  /** `deleteJob`: the same two gates, then exactly that job is removed. */
  function DeleteJob(jobs: JobStore, userId: UserId, role: Role, jobId: JobId): (r: (JobStore, Result<(), JobError>))
    ensures jobId !in jobs ==> r == (jobs, Err(ResourceNotFound))
    ensures jobId in jobs && !MayManage(jobs[jobId], userId, role) ==> r == (jobs, Err(Forbidden))
    ensures jobId in jobs && MayManage(jobs[jobId], userId, role) ==>
      && r.1 == Ok(())
      && jobId !in r.0
      && forall k :: k != jobId ==> (k in r.0 <==> k in jobs) && (k in r.0 ==> r.0[k] == jobs[k])
  {
    match Lookup(jobs, jobId)
    case None => (jobs, Err(ResourceNotFound))
    case Some(job) =>
      if !MayManage(job, userId, role) then (jobs, Err(Forbidden))
      else (Jobs.Delete(jobs, jobId), Ok(()))
  }

  /** A created job can be read back, is among its poster's jobs, and is
      listed as open exactly when its status is "open". */
  lemma CreateThenGet(jobs: JobStore, newId: JobId, userId: UserId, role: Role, dto: CreateJobDto)
    requires newId !in jobs
    requires CreateJob(jobs, newId, userId, role, dto).result.Ok?
    ensures var r := CreateJob(jobs, newId, userId, role, dto);
      && GetJobById(r.jobs, newId) == r.result
      && newId in GetMyJobs(r.jobs, userId)
      && (newId in GetAllOpenJobs(r.jobs) <==> !Present(dto.status) || dto.status.value == "open")
  {
  }

  /** After a delete the job is not found; a second delete is refused as
      not found. */
  lemma DeleteThenNotFound(jobs: JobStore, userId: UserId, role: Role, jobId: JobId)
    requires jobId in jobs && MayManage(jobs[jobId], userId, role)
    ensures var after := DeleteJob(jobs, userId, role, jobId).0;
      GetJobById(after, jobId) == Err(ResourceNotFound)
      && DeleteJob(after, userId, role, jobId) == (after, Err(ResourceNotFound))
  {
  }

  /** Repeating an update changes nothing further; it answers as before
      unless the first update handed the job to someone the caller may not
      act for. */
  lemma UpdateIdempotent(jobs: JobStore, userId: UserId, role: Role, jobId: JobId, patch: JobPatch)
    requires UpdateJob(jobs, userId, role, jobId, patch).result.Ok?
    ensures var once := UpdateJob(jobs, userId, role, jobId, patch);
      var again := UpdateJob(once.jobs, userId, role, jobId, patch);
      && again.jobs == once.jobs
      && (MayManage(once.jobs[jobId], userId, role) ==> again == once)
  {
    var once := UpdateJob(jobs, userId, role, jobId, patch);
    MergeIdempotent(jobs[jobId], patch);
    assert once.jobs[jobId := Merge(once.jobs[jobId], patch)] == once.jobs;
  }

  /** Ownership is the only gate after existence: whoever may manage a job
      may both change and remove it, and whoever may not can do neither. */
  lemma OwnershipGate(jobs: JobStore, userId: UserId, role: Role, jobId: JobId, patch: JobPatch)
    requires jobId in jobs
    ensures UpdateJob(jobs, userId, role, jobId, patch).result.Ok? <==> MayManage(jobs[jobId], userId, role)
    ensures DeleteJob(jobs, userId, role, jobId).1.Ok? <==> MayManage(jobs[jobId], userId, role)
    ensures role == Admin ==> UpdateJob(jobs, userId, role, jobId, patch).result.Ok?
  {
  }

  /** A status the DTO lets through but the schema's enum refuses: creating
      a job with it fails, while an owner's update stores it and thereby
      hides the job from the open list. */
  lemma UnlistedStatusViaUpdate(jobs: JobStore, newId: JobId, userId: UserId, dto: CreateJobDto, jobId: JobId)
    requires newId !in jobs && jobId in jobs && jobs[jobId].postedBy == userId
    requires dto.status == Some("archived")
    ensures CreateJob(jobs, newId, userId, Recruiter, dto).result.Err?
    ensures var patch := JobPatch(None, None, None, None, None, None, None, None, Some("archived"), None);
      var r := UpdateJob(jobs, userId, Recruiter, jobId, patch);
      && r.result.Ok? && r.result.value.status == "archived"
      && !WellFormedJob(r.result.value)
      && jobId !in GetAllOpenJobs(r.jobs)
  {
    assert !PathValid(Document(JobDataOf(dto, userId)), StatusPath);
    ArchivedByUpdate(jobs, userId, jobId);
  }

  /** The update half: an owner's patch of the status alone stores it as is. */
  lemma ArchivedByUpdate(jobs: JobStore, userId: UserId, jobId: JobId)
    requires jobId in jobs && jobs[jobId].postedBy == userId
    ensures var patch := JobPatch(None, None, None, None, None, None, None, None, Some("archived"), None);
      var r := UpdateJob(jobs, userId, Recruiter, jobId, patch);
      && r.result.Ok? && r.result.value.status == "archived"
      && !WellFormedJob(r.result.value)
      && jobId !in GetAllOpenJobs(r.jobs)
  {
    var patch := JobPatch(None, None, None, None, None, None, None, None, Some("archived"), None);
    var merged := Merge(jobs[jobId], patch);
    assert merged.status == "archived" && !PathValid(merged, StatusPath);
    var r := UpdateJob(jobs, userId, Recruiter, jobId, patch);
    assert r.result == Ok(merged) && r.jobs[jobId] == merged;
  }

  /** A plain-text title of exactly five characters with whitespace at
      either end passes the DTO, which counts before trimming, yet the
      trimmed title is too short for the schema. */
  lemma PaddedTitlePassesDto(b: CreateJobBody, jobs: JobStore, newId: JobId, userId: UserId)
    requires newId !in jobs
    requires b.title.Some? && PlainText(b.title.value)
    requires |b.title.value| == TitleMinLength && !IsTrimmed(b.title.value)
    requires forall f :: f != TitleField ==> CreateFieldValid(b, f)
    ensures ValidateCreate(b).Ok?
    ensures TitlePath in Failing(Document(JobDataOf(ValidateCreate(b).value, userId)))
    ensures CreateJob(jobs, newId, userId, Recruiter, ValidateCreate(b).value).result.Err?
  {
    var t := b.title.value;
    PlainTextLengths(t);
    assert forall f :: CreateFieldValid(b, f) by {
      forall f ensures CreateFieldValid(b, f) {
        if f != TitleField { assert CreateFieldValid(b, f); }
      }
    }
    TrimShortens(t);
    PlainTextSlice(t, TrimOffset(t), TrimOffset(t) + |Trim(t)|);
    PlainTextLengths(Trim(t));
    assert !PathValid(Document(JobDataOf(ValidateCreate(b).value, userId)), TitlePath);
  }

  /** Outside plain text the two counts part ways in the other direction.
      A title of one whitespace character, three plain characters and one
      character beyond U+FFFF, such as " abc" followed by an emoji, is five
      characters for the DTO; trimmed, it is five UTF-16 units for the
      schema. So the title passes both. */
  lemma PaddedAstralTitlePassesBoth(b: CreateJobBody, userId: UserId, pad: char, letters: string, e: char)
    requires IsSpace(pad) && PlainText(letters) && |letters| == 3 && !IsSpace(letters[0])
    requires e as int >= 0x1_0000
    requires b.title == Some([pad] + letters + [e])
    requires forall f :: f != TitleField ==> CreateFieldValid(b, f)
    ensures ValidateCreate(b).Ok?
    ensures TitlePath !in Failing(Document(JobDataOf(ValidateCreate(b).value, userId)))
  {
    AstralTitleLengthCount(pad, letters, e);
    AstralTitleUnits(pad, letters, e);
    assert forall f :: CreateFieldValid(b, f) by {
      forall f ensures CreateFieldValid(b, f) {
        if f != TitleField { assert CreateFieldValid(b, f); }
      }
    }
  }

  /** The DTO's count of such a title. */
  lemma AstralTitleLengthCount(pad: char, letters: string, e: char)
    requires IsSpace(pad) && PlainText(letters) && |letters| == 3
    requires e as int >= 0x1_0000
    ensures IsLengthCount([pad] + letters + [e]) == 5
  {
    var tail := letters + [e];
    assert [pad] + letters + [e] == [pad] + tail;
    assert ([pad] + tail)[1..] == tail;
    PlainTextLengths(letters);
    IsLengthCountAppend(letters, [e]);
  }

  /** The schema's count of such a title, once trimmed. */
  lemma AstralTitleUnits(pad: char, letters: string, e: char)
    requires IsSpace(pad) && PlainText(letters) && |letters| == 3 && !IsSpace(letters[0])
    requires e as int >= 0x1_0000
    ensures Utf16Length(Trim([pad] + letters + [e])) == 5
  {
    var tail := letters + [e];
    assert tail[0] == letters[0] && tail[|tail| - 1] == e;
    assert !IsSpace(e);
    TrimmedIsFixed(tail);
    assert [pad] + letters + [e] == [pad] + tail;
    TrimDropsLeadingSpace(pad, tail);
    PlainTextLengths(letters);
    assert Utf16Length([e]) == 2 by { assert [e][1..] == []; }
    Utf16LengthAppend(letters, [e]);
  }

  /** The skills never decide whether a job is created: an empty list is
      accepted exactly when any other list would be, and is stored as given. */
  lemma EmptySkillsAccepted(b: CreateJobBody, jobs: JobStore, newId: JobId, userId: UserId, skills: seq<string>)
    requires newId !in jobs
    requires b.skills == Some([])
    requires forall f :: f != SkillsField ==> CreateFieldValid(b, f)
    ensures ValidateCreate(b).Ok? && ValidateCreate(b.(skills := Some(skills))).Ok?
    ensures var r := CreateJob(jobs, newId, userId, Recruiter, ValidateCreate(b).value);
      && (r.result.Ok? <==> CreateJob(jobs, newId, userId, Recruiter, ValidateCreate(b.(skills := Some(skills))).value).result.Ok?)
      && (r.result.Ok? ==> r.result.value.skills == [])
  {
    var b' := b.(skills := Some(skills));
    AnySkillsPassDto(b, skills);
    var dto := ValidateCreate(b).value;
    var d := Document(JobDataOf(dto, userId));
    assert Document(JobDataOf(dto.(skills := skills), userId)) == d.(skills := skills);
    SkillsNotValidated(d, skills);
  }

  /** The DTO checks only that skills are present, so replacing them changes
      nothing else about the validated body. */
  lemma AnySkillsPassDto(b: CreateJobBody, skills: seq<string>)
    requires b.skills.Some?
    requires forall f :: f != SkillsField ==> CreateFieldValid(b, f)
    ensures ValidateCreate(b).Ok?
    ensures ValidateCreate(b.(skills := Some(skills))) == Ok(ValidateCreate(b).value.(skills := skills))
  {
    var b' := b.(skills := Some(skills));
    forall f ensures CreateFieldValid(b, f) && CreateFieldValid(b', f) {
      if f != SkillsField { assert CreateFieldValid(b, f); }
    }
  }

  /** No schema path looks at the skills. */
  lemma SkillsNotValidated(j: Job, skills: seq<string>)
    ensures WellFormedJob(j) <==> WellFormedJob(j.(skills := skills))
  {
    forall p ensures PathValid(j, p) <==> PathValid(j.(skills := skills), p) {
    }
  }

  /** An owner's update that names another poster hands the job over: the
      job leaves the owner's list and joins the new poster's, and the former
      owner, unless an admin, can no longer change it. */
  lemma OwnerHandsJobOver(jobs: JobStore, owner: UserId, other: UserId, role: Role, jobId: JobId, patch: JobPatch)
    requires jobId in jobs && jobs[jobId].postedBy == owner && other != owner
    requires patch.postedBy == Some(other)
    ensures var r := UpdateJob(jobs, owner, role, jobId, patch);
      && r.result.Ok?
      && jobId !in GetMyJobs(r.jobs, owner) && jobId in GetMyJobs(r.jobs, other)
      && (role != Admin ==> UpdateJob(r.jobs, owner, role, jobId, patch).result == Err(Forbidden))
  {
  }
}

=== FILE: jobs.dfy ===
/** The job collection (job.model.ts) and its repository (job.repository.ts).

    Jobs live in a map from opaque ids. `Job.create` applies the schema's
    trim setters, defaults and validators; `findByIdAndUpdate` applies the
    setters but runs no validators, so an update may store values a create
    would refuse. `status` is therefore kept as the string it was written as.
    The `minlength` validators compare JavaScript's `length` (UTF-16 code
    units). The `skills` path has no validator that can fail: `required` on
    an array path accepts an empty array, and `minlength` is not a validator
    of array paths.
 */
module Jobs {
  import opened Wrappers
  import opened Text
  import Validation
  import opened Tokens

  type JobId = string

  datatype JobType = FullTime | PartTime | Contract | Internship

  function JobTypeName(t: JobType): string
  {
    match t
    case FullTime => "Full-time"
    case PartTime => "Part-time"
    case Contract => "Contract"
    case Internship => "Internship"
  }

  /** Membership in the job-type enum, as both the schema and the DTOs test it. */
  function ParseJobType(s: string): (r: Option<JobType>)
    ensures r.Some? ==> JobTypeName(r.value) == s
    ensures r.None? ==> forall t: JobType :: JobTypeName(t) != s
  {
    if s == "Full-time" then Some(FullTime)
    else if s == "Part-time" then Some(PartTime)
    else if s == "Contract" then Some(Contract)
    else if s == "Internship" then Some(Internship)
    else None
  }

  lemma ParseJobTypeName(t: JobType)
    ensures ParseJobType(JobTypeName(t)) == Some(t)
  {
  }

  const TitleMinLength: nat := 5
  const DescriptionMinLength: nat := 50
  const DefaultSalaryRange: string := "Not disclosed"
  const DefaultStatus: string := "open"

  /** The schema's status enum. */
  predicate IsJobStatus(s: string)
  {
    s == "open" || s == "closed" || s == "paused"
  }

  datatype Job = Job(title: string, description: string, companyName: string, location: string,
                     salaryRange: string, jobType: JobType, experience: string, skills: seq<string>,
                     postedBy: UserId, status: string)

  type JobStore = map<JobId, Job>

  /** The data handed to `Job.create`: absent optional paths are `None`. */
  datatype JobData = JobData(title: string, description: string, companyName: string, location: string,
                             salaryRange: Option<string>, jobType: JobType, experience: string,
                             skills: seq<string>, postedBy: UserId, status: Option<string>)

  /** The paths whose validators can fail. */
  datatype JobPath = TitlePath | DescriptionPath | CompanyPath | LocationPath | ExperiencePath | StatusPath

  /** The document `Job.create` would store, before validation. */
  function Document(d: JobData): Job
  {
    Job(Trim(d.title), d.description, Trim(d.companyName), Trim(d.location),
        d.salaryRange.GetOr(DefaultSalaryRange), d.jobType, Trim(d.experience), d.skills,
        d.postedBy, d.status.GetOr(DefaultStatus))
  }

  /** Whether one path of a stored job satisfies the schema. */
  predicate PathValid(j: Job, p: JobPath)
  {
    match p
    case TitlePath => Utf16Length(j.title) >= TitleMinLength
    case DescriptionPath => Utf16Length(j.description) >= DescriptionMinLength
    case CompanyPath => j.companyName != []
    case LocationPath => j.location != []
    case ExperiencePath => j.experience != []
    case StatusPath => IsJobStatus(j.status)
  }

  /** Everything the schema promises of a created job. */
  predicate WellFormedJob(j: Job)
  {
    forall p :: PathValid(j, p)
  }

  /** The schema's paths, in declaration order. */
  const JobPaths: seq<JobPath> := [TitlePath, DescriptionPath, CompanyPath, LocationPath, ExperiencePath,
                                   StatusPath]

  lemma AllJobPaths()
    ensures forall p: JobPath :: p in JobPaths
  {
    forall p: JobPath ensures p in JobPaths {
      assert p.TitlePath? || p.DescriptionPath? || p.CompanyPath? || p.LocationPath? || p.ExperiencePath?
          || p.StatusPath?;
    }
  }

  /** The paths whose validators fail, in declaration order. */
  function Failing(j: Job): (errs: seq<JobPath>)
    ensures forall p :: p in errs <==> !PathValid(j, p)
  {
    AllJobPaths();
    Validation.Failing(JobPaths, set p | p in JobPaths && !PathValid(j, p))
  }

  /** `create`: setters and defaults, then every validator; a failing path
      stores nothing. */
  function Create(jobs: JobStore, id: JobId, d: JobData): (r: Result<JobStore, seq<JobPath>>)
    requires id !in jobs
    ensures r.Ok? <==> WellFormedJob(Document(d))
    ensures r.Ok? ==> r.value == jobs[id := Document(d)]
    ensures r.Err? ==> r.error != [] && forall p :: p in r.error <==> !PathValid(Document(d), p)
  {
    var j := Document(d);
    if WellFormedJob(j) then Ok(jobs[id := j])
    else Err(Failing(j))
  }

  /** `find({postedBy: userId})`: exactly that user's jobs. */
  function FindByPostedBy(jobs: JobStore, userId: UserId): (r: map<JobId, Job>)
    ensures forall id :: id in r <==> id in jobs && jobs[id].postedBy == userId
    ensures forall id :: id in r ==> r[id] == jobs[id]
  {
    map id | id in jobs && jobs[id].postedBy == userId :: jobs[id]
  }

  /** `find({status: 'open'})`: exactly the jobs whose stored status is "open". */
  function FindAllOpen(jobs: JobStore): (r: map<JobId, Job>)
    ensures forall id :: id in r <==> id in jobs && jobs[id].status == "open"
    ensures forall id :: id in r ==> r[id] == jobs[id]
  {
    map id | id in jobs && jobs[id].status == "open" :: jobs[id]
  }

  /** The fields an update supplies; `None` leaves the stored value.
      `postedBy` is not a property of the update body's class, but nothing
      strips it, so a body that carries it updates the poster. */
  datatype JobPatch = JobPatch(title: Option<string>, description: Option<string>, companyName: Option<string>,
                               location: Option<string>, salaryRange: Option<string>, jobType: Option<JobType>,
                               experience: Option<string>, skills: Option<seq<string>>, status: Option<string>,
                               postedBy: Option<UserId>)

  /** The supplied fields after the trim setters, over the stored job; the
      poster changes only when the patch names one. */
  function Merge(j: Job, p: JobPatch): (r: Job)
    ensures p.postedBy.None? ==> r.postedBy == j.postedBy
    ensures p.postedBy.Some? ==> r.postedBy == p.postedBy.value
    ensures p.title.None? ==> r.title == j.title
    ensures p.title.Some? ==> r.title == Trim(p.title.value)
    ensures p.status.None? ==> r.status == j.status
    ensures p.status.Some? ==> r.status == p.status.value
  {
    Job(
      if p.title.Some? then Trim(p.title.value) else j.title,
      p.description.GetOr(j.description),
      if p.companyName.Some? then Trim(p.companyName.value) else j.companyName,
      if p.location.Some? then Trim(p.location.value) else j.location,
      p.salaryRange.GetOr(j.salaryRange),
      p.jobType.GetOr(j.jobType),
      if p.experience.Some? then Trim(p.experience.value) else j.experience,
      p.skills.GetOr(j.skills),
      p.postedBy.GetOr(j.postedBy),
      p.status.GetOr(j.status))
  }

  /** Merging the same fields twice is merging them once. */
  lemma MergeIdempotent(j: Job, p: JobPatch)
    ensures Merge(Merge(j, p), p) == Merge(j, p)
  {
    var once := Merge(j, p);
    var twice := Merge(once, p);
    assert twice.title == once.title by {
      if p.title.Some? { TrimIdempotent(p.title.value); }
    }
    assert twice.companyName == once.companyName by {
      if p.companyName.Some? { TrimIdempotent(p.companyName.value); }
    }
    assert twice.location == once.location by {
      if p.location.Some? { TrimIdempotent(p.location.value); }
    }
    assert twice.experience == once.experience by {
      if p.experience.Some? { TrimIdempotent(p.experience.value); }
    }
  }

  /** `findByIdAndUpdate(id, patch, {new: true})`: the merged job, or null;
      no validator runs. */
  function Update(jobs: JobStore, id: JobId, p: JobPatch): (r: (JobStore, Option<Job>))
    ensures id !in jobs ==> r == (jobs, None)
    ensures id in jobs ==> r.1 == Some(Merge(jobs[id], p)) && r.0 == jobs[id := Merge(jobs[id], p)]
  {
    if id in jobs then
      var j := Merge(jobs[id], p);
      (jobs[id := j], Some(j))
    else (jobs, None)
  }

  /** `findByIdAndDelete`: that job is gone, the others are unchanged. */
  function Delete(jobs: JobStore, id: JobId): (r: JobStore)
    ensures id !in r
    ensures forall k :: k != id ==> (k in r <==> k in jobs) && (k in r ==> r[k] == jobs[k])
  {
    jobs - {id}
  }
}

=== FILE: otp.dfy ===
/** The one-time-passcode verifier (otp.service.ts over the OtpVerification
    collection). The collection is a sequence in insertion order: `findOne`
    and `deleteOne` act on the first record with the given email. The schema
    indexes `email` without making it unique, so "one record per email" is a
    property of `CreateOtp`'s delete-then-create, proved here, not of the store.
 */
module Otp {
  import opened Wrappers
  import opened Decimal
  import opened Tokens

  const OtpLength: nat := 6
  const OtpExpiryMinutes: int := 5
  const MaxAttempts: nat := 20
  const OtpExpiryMs: int := OtpExpiryMinutes * 60 * 1000

  /** A stored code: only its hash is kept; `attempts` starts at 0. */
  datatype OtpRecord = OtpRecord(email: string, otp: Hash, expiresAt: int, attempts: nat)

  type OtpStore = seq<OtpRecord>

  datatype OtpError = NotFound | TooManyAttempts | Expired | InvalidOtp

  /** Every record of the store for `email`, in store order. */
  function ForEmail(store: OtpStore, email: string): (r: seq<OtpRecord>)
    ensures |r| <= |store|
    ensures forall k :: 0 <= k < |r| ==> r[k].email == email
  {
    if |store| == 0 then []
    else (if store[0].email == email then [store[0]] else []) + ForEmail(store[1..], email)
  }

  /** No email has more than one live record. */
  ghost predicate OnePerEmail(store: OtpStore)
  {
    forall e :: |ForEmail(store, e)| <= 1
  }

  /** `findOne({email})`. */
  function Lookup(store: OtpStore, email: string): Option<OtpRecord>
  {
    var rs := ForEmail(store, email);
    if |rs| == 0 then None else Some(rs[0])
  }

  /** Position of the first record for `email`. */
  function FindIndex(store: OtpStore, email: string): (r: Option<nat>)
    ensures r.Some? ==> r.value < |store| && store[r.value].email == email
    ensures r.Some? ==> ForEmail(store[..r.value], email) == []
    ensures r.None? ==> ForEmail(store, email) == []
  {
    if |store| == 0 then None
    else if store[0].email == email then
      assert store[..0] == [];
      Some(0)
    else
      match FindIndex(store[1..], email)
      case None => None
      case Some(k) =>
        assert store[..k + 1] == [store[0]] + store[1..][..k];
        ForEmailAppend([store[0]], store[1..][..k], email);
        Some(k + 1)
  }

  lemma {:induction false} ForEmailAppend(a: OtpStore, b: OtpStore, email: string)
    ensures ForEmail(a + b, email) == ForEmail(a, email) + ForEmail(b, email)
    decreases |a|
  {
    if |a| > 0 {
      assert (a + b)[0] == a[0];
      assert (a + b)[1..] == a[1..] + b;
      ForEmailAppend(a[1..], b, email);
    } else {
      assert a + b == b;
    }
  }

  /** Splits the store around position `i`. */
  lemma SplitAt(store: OtpStore, i: nat, email: string)
    requires i < |store|
    ensures ForEmail(store, email)
         == ForEmail(store[..i], email) + ForEmail([store[i]], email) + ForEmail(store[i + 1..], email)
  {
    assert store == store[..i] + [store[i]] + store[i + 1..];
    ForEmailAppend(store[..i] + [store[i]], store[i + 1..], email);
    ForEmailAppend(store[..i], [store[i]], email);
  }

  /** `findOne` returns the record at the first position for the email. */
  lemma LookupAtIndex(store: OtpStore, email: string)
    ensures FindIndex(store, email).None? <==> Lookup(store, email).None?
    ensures FindIndex(store, email).Some? ==>
      var i := FindIndex(store, email).value;
      Lookup(store, email) == Some(store[i])
      && ForEmail(store, email) == [store[i]] + ForEmail(store[i + 1..], email)
  {
    match FindIndex(store, email)
    case None =>
    case Some(i) =>
      SplitAt(store, i, email);
  }

  /** `deleteOne({email})`: drops the first record for `email`, if any. */
  function DeleteOne(store: OtpStore, email: string): (r: OtpStore)
    ensures ForEmail(r, email) == if ForEmail(store, email) == [] then [] else ForEmail(store, email)[1..]
    ensures forall e :: e != email ==> ForEmail(r, e) == ForEmail(store, e)
  {
    match FindIndex(store, email)
    case None => store
    case Some(i) =>
      var r := store[..i] + store[i + 1..];
      SplitAt(store, i, email);
      ForEmailAppend(store[..i], store[i + 1..], email);
      forall e | e != email
        ensures ForEmail(r, e) == ForEmail(store, e)
      {
        SplitAt(store, i, e);
        ForEmailAppend(store[..i], store[i + 1..], e);
      }
      r
  }

  /** `generateOtp`: the zero-padded six-digit rendering of a number drawn
      from [0, 10^6); it is six digits long and reads back as that number. */
  function GenerateOtp(n: nat): (code: string)
    requires n < Pow10(OtpLength)
    ensures |code| == OtpLength && AllDigits(code)
    ensures ParseDecimal(code) == n
  {
    var d := ToDecimal(n);
    ToDecimalWidth(n, OtpLength);
    ParseToDecimal(n);
    ParseLeadingZeros(OtpLength - |d|, d);
    PadStart(d, OtpLength)
  }

  /** Every six-digit string is the code of exactly one draw: generation is
      a bijection between [0, 10^6) and the six-digit strings. */
  lemma GenerateOtpOnto(s: string)
    requires |s| == OtpLength && AllDigits(s)
    ensures ParseDecimal(s) < Pow10(OtpLength)
    ensures GenerateOtp(ParseDecimal(s)) == s
  {
    ToDecimalOfParse(s);
    PadStripped(s);
  }

  lemma GenerateOtpInjective(m: nat, n: nat)
    requires m < Pow10(OtpLength) && n < Pow10(OtpLength)
    ensures GenerateOtp(m) == GenerateOtp(n) <==> m == n
  {
  }

  datatype Issued = Issued(store: OtpStore, code: string)

  /** `createOtp`: replaces the email's record by a fresh one holding the
      hash of the new code, expiring 5 minutes from `now`, with no failed
      attempts; the plaintext code goes back to the caller for mailing.
      `draw` stands for `crypto.randomInt(0, 10^6)`. */
  function CreateOtp(store: OtpStore, email: string, draw: nat, now: int): (r: Issued)
    requires draw < Pow10(OtpLength)
    ensures r.code == GenerateOtp(draw)
    ensures OnePerEmail(store) ==> OnePerEmail(r.store)
    ensures OnePerEmail(store) ==>
      ForEmail(r.store, email) == [OtpRecord(email, Bcrypt(r.code), now + OtpExpiryMs, 0)]
    ensures forall e :: e != email ==> ForEmail(r.store, e) == ForEmail(store, e)
  {
    var code := GenerateOtp(draw);
    var rec := OtpRecord(email, Bcrypt(code), now + OtpExpiryMs, 0);
    var cleared := DeleteOne(store, email);
    var r := cleared + [rec];
    forall e
      ensures ForEmail(r, e) == ForEmail(cleared, e) + (if e == email then [rec] else [])
    {
      ForEmailAppend(cleared, [rec], e);
      ForEmailSingle(rec, e);
    }
    assert OnePerEmail(store) ==> ForEmail(cleared, email) == [] by {
      if OnePerEmail(store) {
        assert |ForEmail(store, email)| <= 1;
      }
    }
    Issued(r, code)
  }

  /** A one-record store holds a record for its own email only. */
  lemma ForEmailSingle(rec: OtpRecord, e: string)
    ensures ForEmail([rec], e) == if rec.email == e then [rec] else []
  {
    assert [rec][1..] == [];
  }

  /** Without the preceding delete, a second issue for the same email would
      leave two records: the schema alone does not keep one per email. */
  lemma InsertWithoutDeleteDuplicates(store: OtpStore, rec: OtpRecord)
    requires Lookup(store, rec.email).Some?
    ensures !OnePerEmail(store + [rec])
  {
    ForEmailAppend(store, [rec], rec.email);
    assert |ForEmail(store + [rec], rec.email)| >= 2;
  }

  /** The record for `email` accepts `code` at time `now`. */
  predicate Redeemable(store: OtpStore, email: string, code: string, now: int)
  {
    match Lookup(store, email)
    case None => false
    case Some(rec) => rec.attempts < MaxAttempts && !(rec.expiresAt < now) && Compare(code, rec.otp)
  }

  datatype VerifyStep = VerifyStep(store: OtpStore, outcome: Result<(), OtpError>)

  /** `verifyOtp`: existence, then the attempt cap, then expiry, then the
      hash; a wrong code costs one attempt, every other outcome except
      "not found" removes the record. */
  function VerifyOtp(store: OtpStore, email: string, code: string, now: int): (r: VerifyStep)
    ensures r.outcome.Ok? <==> Redeemable(store, email, code, now)
    ensures r.outcome == Err(NotFound) <==> Lookup(store, email).None?
    ensures Lookup(store, email).None? ==> r.store == store
    ensures Lookup(store, email).Some? ==>
      var rec := Lookup(store, email).value;
      && (rec.attempts >= MaxAttempts ==> r.outcome == Err(TooManyAttempts))
      && (rec.attempts < MaxAttempts && rec.expiresAt < now ==> r.outcome == Err(Expired))
      && (rec.attempts < MaxAttempts && !(rec.expiresAt < now) && !Compare(code, rec.otp) ==>
            r.outcome == Err(InvalidOtp))
    ensures r.outcome == Err(InvalidOtp) ==>
      var rec := Lookup(store, email).value;
      ForEmail(r.store, email) == [rec.(attempts := rec.attempts + 1)] + ForEmail(store, email)[1..]
    ensures r.outcome != Err(InvalidOtp) && r.outcome != Err(NotFound) ==>
      ForEmail(r.store, email) == ForEmail(store, email)[1..]
    ensures forall e :: e != email ==> ForEmail(r.store, e) == ForEmail(store, e)
  {
    LookupAtIndex(store, email);
    match FindIndex(store, email)
    case None => VerifyStep(store, Err(NotFound))
    case Some(i) =>
      var rec := store[i];
      if rec.attempts >= MaxAttempts then VerifyStep(DeleteOne(store, email), Err(TooManyAttempts))
      else if rec.expiresAt < now then VerifyStep(DeleteOne(store, email), Err(Expired))
      else if !Compare(code, rec.otp) then
        var rec' := rec.(attempts := rec.attempts + 1);
        SavePreserves(store, i, rec');
        VerifyStep(store[i := rec'], Err(InvalidOtp))
      else VerifyStep(DeleteOne(store, email), Ok(()))
  }

  /** Under one record per email, a verify keeps one record per email; a
      wrong code leaves the record in place with one more attempt, and every
      other outcome leaves no record for the email. */
  lemma VerifyKeepsOnePerEmail(store: OtpStore, email: string, code: string, now: int)
    requires OnePerEmail(store)
    ensures var r := VerifyOtp(store, email, code, now);
      && OnePerEmail(r.store)
      && (r.outcome == Err(InvalidOtp) ==>
            var rec := Lookup(store, email).value;
            Lookup(r.store, email) == Some(rec.(attempts := rec.attempts + 1)))
      && (r.outcome != Err(InvalidOtp) ==> Lookup(r.store, email).None?)
  {
    var r := VerifyOtp(store, email, code, now);
    assert |ForEmail(store, email)| <= 1;
    forall e
      ensures |ForEmail(r.store, e)| <= 1
    {
      assert |ForEmail(store, e)| <= 1;
    }
  }

  /** `record.save()` after the attempt counter moved: only that record changes. */
  lemma SavePreserves(store: OtpStore, i: nat, rec: OtpRecord)
    requires i < |store| && rec.email == store[i].email
    ensures forall e ::
      ForEmail(store[i := rec], e) == ForEmail(store[..i], e) + ForEmail([rec], e) + ForEmail(store[i + 1..], e)
    ensures forall e :: |ForEmail(store[i := rec], e)| == |ForEmail(store, e)|
    ensures forall e :: e != rec.email ==> ForEmail(store[i := rec], e) == ForEmail(store, e)
  {
    var s := store[i := rec];
    assert s[..i] == store[..i] && s[i + 1..] == store[i + 1..];
    forall e
      ensures ForEmail(s, e) == ForEmail(store[..i], e) + ForEmail([rec], e) + ForEmail(store[i + 1..], e)
      ensures |ForEmail(s, e)| == |ForEmail(store, e)|
      ensures e != rec.email ==> ForEmail(s, e) == ForEmail(store, e)
    {
      SplitAt(s, i, e);
      SplitAt(store, i, e);
    }
  }

  /** Issue followed by verify: the issued code, presented before expiry, is
      accepted, and any other string is refused as a wrong code. */
  lemma IssueThenVerify(store: OtpStore, email: string, draw: nat, now: int, later: int, code: string)
    requires OnePerEmail(store) && draw < Pow10(OtpLength)
    requires now <= later <= now + OtpExpiryMs
    ensures var issued := CreateOtp(store, email, draw, now);
      VerifyOtp(issued.store, email, code, later).outcome
        == if code == issued.code then Ok(()) else Err(InvalidOtp)
  {
    var issued := CreateOtp(store, email, draw, now);
    var rec := OtpRecord(email, Bcrypt(issued.code), now + OtpExpiryMs, 0);
    assert Lookup(issued.store, email) == Some(rec);
    assert rec.attempts < MaxAttempts && !(rec.expiresAt < later);
    assert Compare(code, rec.otp) <==> code == issued.code;
  }

  /** Single use: once a code has been accepted, presenting it again finds
      no record. */
  lemma SingleUse(store: OtpStore, email: string, code: string, now: int, later: int)
    requires OnePerEmail(store)
    requires VerifyOtp(store, email, code, now).outcome.Ok?
    ensures VerifyOtp(VerifyOtp(store, email, code, now).store, email, code, later).outcome == Err(NotFound)
  {
    VerifyKeepsOnePerEmail(store, email, code, now);
  }

  datatype Attempt = Attempt(code: string, now: int)

  /** Whether a verify call gets as far as comparing the hash. */
  predicate Compares(store: OtpStore, email: string, now: int)
  {
    match Lookup(store, email)
    case None => false
    case Some(rec) => rec.attempts < MaxAttempts && !(rec.expiresAt < now)
  }

  /** The store after a run of verify calls for one email, with no re-issue. */
  function Run(store: OtpStore, email: string, attempts: seq<Attempt>): OtpStore
    decreases |attempts|
  {
    if |attempts| == 0 then store
    else Run(VerifyOtp(store, email, attempts[0].code, attempts[0].now).store, email, attempts[1..])
  }

  /** How many calls of such a run compare a hash. */
  function Comparisons(store: OtpStore, email: string, attempts: seq<Attempt>): nat
    decreases |attempts|
  {
    if |attempts| == 0 then 0
    else
      (if Compares(store, email, attempts[0].now) then 1 else 0)
      + Comparisons(VerifyOtp(store, email, attempts[0].code, attempts[0].now).store, email, attempts[1..])
  }

  /** The comparisons the email's record still allows. */
  function Budget(store: OtpStore, email: string): nat
  {
    match Lookup(store, email)
    case None => 0
    case Some(rec) => if rec.attempts >= MaxAttempts then 0 else MaxAttempts - rec.attempts
  }

  /** However the calls are spread over time and codes, a record allows at
      most its remaining budget of hash comparisons. */
  lemma {:induction false} ComparisonsWithinBudget(store: OtpStore, email: string, attempts: seq<Attempt>)
    requires OnePerEmail(store)
    ensures Comparisons(store, email, attempts) <= Budget(store, email)
    decreases |attempts|
  {
    if |attempts| > 0 {
      var step := VerifyOtp(store, email, attempts[0].code, attempts[0].now);
      VerifyKeepsOnePerEmail(store, email, attempts[0].code, attempts[0].now);
      ComparisonsWithinBudget(step.store, email, attempts[1..]);
    }
  }

  /** A freshly issued code can be compared at most 20 times. */
  lemma AtMostTwentyComparisons(store: OtpStore, email: string, draw: nat, now: int, attempts: seq<Attempt>)
    requires OnePerEmail(store) && draw < Pow10(OtpLength)
    ensures Comparisons(CreateOtp(store, email, draw, now).store, email, attempts) <= MaxAttempts
  {
    ComparisonsWithinBudget(CreateOtp(store, email, draw, now).store, email, attempts);
  }

  /** Wrong codes before expiry only count up the record's attempts. */
  lemma {:induction false} WrongAttemptsAccumulate(store: OtpStore, email: string, rec: OtpRecord, attempts: seq<Attempt>)
    requires OnePerEmail(store) && Lookup(store, email) == Some(rec)
    requires rec.attempts + |attempts| <= MaxAttempts
    requires forall k :: 0 <= k < |attempts| ==> !Compare(attempts[k].code, rec.otp) && rec.expiresAt >= attempts[k].now
    ensures OnePerEmail(Run(store, email, attempts))
    ensures Lookup(Run(store, email, attempts), email) == Some(rec.(attempts := rec.attempts + |attempts|))
    decreases |attempts|
  {
    if |attempts| > 0 {
      var step := VerifyOtp(store, email, attempts[0].code, attempts[0].now);
      var rec' := rec.(attempts := rec.attempts + 1);
      WrongAttemptCounts(store, email, rec, attempts[0].code, attempts[0].now);
      var rest := attempts[1..];
      assert forall k :: 0 <= k < |rest| ==> rest[k] == attempts[k + 1];
      assert rec'.otp == rec.otp && rec'.expiresAt == rec.expiresAt;
      WrongAttemptsAccumulate(step.store, email, rec', rest);
      assert Run(store, email, attempts) == Run(step.store, email, rest);
      assert rec'.(attempts := rec'.attempts + |rest|) == rec.(attempts := rec.attempts + |attempts|);
    }
  }

  /** One wrong code before expiry, with attempts to spare, is refused as
      invalid and counts one attempt. */
  lemma WrongAttemptCounts(store: OtpStore, email: string, rec: OtpRecord, code: string, now: int)
    requires OnePerEmail(store) && Lookup(store, email) == Some(rec)
    requires rec.attempts < MaxAttempts && !Compare(code, rec.otp) && rec.expiresAt >= now
    ensures var step := VerifyOtp(store, email, code, now);
      && step.outcome == Err(InvalidOtp)
      && OnePerEmail(step.store)
      && Lookup(step.store, email) == Some(rec.(attempts := rec.attempts + 1))
  {
    VerifyKeepsOnePerEmail(store, email, code, now);
  }

  /** After 20 wrong codes the record is locked: even the right code, on
      time, is refused as too many attempts. */
  lemma LockedAfterTwentyWrong(store: OtpStore, email: string, draw: nat, now: int,
                               attempts: seq<Attempt>, code: string, later: int)
    requires OnePerEmail(store) && draw < Pow10(OtpLength)
    requires |attempts| == MaxAttempts
    requires forall k :: 0 <= k < |attempts| ==>
      attempts[k].code != GenerateOtp(draw) && attempts[k].now <= now + OtpExpiryMs
    ensures var issued := CreateOtp(store, email, draw, now);
      VerifyOtp(Run(issued.store, email, attempts), email, code, later).outcome == Err(TooManyAttempts)
  {
    var issued := CreateOtp(store, email, draw, now);
    var rec := OtpRecord(email, Bcrypt(issued.code), now + OtpExpiryMs, 0);
    WrongAttemptsAccumulate(issued.store, email, rec, attempts);
  }

  /** The TTL index's background deletion: some of the records whose expiry
      has passed at time `at` (those in `chosen`) disappear. */
  function Sweep(store: OtpStore, at: int, chosen: set<OtpRecord>): (r: OtpStore)
    ensures |r| <= |store|
  {
    if |store| == 0 then []
    else
      (if store[0] in chosen && store[0].expiresAt < at then [] else [store[0]])
      + Sweep(store[1..], at, chosen)
  }

  lemma {:induction false} SweepForEmail(store: OtpStore, at: int, chosen: set<OtpRecord>, email: string)
    ensures ForEmail(Sweep(store, at, chosen), email) == Sweep(ForEmail(store, email), at, chosen)
    decreases |store|
  {
    if |store| > 0 {
      var head := if store[0] in chosen && store[0].expiresAt < at then [] else [store[0]];
      ForEmailAppend(head, Sweep(store[1..], at, chosen), email);
      SweepForEmail(store[1..], at, chosen, email);
      var h := if store[0].email == email then [store[0]] else [];
      SweepAppend(h, ForEmail(store[1..], email), at, chosen);
    }
  }

  lemma {:induction false} SweepAppend(a: OtpStore, b: OtpStore, at: int, chosen: set<OtpRecord>)
    ensures Sweep(a + b, at, chosen) == Sweep(a, at, chosen) + Sweep(b, at, chosen)
    decreases |a|
  {
    if |a| > 0 {
      assert (a + b)[1..] == a[1..] + b;
      SweepAppend(a[1..], b, at, chosen);
    } else {
      assert a + b == b;
    }
  }

  /** Whatever the sweep removes, it keeps one record per email and never
      changes whether a code is accepted at that time or later. */
  lemma SweepKeepsVerdict(store: OtpStore, at: int, chosen: set<OtpRecord>, email: string, code: string, now: int)
    requires OnePerEmail(store) && at <= now
    ensures OnePerEmail(Sweep(store, at, chosen))
    ensures Redeemable(Sweep(store, at, chosen), email, code, now) == Redeemable(store, email, code, now)
  {
    forall e
      ensures |ForEmail(Sweep(store, at, chosen), e)| <= |ForEmail(store, e)|
    {
      SweepForEmail(store, at, chosen, e);
    }
    SweepForEmail(store, at, chosen, email);
  }
}

=== FILE: register_schema.dfy ===
/** The client's register form schema (registerSchema.ts, Yup). It is
    stricter than the server's register body in two ways: the name needs two
    UTF-16 units rather than one character, and the role may only be
    candidate or recruiter, while the server also admits admin. It is looser
    in two others: its email pattern accepts addresses without a proper
    top-level domain, and it counts a password's length in UTF-16 units.
 */
module RegisterSchema {
  import opened Wrappers
  import opened Text
  import opened Roles
  import opened AuthDto
  import Validation
  import Email
  import Users

  datatype FormValues = FormValues(name: Option<string>, email: Option<string>, password: Option<string>,
                                   role: Option<string>)

  datatype FormField = FormName | FormEmail | FormPassword | FormRole

  const NameMinLength: nat := 2

  /** The roles the form offers. */
  predicate FormRoleAllowed(s: string)
  {
    s == "candidate" || s == "recruiter"
  }

  /** `required()` refuses a missing or empty string; `min` counts UTF-16
      code units, as JavaScript's `length` does. */
  predicate FormFieldValid(v: FormValues, f: FormField)
  {
    match f
    case FormName => Present(v.name) && Utf16Length(v.name.value) >= NameMinLength
    case FormEmail => Present(v.email) && Email.FormEmail(v.email.value)
    case FormPassword => Present(v.password) && Utf16Length(v.password.value) >= PasswordMinLength
    case FormRole => Present(v.role) && FormRoleAllowed(v.role.value)
  }

  /** The schema's fields, in declaration order. */
  const FormFields: seq<FormField> := [FormName, FormEmail, FormPassword, FormRole]

  lemma AllFormFields()
    ensures forall f: FormField :: f in FormFields
  {
    forall f: FormField ensures f in FormFields {
      assert f.FormName? || f.FormEmail? || f.FormPassword? || f.FormRole?;
    }
  }

  /** The fields the schema reports, in declaration order. */
  function ValidateForm(v: FormValues): (errs: seq<FormField>)
    ensures forall f :: f in errs <==> !FormFieldValid(v, f)
    ensures errs == [] <==> forall f :: FormFieldValid(v, f)
  {
    AllFormFields();
    var errs := Validation.Failing(FormFields, set f | f in FormFields && !FormFieldValid(v, f));
    assert errs != [] ==> errs[0] in errs;
    errs
  }

  /** The register body the form submits, with the code from the OTP step. */
  function BodyOf(v: FormValues, otp: Option<string>): RegisterBody
  {
    RegisterBody(v.name, v.email, v.password, v.role, otp)
  }

  /** Whatever the form accepts, the server accepts too, once a code is
      attached, provided the email passes `isEmail` and the password is
      long enough as `isLength` counts it: the form neither runs
      `isEmail` nor counts the way class-validator does. */
  lemma ClientStricter(v: FormValues, otp: Option<string>)
    requires ValidateForm(v) == [] && Present(otp)
    requires v.email.Some? && Email.IsEmail(v.email.value)
    requires v.password.Some? && IsLengthCount(v.password.value) >= PasswordMinLength
    ensures ValidateRegister(BodyOf(v, otp)).Ok?
    ensures ValidateRegister(BodyOf(v, otp)).value.role != Admin
  {
    var b := BodyOf(v, otp);
    assert FormFieldValid(v, FormRole) && FormFieldValid(v, FormName);
  }

  /** Without those two provisions the inclusion fails: the form accepts
      "a@b.c", which `isEmail` refuses for its one-letter top-level domain,
      and the password "😀😀😀", six UTF-16 units but three characters. */
  lemma FormAcceptsServerRefuses(v: FormValues, otp: Option<string>)
    requires ValidateForm(v) == [] && Present(otp)
    ensures ValidateForm(v.(email := Some("a@b.c"))) == []
    ensures ValidateRegister(BodyOf(v.(email := Some("a@b.c")), otp)).Err?
    ensures ValidateForm(v.(password := Some("\U{1F600}\U{1F600}\U{1F600}"))) == []
    ensures ValidateRegister(BodyOf(v.(password := Some("\U{1F600}\U{1F600}\U{1F600}")), otp)).Err?
  {
    Email.ShortTldSplitsTheTests();
    var v1 := v.(email := Some("a@b.c"));
    forall f ensures FormFieldValid(v1, f) { assert FormFieldValid(v, f); }
    assert !RegisterFieldValid(BodyOf(v1, otp), EmailField);
    var pw := "\U{1F600}\U{1F600}\U{1F600}";
    assert Utf16Length(pw) == 6 && IsLengthCount(pw) == 3;
    var v2 := v.(password := Some(pw));
    forall f ensures FormFieldValid(v2, f) { assert FormFieldValid(v, f); }
    assert !RegisterFieldValid(BodyOf(v2, otp), PasswordField);
  }

  /** The converse fails too: the server's register body check accepts an
      admin sign-up that the form refuses, and a one-character name. The
      one-character name is then refused when the account is created, after
      the code has been consumed. */
  lemma ServerLooser(v: FormValues, otp: Option<string>)
    requires ValidateForm(v) == [] && Present(otp)
    requires v.email.Some? && Email.IsEmail(v.email.value)
    requires v.password.Some? && IsLengthCount(v.password.value) >= PasswordMinLength
    ensures FormRole in ValidateForm(v.(role := Some("admin")))
    ensures ValidateRegister(BodyOf(v.(role := Some("admin")), otp)).Ok?
    ensures FormName in ValidateForm(v.(name := Some("J")))
    ensures ValidateRegister(BodyOf(v.(name := Some("J")), otp)).Ok?
    ensures forall data: Users.NewUser | data.name == "J" :: Users.Build(data).Err?
  {
    ClientStricter(v, otp);
    var b := BodyOf(v.(role := Some("admin")), otp);
    forall f ensures RegisterFieldValid(b, f) {
      assert RegisterFieldValid(BodyOf(v, otp), f);
    }
    var b' := BodyOf(v.(name := Some("J")), otp);
    forall f ensures RegisterFieldValid(b', f) {
      assert RegisterFieldValid(BodyOf(v, otp), f);
    }
  }
}

=== FILE: roles.dfy ===
/** The closed set of user roles. The values' spellings are the lower-case
    strings the client sends and the `IsEnum(UserRole)` / schema enum checks
    accept.
 */
module Roles {
  import opened Wrappers
  import Text

  datatype Role = Candidate | Recruiter | Admin

  function RoleName(r: Role): string
  {
    match r
    case Candidate => "candidate"
    case Recruiter => "recruiter"
    case Admin => "admin"
  }

  /** The roles that post jobs and handle applications: recruiter or admin. */
  predicate Staff(r: Role)
  {
    r == Recruiter || r == Admin
  }

  /** Membership test of `IsEnum(UserRole)` and of the schema's role enum:
      a string names a role exactly when it is one of the three spellings. */
  function ParseRole(s: string): (r: Option<Role>)
    ensures r.Some? ==> RoleName(r.value) == s
    ensures r.None? ==> forall q: Role :: RoleName(q) != s
  {
    if s == "candidate" then Some(Candidate)
    else if s == "recruiter" then Some(Recruiter)
    else if s == "admin" then Some(Admin)
    else None
  }

  lemma ParseRoleName(r: Role)
    ensures ParseRole(RoleName(r)) == Some(r)
  {
  }

  /** `role.toLowerCase()` in the register and login responses changes
      nothing: every role is already spelled in lower case. */
  lemma RoleNameIsLower(r: Role)
    ensures Text.Lower(RoleName(r)) == RoleName(r)
  {
    Text.LowerOfLower(RoleName(r));
  }
}

=== FILE: routes.dfy ===
/** The job and application routers (job.routes.ts, application.routes.ts):
    which handler a request reaches, and what runs on the way.

    Express tries routes in registration order and takes the first whose
    method and path match. Matching ignores case: a literal segment matches
    the same word in any mix of upper and lower case (the literals are
    ASCII, and a case-insensitive JavaScript pattern equates a non-ASCII
    character with none of them). A `:param` segment matches any non-empty
    segment. Each route is a chain of steps. Authentication refusing stops
    the chain; the role gate, as written, answers 403 and still continues;
    an upload failure stops the chain; the handler ends it.
 */
module Routes {
  import opened Wrappers
  import Text
  import opened Roles
  import opened Tokens
  import opened Gates
  import opened Upload
  import Jobs
  import JobService

  datatype Method = Get | Post | Put | Delete

  datatype Seg = Lit(word: string) | Param

  datatype Handler = GetAllOpenJobs | CreateJob | GetMyJobs | GetJobById | UpdateJob | DeleteJob
                   | ApplyToJob | GetMyApplications | GetApplicationsForJob | UpdateApplicationStatus

  datatype Step = AuthenticateStep | AuthorizeStep(allowed: seq<Role>) | UploadStep | HandlerStep(handler: Handler)

  datatype Route = Route(verb: Method, pattern: seq<Seg>, steps: seq<Step>)

  /** job.routes.ts, in registration order. */
  const JobRoutes: seq<Route> := [
    Route(Get, [], [HandlerStep(GetAllOpenJobs)]),
    Route(Post, [], [AuthenticateStep, AuthorizeStep([Recruiter]), HandlerStep(CreateJob)]),
    Route(Get, [Lit("my")], [AuthenticateStep, AuthorizeStep([Recruiter]), HandlerStep(GetMyJobs)]),
    Route(Get, [Param], [HandlerStep(GetJobById)]),
    Route(Put, [Param], [AuthenticateStep, AuthorizeStep([Recruiter]), HandlerStep(UpdateJob)]),
    Route(Delete, [Param], [AuthenticateStep, AuthorizeStep([Recruiter]), HandlerStep(DeleteJob)])
  ]

  /** application.routes.ts, in registration order. */
  const ApplicationRoutes: seq<Route> := [
    Route(Post, [], [AuthenticateStep, AuthorizeStep([Candidate]), UploadStep, HandlerStep(ApplyToJob)]),
    Route(Get, [Lit("my")], [AuthenticateStep, AuthorizeStep([Candidate]), HandlerStep(GetMyApplications)]),
    Route(Get, [Lit("job"), Param], [AuthenticateStep, AuthorizeStep([Recruiter]), HandlerStep(GetApplicationsForJob)]),
    Route(Put, [Param, Lit("status")], [AuthenticateStep, AuthorizeStep([Recruiter]), HandlerStep(UpdateApplicationStatus)])
  ]

  predicate SegMatches(seg: Seg, word: string)
  {
    match seg
    case Lit(w) => Text.Lower(w) == Text.Lower(word)
    case Param => word != []
  }

  predicate Matches(r: Route, verb: Method, path: seq<string>)
  {
    r.verb == verb && |r.pattern| == |path| && forall i :: 0 <= i < |path| ==> SegMatches(r.pattern[i], path[i])
  }

  /** The first route, from position `from` on, that matches the request. */
  function Resolve(routes: seq<Route>, verb: Method, path: seq<string>, from: nat): (r: Option<nat>)
    requires from <= |routes|
    ensures r.Some? ==> from <= r.value < |routes| && Matches(routes[r.value], verb, path)
    ensures r.Some? ==> forall k :: from <= k < r.value ==> !Matches(routes[k], verb, path)
    ensures r.None? ==> forall k :: from <= k < |routes| ==> !Matches(routes[k], verb, path)
    decreases |routes| - from
  {
    if from == |routes| then None
    else if Matches(routes[from], verb, path) then Some(from)
    else Resolve(routes, verb, path, from + 1)
  }

  /** `GET /my`, in any case ("MY", "My"), reaches the poster's list,
      never the lookup by id; any other single segment is taken as a job id. */
  lemma MyBeforeId(word: string)
    requires word != []
    ensures Resolve(JobRoutes, Get, [word], 0) == if Text.Lower(word) == "my" then Some(2) else Some(3)
    ensures JobRoutes[2].steps[|JobRoutes[2].steps| - 1] == HandlerStep(GetMyJobs)
    ensures JobRoutes[3].steps == [HandlerStep(GetJobById)]
  {
    assert !Matches(JobRoutes[0], Get, [word]);
    assert !Matches(JobRoutes[1], Get, [word]);
    assert Text.Lower("my") == "my";
    assert SegMatches(JobRoutes[2].pattern[0], [word][0]) <==> Text.Lower(word) == "my";
  }

  /** Listing open jobs and reading one job need no authentication; every
      other job route authenticates first and then admits recruiters only. */
  lemma JobRouteGuards()
    ensures forall k :: k in {0, 3} ==> AuthenticateStep !in JobRoutes[k].steps
    ensures forall k :: k in {1, 2, 4, 5} ==>
      JobRoutes[k].steps[..2] == [AuthenticateStep, AuthorizeStep([Recruiter])]
  {
  }

  /** No route of either router lists admin. */
  lemma NoRouteListsAdmin()
    ensures forall r, s :: r in JobRoutes + ApplicationRoutes && s in r.steps && s.AuthorizeStep? ==> Admin !in s.allowed
  {
  }

  datatype GateMode = AsWritten | Corrected

  /** What happened during a request: a response, the stored uploads, a
      failed upload, or the handler being invoked for a caller. */
  datatype Event = Responded(status: int) | Stored(files: map<string, seq<string>>) | UploadFailed | Ran(handler: Handler, user: Option<Caller>)

  datatype Request = Request(header: Option<string>, files: seq<Incoming>)

  /** Runs a chain of steps for a request. The caller is absent until
      authentication attaches one. */
  function Run(steps: seq<Step>, req: Request, keys: Keyring, nowMs: int, user: Option<Caller>, mode: GateMode)
    : (trace: seq<Event>)
    ensures steps == [] ==> trace == []
    ensures steps != [] && steps[0].AuthorizeStep? && Denied(user, steps[0].allowed) ==>
      trace != [] && trace[0] == Responded(StatusForbidden) && (mode == Corrected ==> trace == [Responded(StatusForbidden)])
    decreases |steps|
  {
    if steps == [] then []
    else match steps[0]
      case AuthenticateStep =>
        (match Authenticate(req.header, keys, nowMs)
         case Refused(status, _) => [Responded(status)]
         case Authenticated(c) => Run(steps[1..], req, keys, nowMs, Some(c), mode))
      case AuthorizeStep(allowed) =>
        var e := if mode == AsWritten then AuthorizeAsWritten(user, allowed) else Authorize(user, allowed);
        (if e.response.Some? then [Responded(e.response.value)] else [])
        + (if e.continues then Run(steps[1..], req, keys, nowMs, user, mode) else [])
      case UploadStep =>
        if user.None? then [UploadFailed]
        else
          (match UploadFields(req.files, user.value.id)
           case Err(_) => [UploadFailed]
           case Ok(stored) => [Stored(stored)] + Run(steps[1..], req, keys, nowMs, user, mode))
      case HandlerStep(h) => [Ran(h, user)]
  }

  /** A header carrying a signed, unexpired access token for `role`. */
  predicate SignedFor(req: Request, keys: Keyring, nowMs: int, caller: Caller)
  {
    Authenticate(req.header, keys, nowMs) == Authenticated(caller)
  }

  /** As written, a recruiter who posts an application is refused with 403,
      yet the files are uploaded and the apply handler still runs. */
  lemma AsWrittenUploadAfterForbidden(req: Request, keys: Keyring, nowMs: int, caller: Caller)
    requires SignedFor(req, keys, nowMs, caller) && caller.role != Candidate
    requires UploadFields(req.files, caller.id).Ok?
    ensures Resolve(ApplicationRoutes, Post, [], 0) == Some(0)
    ensures Run(ApplicationRoutes[0].steps, req, keys, nowMs, None, AsWritten)
         == [Responded(StatusForbidden), Stored(UploadFields(req.files, caller.id).value), Ran(ApplyToJob, Some(caller))]
  {
    var steps := ApplicationRoutes[0].steps;
    var stored := UploadFields(req.files, caller.id).value;
    assert steps[1..][1..] == steps[2..] && steps[2..][1..] == steps[3..];
    assert Run(steps[3..], req, keys, nowMs, Some(caller), AsWritten) == [Ran(ApplyToJob, Some(caller))];
    assert Run(steps[2..], req, keys, nowMs, Some(caller), AsWritten)
        == [Stored(stored), Ran(ApplyToJob, Some(caller))];
    assert Run(steps[1..], req, keys, nowMs, Some(caller), AsWritten)
        == [Responded(StatusForbidden), Stored(stored), Ran(ApplyToJob, Some(caller))];
  }

  /** With the corrected gate the apply route uploads only for candidates:
      anyone else gets 403 and nothing is stored. */
  lemma CorrectedUploadOnlyForCandidates(req: Request, keys: Keyring, nowMs: int, caller: Caller)
    requires SignedFor(req, keys, nowMs, caller)
    ensures caller.role != Candidate ==>
      Run(ApplicationRoutes[0].steps, req, keys, nowMs, None, Corrected) == [Responded(StatusForbidden)]
    ensures caller.role == Candidate && UploadFields(req.files, caller.id).Ok? ==>
      Run(ApplicationRoutes[0].steps, req, keys, nowMs, None, Corrected)
        == [Stored(UploadFields(req.files, caller.id).value), Ran(ApplyToJob, Some(caller))]
  {
  }

  /** As written, an admin's `PUT /:id` is answered 403 and the update still
      runs; the service lets an admin change any job, so the job changes
      although the client was told it was forbidden. With the corrected gate
      only the 403 happens. */
  lemma AsWrittenAdminUpdate(req: Request, keys: Keyring, nowMs: int, caller: Caller,
                             jobs: Jobs.JobStore, jobId: string, patch: Jobs.JobPatch)
    requires SignedFor(req, keys, nowMs, caller) && caller.role == Admin
    requires jobId != [] && jobId in jobs
    ensures Resolve(JobRoutes, Put, [jobId], 0) == Some(4)
    ensures Run(JobRoutes[4].steps, req, keys, nowMs, None, AsWritten)
         == [Responded(StatusForbidden), Ran(UpdateJob, Some(caller))]
    ensures JobService.UpdateJob(jobs, caller.id, caller.role, jobId, patch).result
         == Ok(Jobs.Merge(jobs[jobId], patch))
    ensures Run(JobRoutes[4].steps, req, keys, nowMs, None, Corrected) == [Responded(StatusForbidden)]
  {
    assert !Matches(JobRoutes[3], Put, [jobId]);
  }

  /** With the corrected gate no handler behind a role gate ever runs for an
      admin, so the services' admin allowances are unreachable by route. */
  lemma AdminNeverPastGate(k: nat, req: Request, keys: Keyring, nowMs: int, caller: Caller)
    requires k < |JobRoutes| && k !in {0, 3}
    requires SignedFor(req, keys, nowMs, caller) && caller.role == Admin
    ensures Run(JobRoutes[k].steps, req, keys, nowMs, None, Corrected) == [Responded(StatusForbidden)]
  {
  }
}

=== FILE: text.dfy ===
/** The JavaScript string primitives the validators and schemas rely on:
    `trim`, `toLowerCase`, `startsWith`, `split`, `lastIndexOf`, the three
    ways the libraries count a string's length, and the shape test behind
    `IsMongoId`.
 */
module Text {
  import opened Wrappers

  /** A string value that is neither missing, null nor "": what
      class-validator's `IsNotEmpty` accepts of a string, and what JavaScript
      treats as true. */
  predicate Present(v: Option<string>)
  {
    v.Some? && v.value != []
  }

  /** The whitespace `String.prototype.trim` removes, which is also what a
      regular expression's `\s` matches: the ECMAScript WhiteSpace characters
      (tab, vertical tab, form feed, space, no-break space, the byte-order
      mark and the other space separators of Unicode category Zs) and the
      LineTerminator characters (line feed, carriage return, and the line
      and paragraph separators). */
  predicate IsSpace(c: char)
  {
    || c == '\t' || c == '\U{000B}' || c == '\U{000C}' || c == ' ' || c == '\U{00A0}' || c == '\U{FEFF}'
    || c == '\U{1680}' || '\U{2000}' <= c <= '\U{200A}' || c == '\U{202F}' || c == '\U{205F}'
    || c == '\U{3000}'
    || c == '\n' || c == '\r' || c == '\U{2028}' || c == '\U{2029}'
  }

  /** How many leading characters `trim` cuts away. */
  function TrimOffset(s: string): (n: nat)
    ensures n <= |s|
    ensures forall i :: 0 <= i < n ==> IsSpace(s[i])
    ensures n < |s| ==> !IsSpace(s[n])
  {
    if |s| > 0 && IsSpace(s[0]) then 1 + TrimOffset(s[1..]) else 0
  }

  /** How many trailing characters are whitespace. */
  function TrailingSpace(s: string): (n: nat)
    ensures n <= |s|
    ensures forall i :: |s| - n <= i < |s| ==> IsSpace(s[i])
    ensures n < |s| ==> !IsSpace(s[|s| - 1 - n])
  {
    if |s| > 0 && IsSpace(s[|s| - 1]) then 1 + TrailingSpace(s[..|s| - 1]) else 0
  }

  /** Where the slice `trim` keeps ends: after the last character that is
      not whitespace, or at the end of the leading whitespace when there is
      no such character. */
  function TrimEndIndex(s: string): (hi: nat)
    ensures TrimOffset(s) <= hi <= |s|
    ensures forall i :: hi <= i < |s| ==> IsSpace(s[i])
    ensures hi > TrimOffset(s) ==> !IsSpace(s[hi - 1])
  {
    if TrimOffset(s) == |s| then |s|
    else
      assert !IsSpace(s[TrimOffset(s)]);
      |s| - TrailingSpace(s)
  }

  /** `s.trim()`: the slice of `s` between the leading and the trailing
      whitespace; it neither starts nor ends with whitespace. */
  function Trim(s: string): (r: string)
    ensures |r| > 0 ==> !IsSpace(r[0]) && !IsSpace(r[|r| - 1])
  {
    s[TrimOffset(s)..TrimEndIndex(s)]
  }

  /** Whitespace after the last other character is unaffected by what
      precedes it. */
  lemma {:induction false} TrailingSpaceCons(c: char, s: string)
    requires TrailingSpace(s) < |s|
    ensures TrailingSpace([c] + s) == TrailingSpace(s)
  {
    var cs := [c] + s;
    assert cs[|cs| - 1] == s[|s| - 1];
    if IsSpace(s[|s| - 1]) {
      var p := s[..|s| - 1];
      assert cs[..|cs| - 1] == [c] + p;
      TrailingSpaceCons(c, p);
    }
  }

  /** `trim` cuts only whitespace: everything before and after the slice it
      keeps is whitespace. */
  lemma TrimCutsOnlySpace(s: string)
    ensures |Trim(s)| <= |s|
    ensures forall i :: 0 <= i < TrimOffset(s) ==> IsSpace(s[i])
    ensures forall i :: TrimOffset(s) + |Trim(s)| <= i < |s| ==> IsSpace(s[i])
  {
  }

  /** Neither end is whitespace: what `trim` leaves behind. */
  predicate IsTrimmed(s: string)
  {
    |s| == 0 || (!IsSpace(s[0]) && !IsSpace(s[|s| - 1]))
  }

  /** A trimmed string is exactly one that `trim` leaves unchanged. */
  lemma TrimmedIsFixed(s: string)
    ensures IsTrimmed(s) <==> Trim(s) == s
  {
    if IsTrimmed(s) && |s| > 0 {
      assert TrimOffset(s) == 0 && TrailingSpace(s) == 0;
      assert s[0..|s|] == s;
    }
  }

  /** A leading whitespace character makes no difference to `trim`. */
  lemma TrimDropsLeadingSpace(c: char, s: string)
    requires IsSpace(c)
    ensures Trim([c] + s) == Trim(s)
  {
    var lo, hi := TrimOffset(s), TrimEndIndex(s);
    TrimOffsetCons(c, s);
    TrimEndIndexCons(c, s);
    SliceOfCons(c, s, lo, hi);
    assert Trim([c] + s) == ([c] + s)[lo + 1..hi + 1];
  }

  lemma TrimEndIndexCons(c: char, s: string)
    requires IsSpace(c)
    ensures TrimEndIndex([c] + s) == 1 + TrimEndIndex(s)
  {
    TrimOffsetCons(c, s);
    if TrimOffset(s) < |s| {
      TrailingSpaceCons(c, s);
    }
  }

  lemma TrimOffsetCons(c: char, s: string)
    requires IsSpace(c)
    ensures TrimOffset([c] + s) == 1 + TrimOffset(s)
  {
    assert ([c] + s)[1..] == s;
  }

  lemma SliceOfCons(c: char, s: string, i: nat, j: nat)
    requires i <= j <= |s|
    ensures ([c] + s)[i + 1..j + 1] == s[i..j]
  {
  }

  /** `trim` shortens a string exactly when an end of it is whitespace. */
  lemma TrimShortens(s: string)
    ensures |Trim(s)| < |s| <==> !IsTrimmed(s)
  {
    TrimmedIsFixed(s);
  }

  lemma TrimIdempotent(s: string)
    ensures IsTrimmed(Trim(s))
    ensures Trim(Trim(s)) == Trim(s)
  {
    TrimmedIsFixed(Trim(s));
  }

  /** `toLowerCase` on one character (ASCII letters only). */
  function LowerChar(c: char): char
  {
    if 'A' <= c <= 'Z' then (c as int + 32) as char else c
  }

  function Lower(s: string): (r: string)
    ensures |r| == |s|
    ensures forall i :: 0 <= i < |s| ==> r[i] == LowerChar(s[i])
  {
    seq(|s|, i requires 0 <= i < |s| => LowerChar(s[i]))
  }

  predicate IsLower(s: string)
  {
    forall i :: 0 <= i < |s| ==> !('A' <= s[i] <= 'Z')
  }

  lemma LowerIsLower(s: string)
    ensures IsLower(Lower(s))
    ensures Lower(Lower(s)) == Lower(s)
  {
  }

  /** `trim` only cuts, so it keeps a lower-case string lower-case. */
  lemma TrimKeepsLower(s: string)
    requires IsLower(s)
    ensures IsLower(Trim(s))
  {
    var t := Trim(s);
    forall i | 0 <= i < |t|
      ensures !('A' <= t[i] <= 'Z')
    {
      assert t[i] == s[TrimOffset(s) + i];
    }
  }

  lemma LowerOfLower(s: string)
    requires IsLower(s)
    ensures Lower(s) == s
  {
  }

  predicate StartsWith(s: string, prefix: string)
  {
    |prefix| <= |s| && s[..|prefix|] == prefix
  }

  predicate IsHexDigit(c: char)
  {
    '0' <= c <= '9' || 'a' <= c <= 'f' || 'A' <= c <= 'F'
  }

  predicate AllHex(s: string)
  {
    forall i :: 0 <= i < |s| ==> IsHexDigit(s[i])
  }

  /** What validator.js's `isMongoId` accepts: 24 characters that
      `isHexadecimal` accepts, that is hexadecimal digits after an optional
      `0x` or `0h` prefix in either case. */
  predicate IsMongoIdShaped(s: string)
  {
    && |s| == 24
    && (AllHex(s) || (s[0] == '0' && s[1] in "xXhH" && AllHex(s[2..])))
  }

  predicate IsAsciiLetter(c: char)
  {
    'a' <= c <= 'z' || 'A' <= c <= 'Z'
  }

  predicate IsAsciiDigit(c: char)
  {
    '0' <= c <= '9'
  }

  predicate IsAsciiAlnum(c: char)
  {
    IsAsciiLetter(c) || IsAsciiDigit(c)
  }

  predicate IsAscii(s: string)
  {
    forall i :: 0 <= i < |s| ==> s[i] as int < 0x80
  }

  /** The code units one character takes in UTF-16: two for a character
      outside the Basic Multilingual Plane, one otherwise. */
  function Utf16Units(c: char): (n: nat)
    ensures n == 1 || n == 2
  {
    if c as int >= 0x1_0000 then 2 else 1
  }

  /** JavaScript's `length`: the number of UTF-16 code units. Mongoose's
      `minlength` and `maxlength` and Yup's `min` compare this count. */
  function Utf16Length(s: string): (n: nat)
    ensures |s| <= n <= 2 * |s|
  {
    if s == [] then 0 else Utf16Units(s[0]) + Utf16Length(s[1..])
  }

  /** The bytes one character takes in UTF-8. */
  function Utf8Units(c: char): (n: nat)
    ensures 1 <= n <= 4
  {
    if c as int < 0x80 then 1 else if c as int < 0x800 then 2 else if c as int < 0x1_0000 then 3 else 4
  }

  /** The UTF-8 byte count that validator.js's `isByteLength` measures. */
  function Utf8Length(s: string): (n: nat)
    ensures |s| <= n <= 4 * |s|
  {
    if s == [] then 0 else Utf8Units(s[0]) + Utf8Length(s[1..])
  }

  /** The variation selectors U+FE0E and U+FE0F, which validator.js's
      `isLength` does not count. */
  predicate IsPresentationSelector(c: char)
  {
    c == '\U{FE0E}' || c == '\U{FE0F}'
  }

  /** The length validator.js's `isLength` measures, and so class-validator's
      `MinLength`: one per character, surrogate pairs counted once, variation
      selectors U+FE0E and U+FE0F not at all. */
  function IsLengthCount(s: string): (n: nat)
    ensures n <= |s|
  {
    if s == [] then 0 else (if IsPresentationSelector(s[0]) then 0 else 1) + IsLengthCount(s[1..])
  }

  /** Inside the Basic Multilingual Plane and no variation selector: a
      string on which the three ways of counting agree. */
  predicate PlainText(s: string)
  {
    forall i :: 0 <= i < |s| ==> s[i] as int < 0x1_0000 && !IsPresentationSelector(s[i])
  }

  /** On plain text, JavaScript's `length` and `isLength` both count characters. */
  lemma {:induction false} PlainTextLengths(s: string)
    requires PlainText(s)
    ensures Utf16Length(s) == |s| && IsLengthCount(s) == |s|
  {
    if s != [] {
      assert PlainText(s[1..]) by {
        forall i | 0 <= i < |s[1..]|
          ensures s[1..][i] as int < 0x1_0000 && !IsPresentationSelector(s[1..][i])
        {
          assert s[1..][i] == s[i + 1];
        }
      }
      PlainTextLengths(s[1..]);
    }
  }

  lemma {:induction false} Utf16LengthAppend(a: string, b: string)
    ensures Utf16Length(a + b) == Utf16Length(a) + Utf16Length(b)
  {
    if a != [] {
      assert (a + b)[0] == a[0];
      assert (a + b)[1..] == a[1..] + b;
      Utf16LengthAppend(a[1..], b);
    } else {
      assert a + b == b;
    }
  }

  lemma {:induction false} IsLengthCountAppend(a: string, b: string)
    ensures IsLengthCount(a + b) == IsLengthCount(a) + IsLengthCount(b)
  {
    if a != [] {
      assert (a + b)[0] == a[0];
      assert (a + b)[1..] == a[1..] + b;
      IsLengthCountAppend(a[1..], b);
    } else {
      assert a + b == b;
    }
  }

  /** Inside the Basic Multilingual Plane, JavaScript's `length` counts characters. */
  lemma {:induction false} BmpUtf16Length(s: string)
    requires forall i :: 0 <= i < |s| ==> s[i] as int < 0x1_0000
    ensures Utf16Length(s) == |s|
  {
    if s != [] {
      assert forall i :: 0 <= i < |s[1..]| ==> s[1..][i] == s[i + 1];
      BmpUtf16Length(s[1..]);
    }
  }

  /** ASCII text takes one UTF-8 byte per character. */
  lemma {:induction false} AsciiUtf8Length(s: string)
    requires IsAscii(s)
    ensures Utf8Length(s) == |s|
  {
    if s != [] {
      assert forall i :: 0 <= i < |s[1..]| ==> s[1..][i] == s[i + 1];
      AsciiUtf8Length(s[1..]);
    }
  }

  /** A slice of plain text is plain text. */
  lemma PlainTextSlice(s: string, i: nat, j: nat)
    requires PlainText(s) && i <= j <= |s|
    ensures PlainText(s[i..j])
  {
    forall k | 0 <= k < j - i
      ensures s[i..j][k] as int < 0x1_0000 && !IsPresentationSelector(s[i..j][k])
    {
      assert s[i..j][k] == s[i + k];
    }
  }

  /** `s.split(sep)`: the pieces between the separators, in order, empty
      pieces included; there is always at least one. */
  function Split(s: string, sep: char): (parts: seq<string>)
    ensures |parts| >= 1
    ensures forall p <- parts :: sep !in p
    decreases |s|
  {
    if s == [] then [[]]
    else if s[0] == sep then [[]] + Split(s[1..], sep)
    else
      var rest := Split(s[1..], sep);
      [[s[0]] + rest[0]] + rest[1..]
  }

  /** A string without the separator splits into itself alone. */
  lemma {:induction false} SplitWithoutSep(s: string, sep: char)
    requires sep !in s
    ensures Split(s, sep) == [s]
    decreases |s|
  {
    if s != [] {
      assert sep !in s[1..] by { assert forall i | 0 <= i < |s[1..]| :: s[1..][i] == s[i + 1]; }
      SplitWithoutSep(s[1..], sep);
      assert [s[0]] + s[1..] == s;
    }
  }

  /** Splitting at the first separator: the piece before it, then the
      pieces of the rest. */
  lemma {:induction false} SplitAtFirst(a: string, sep: char, b: string)
    requires sep !in a
    ensures Split(a + [sep] + b, sep) == [a] + Split(b, sep)
    decreases |a|
  {
    if a == [] {
      assert a + [sep] + b == [sep] + b;
      assert ([sep] + b)[1..] == b;
    } else {
      var s := a + [sep] + b;
      assert s[0] == a[0] && s[1..] == a[1..] + [sep] + b;
      assert sep !in a[1..] by { assert forall i | 0 <= i < |a[1..]| :: a[1..][i] == a[i + 1]; }
      SplitAtFirst(a[1..], sep, b);
      assert [a[0]] + a[1..] == a;
    }
  }

  /** Every character of every piece of `s.split(sep)` is a character of `s`. */
  lemma {:induction false} SplitPiecesKeep(s: string, sep: char, P: char -> bool)
    requires forall i | 0 <= i < |s| :: P(s[i])
    ensures forall p <- Split(s, sep), j | 0 <= j < |p| :: P(p[j])
    decreases |s|
  {
    if s != [] {
      SplitPiecesKeep(s[1..], sep, P);
    }
  }

  /** Every character of `s` is the separator or a character of some piece. */
  lemma {:induction false} SplitCovers(s: string, sep: char, P: char -> bool)
    requires forall p <- Split(s, sep), j | 0 <= j < |p| :: P(p[j])
    ensures forall i | 0 <= i < |s| :: s[i] == sep || P(s[i])
    decreases |s|
  {
    if s != [] {
      var rest := Split(s[1..], sep);
      if s[0] != sep {
        assert Split(s, sep)[0] == [s[0]] + rest[0];
        assert P(s[0]) by { assert Split(s, sep)[0][0] == s[0]; }
        forall j | 0 <= j < |rest[0]|
          ensures P(rest[0][j])
        {
          assert Split(s, sep)[0][j + 1] == rest[0][j];
        }
        assert forall p <- rest[1..], j | 0 <= j < |p| :: P(p[j]) by {
          forall p <- rest[1..] ensures p in Split(s, sep) { }
        }
      }
      SplitCovers(s[1..], sep, P);
      forall i | 0 <= i < |s|
        ensures s[i] == sep || P(s[i])
      {
        if i > 0 { assert s[i] == s[1..][i - 1]; }
      }
    }
  }

  /** The last occurrence of `c` is the one after which it does not occur. */
  lemma {:induction false} LastIndexOfAt(a: string, c: char, b: string)
    requires c !in b
    ensures LastIndexOf(a + [c] + b, c) == |a|
    decreases |b|
  {
    var s := a + [c] + b;
    if b != [] {
      assert s[..|s| - 1] == a + [c] + b[..|b| - 1];
      assert s[|s| - 1] == b[|b| - 1];
      LastIndexOfAt(a, c, b[..|b| - 1]);
    }
  }

  /** `s.lastIndexOf(c)`, with -1 for a character that does not occur. */
  function LastIndexOf(s: string, c: char): (k: int)
    ensures -1 <= k < |s|
    ensures k >= 0 ==> s[k] == c
    ensures forall j :: k < j < |s| ==> s[j] != c
  {
    if s == [] then -1
    else if s[|s| - 1] == c then |s| - 1
    else LastIndexOf(s[..|s| - 1], c)
  }
}

=== FILE: tokens.dfy ===
/** The foreign primitives the services call, reduced to what the model needs.
    - bcrypt is an injective hash: `compare(p, h)` holds exactly when
      `h` is the hash of `p` (the salt is not modelled).
    - jsonwebtoken signs a payload together with its issue time in whole
      seconds (`iat`) and an expiry; a signed token is modelled as that
      payload, so two tokens are equal exactly when their payloads are.
    Times are milliseconds since the epoch, as `Date.now()` returns them.
 */
module Tokens {
  import opened Wrappers
  import opened Roles

  type UserId = string

  datatype Hash = Bcrypt(secret: string)

  predicate Compare(plain: string, h: Hash)
  {
    h == Bcrypt(plain)
  }

  /** jwt.ts: access tokens expire after 15 minutes, refresh tokens after 7 days. */
  const AccessTtlSeconds: int := 15 * 60
  const RefreshTtlSeconds: int := 7 * 24 * 60 * 60
  /** The refresh-token record's own expiry, `Date.now() + 7 days` in milliseconds. */
  const RefreshTtlMs: int := 7 * 24 * 60 * 60 * 1000

  /** `Math.floor(Date.now() / 1000)`; Dafny's division by a positive
      constant already rounds down. */
  function IssuedAt(nowMs: int): int
  {
    nowMs / 1000
  }

  lemma IssuedAtSameSecond(a: int, b: int)
    requires a <= b < (a / 1000 + 1) * 1000
    ensures IssuedAt(a) == IssuedAt(b)
  {
  }

  datatype AccessJwt = AccessJwt(userId: UserId, role: Role, iat: int)

  /** A refresh token. `jwtid` is the optional `jti` claim; the sign call in
      jwt.ts passes none. */
  datatype RefreshJwt = RefreshJwt(userId: UserId, iat: int, jwtid: Option<nat>)

  /** What a client presents as a refresh token: either something this
      server signed, or any other string (which fails verification). */
  datatype PresentedToken = Signed(jwt: RefreshJwt) | Unsigned(raw: string)

  function SignAccess(userId: UserId, role: Role, nowMs: int): (t: AccessJwt)
    ensures t.userId == userId && t.role == role
  {
    AccessJwt(userId, role, IssuedAt(nowMs))
  }

  /** `jwt.verify` on a refresh token: it must be one of ours and its `exp`
      (= iat + 7 days) must still lie ahead of the clock, in whole seconds. */
  function VerifyRefresh(t: PresentedToken, nowMs: int): (r: Option<UserId>)
    ensures r.Some? <==> t.Signed? && IssuedAt(nowMs) < t.jwt.iat + RefreshTtlSeconds
    ensures r.Some? ==> r.value == t.jwt.userId
  {
    match t
    case Signed(jwt) =>
      if IssuedAt(nowMs) < jwt.iat + RefreshTtlSeconds then Some(jwt.userId) else None
    case Unsigned(_) => None
  }
}

=== FILE: upload.dfy ===
/** The multipart upload in front of the apply handler (upload.middleware.ts):
    a MIME-type filter, a per-file size limit, and at most one `resume` and
    one `coverLetter` file, each stored under a public id made of the
    caller's id and the clock.

    Files are handled in the order they arrive; the first file that fails
    any check fails the whole request. Multer checks a file's field against
    the declared fields first, then runs the filter, and refuses the file
    once its size exceeds the limit.
 */
module Upload {
  import opened Wrappers
  import opened Decimal

  const PdfType: string := "application/pdf"
  const DocType: string := "application/msword"
  const DocxType: string := "application/vnd.openxmlformats-officedocument.wordprocessingml.document"

  const FilterMessage: string := "Only PDF and Word documents are allowed"

  /** `limits.fileSize`, in bytes. */
  const MaxFileSize: nat := 5 * 1024 * 1024

  const Folder: string := "hireflow-ats/resumes"

  const ResumeField: string := "resume"
  const CoverLetterField: string := "coverLetter"

  /** Both declared fields take at most this many files. */
  const MaxCount: nat := 1

  predicate AllowedMimeType(mimetype: string)
  {
    mimetype == PdfType || mimetype == DocType || mimetype == DocxType
  }

  /** `fileFilter`: accept the three document types, refuse anything else
      with the fixed message. */
  function FileFilter(mimetype: string): (r: Result<(), string>)
    ensures r.Ok? <==> AllowedMimeType(mimetype)
    ensures r.Err? ==> r.error == FilterMessage
  {
    if mimetype in [PdfType, DocType, DocxType] then Ok(()) else Err(FilterMessage)
  }

  predicate DeclaredField(name: string)
  {
    name == ResumeField || name == CoverLetterField
  }

  /** One incoming file part: its field, its declared type, its length in
      bytes, and the clock reading when the storage parameters are computed. */
  datatype Incoming = Incoming(fieldname: string, mimetype: string, size: nat, at: nat)

  datatype UploadError = UnexpectedField(field: string) | FileRejected(message: string) | FileTooLarge(field: string)

  /** The `public_id` the storage gives a file: `<userId>-<Date.now()>`. */
  function PublicId(userId: string, now: nat): (p: string)
    ensures |p| > |userId| && p[..|userId|] == userId && p[|userId|] == '-'
  {
    userId + "-" + ToDecimal(now)
  }

  /** Where a stored file ends up: the folder/public-id tail of the URL that
      the storage reports to multer as the file's `path`. */
  function Location(publicId: string): string
  {
    Folder + "/" + publicId
  }

  /** Whether one file passes the filter and the size limit on a declared field. */
  predicate Acceptable(f: Incoming)
  {
    DeclaredField(f.fieldname) && AllowedMimeType(f.mimetype) && f.size <= MaxFileSize
  }

  /** No field appears twice. */
  predicate DistinctFields(files: seq<Incoming>)
  {
    forall i, j :: 0 <= i < j < |files| ==> files[i].fieldname != files[j].fieldname
  }

  predicate Seen(files: seq<Incoming>, name: string)
  {
    exists i :: 0 <= i < |files| && files[i].fieldname == name
  }

  /** What multer makes of the `i`th file given the ones before it: a field
      that is undeclared or already full, then the filter, then the size. */
  function FileError(files: seq<Incoming>, i: nat): (r: Option<UploadError>)
    requires i < |files|
    ensures r.None? <==> Acceptable(files[i]) && forall j :: 0 <= j < i ==> files[j].fieldname != files[i].fieldname
  {
    var f := files[i];
    if !DeclaredField(f.fieldname) || Seen(files[..i], f.fieldname) then Some(UnexpectedField(f.fieldname))
    else if FileFilter(f.mimetype).Err? then Some(FileRejected(FilterMessage))
    else if f.size > MaxFileSize then Some(FileTooLarge(f.fieldname))
    else None
  }

  /** The error of the first failing file from position `i` on. */
  function FirstError(files: seq<Incoming>, i: nat): (r: Option<UploadError>)
    requires i <= |files|
    ensures r.None? <==> forall j :: i <= j < |files| ==> FileError(files, j).None?
    ensures r.Some? ==> exists j :: i <= j < |files| && FileError(files, j) == r
                                   && forall k :: i <= k < j ==> FileError(files, k).None?
    decreases |files| - i
  {
    if i == |files| then None
    else if FileError(files, i).Some? then FileError(files, i)
    else FirstError(files, i + 1)
  }

  /** No file fails exactly when every file is acceptable and no field
      repeats. */
  lemma NoErrorIffAcceptable(files: seq<Incoming>)
    ensures (forall i :: 0 <= i < |files| ==> FileError(files, i).None?)
        <==> (forall i :: 0 <= i < |files| ==> Acceptable(files[i])) && DistinctFields(files)
  {
    if forall i :: 0 <= i < |files| ==> FileError(files, i).None? {
      forall i | 0 <= i < |files| ensures Acceptable(files[i]) {
        assert FileError(files, i).None?;
      }
      forall i, j | 0 <= i < j < |files| ensures files[i].fieldname != files[j].fieldname {
        assert FileError(files, j).None?;
      }
    }
  }

  /** The first file sent on a field. */
  function FieldIndex(files: seq<Incoming>, name: string): (r: Option<nat>)
    ensures r.Some? <==> Seen(files, name)
    ensures r.Some? ==> r.value < |files| && files[r.value].fieldname == name
  {
    if files == [] then None
    else if files[0].fieldname == name then Some(0)
    else match FieldIndex(files[1..], name)
      case None => None
      case Some(k) => Some(k + 1)
  }

  /** `upload.fields([{resume, 1}, {coverLetter, 1}])`: the stored paths by
      field, or the first failing file's error. A request succeeds exactly
      when every file is a document of an allowed type within the size
      limit, on a declared field, with no field used twice. */
  function UploadFields(files: seq<Incoming>, userId: string): (r: Result<map<string, seq<string>>, UploadError>)
    ensures r.Ok? <==> (forall i :: 0 <= i < |files| ==> Acceptable(files[i])) && DistinctFields(files)
    ensures r.Ok? ==> forall k :: k in r.value <==> Seen(files, k)
    ensures r.Ok? ==> forall k :: k in r.value ==> DeclaredField(k) && |r.value[k]| == MaxCount
    ensures r.Ok? ==> forall i :: 0 <= i < |files| ==>
      files[i].fieldname in r.value && r.value[files[i].fieldname] == [Location(PublicId(userId, files[i].at))]
    ensures r.Err? ==> exists i :: 0 <= i < |files| && FileError(files, i) == Some(r.error)
                                   && forall j :: 0 <= j < i ==> FileError(files, j).None?
  {
    match FirstError(files, 0)
    case Some(e) => Err(e)
    case None =>
      NoErrorIffAcceptable(files);
      Ok(map k | k in [ResumeField, CoverLetterField] && FieldIndex(files, k).Some?
               :: [Location(PublicId(userId, files[FieldIndex(files, k).value].at))])
  }

  /** A second file on the same field fails the request. */
  lemma SecondResumeRefused(files: seq<Incoming>, userId: string, i: nat, j: nat)
    requires i < j < |files| && files[i].fieldname == ResumeField && files[j].fieldname == ResumeField
    ensures UploadFields(files, userId).Err?
  {
  }

  /** The position of the first `c` in `s`, if any. */
  function FirstIndexOf(s: string, c: char): (r: Option<nat>)
    ensures r.Some? ==> r.value < |s| && s[r.value] == c && forall i :: 0 <= i < r.value ==> s[i] != c
    ensures r.None? ==> forall i :: 0 <= i < |s| ==> s[i] != c
  {
    if |s| == 0 then None
    else if s[0] == c then Some(0)
    else match FirstIndexOf(s[1..], c)
      case None => None
      case Some(k) => Some(k + 1)
  }

  /** Reads a public id back into the caller's id and the clock reading. */
  function ParsePublicId(p: string): (r: Option<(string, nat)>)
  {
    match FirstIndexOf(p, '-')
    case None => None
    case Some(k) =>
      var digits := p[k + 1..];
      if |digits| >= 1 && AllDigits(digits) then Some((p[..k], ParseDecimal(digits))) else None
  }

  /** For ids without a dash (Mongo object ids are hexadecimal), the public
      id determines both the caller and the millisecond it was made in. */
  lemma PublicIdRoundTrip(userId: string, now: nat)
    requires forall i :: 0 <= i < |userId| ==> userId[i] != '-'
    ensures ParsePublicId(PublicId(userId, now)) == Some((userId, now))
  {
    var p := PublicId(userId, now);
    assert FirstIndexOf(p, '-') == Some(|userId|);
    assert p[|userId| + 1..] == ToDecimal(now);
    assert p[..|userId|] == userId;
    ParseToDecimal(now);
  }

  /** Two uploads share a public id exactly when they come from the same
      caller in the same millisecond. */
  lemma PublicIdInjective(u1: string, t1: nat, u2: string, t2: nat)
    requires forall i :: 0 <= i < |u1| ==> u1[i] != '-'
    requires forall i :: 0 <= i < |u2| ==> u2[i] != '-'
    ensures PublicId(u1, t1) == PublicId(u2, t2) <==> u1 == u2 && t1 == t2
  {
    PublicIdRoundTrip(u1, t1);
    PublicIdRoundTrip(u2, t2);
  }
}

=== FILE: users.dfy ===
/** The user collection (user.model.ts), its repository (user.repository.ts)
    and `UserService.getCurrentUser` (user.service.ts).

    The store maps opaque ids to users. The schema's setters (lower-case,
    trim), defaults (role candidate, active) and validators (name at least 2
    UTF-16 code units after trimming, required fields) run on create; the unique
    index on `email` rejects a second user with the same normalised email.
    The document library also applies the setters to query filters, so a
    lookup by email matches the normalised form of the given email.
 */
module Users {
  import opened Wrappers
  import opened Text
  import opened Roles
  import opened Tokens

  /** The name path's `minlength`, compared with JavaScript's `length`. */
  const NameMinLength: nat := 2

  /** A stored user; `password` holds the bcrypt hash. */
  datatype User = User(name: string, email: string, password: Hash, role: Role, isActive: bool)

  /** A user as read without `+password` (the path is `select: false`). */
  datatype PublicUser = PublicUser(id: UserId, name: string, email: string, role: Role, isActive: bool)

  type UserStore = map<UserId, User>

  datatype UserError = ValidationFailed(path: string) | DuplicateEmail | UserNotFound

  /** The `lowercase` then `trim` setters of the email path. */
  function NormalizeEmail(email: string): string
  {
    Trim(Lower(email))
  }

  /** A normalised email is lower-case and trimmed, and so a fixed point of
      normalisation. */
  predicate IsNormalized(email: string)
  {
    IsLower(email) && IsTrimmed(email)
  }

  lemma NormalizedIsFixed(email: string)
    requires IsNormalized(email)
    ensures NormalizeEmail(email) == email
  {
    LowerOfLower(email);
    TrimmedIsFixed(email);
  }

  lemma NormalizeEmailIdempotent(email: string)
    ensures IsNormalized(NormalizeEmail(email))
    ensures NormalizeEmail(NormalizeEmail(email)) == NormalizeEmail(email)
  {
    var l := Lower(email);
    LowerIsLower(email);
    TrimKeepsLower(l);
    TrimIdempotent(l);
    NormalizedIsFixed(Trim(l));
  }

  /** What the schema guarantees of every stored user. */
  predicate WellFormedUser(u: User)
  {
    && Utf16Length(u.name) >= NameMinLength && IsTrimmed(u.name)
    && u.email != [] && IsNormalized(u.email)
  }

  /** The unique index on `email`. */
  ghost predicate EmailsUnique(users: UserStore)
  {
    forall a, b :: a in users && b in users && users[a].email == users[b].email ==> a == b
  }

  ghost predicate Valid(users: UserStore)
  {
    EmailsUnique(users) && forall id :: id in users ==> WellFormedUser(users[id])
  }

  datatype NewUser = NewUser(name: string, email: string, password: Hash, role: Option<Role>)

  /** The document `User.create` would store, or the validation error it
      raises: setters first, then defaults, then validators. The password
      minimum length applies to the stored hash, which always satisfies it. */
  function Build(data: NewUser): (r: Result<User, UserError>)
    ensures r.Ok? ==> WellFormedUser(r.value)
    ensures r.Ok? <==> Utf16Length(Trim(data.name)) >= NameMinLength && NormalizeEmail(data.email) != []
    ensures r.Ok? ==>
      && r.value.name == Trim(data.name)
      && r.value.email == NormalizeEmail(data.email)
      && r.value.password == data.password
      && r.value.role == data.role.GetOr(Candidate)
      && r.value.isActive
  {
    var name := Trim(data.name);
    var email := NormalizeEmail(data.email);
    if |name| == 0 then Err(ValidationFailed("name"))
    else if Utf16Length(name) < NameMinLength then Err(ValidationFailed("name"))
    else if |email| == 0 then Err(ValidationFailed("email"))
    else
      TrimIdempotent(data.name);
      NormalizeEmailIdempotent(data.email);
      Ok(User(name, email, data.password, data.role.GetOr(Candidate), true))
  }

  /** `findByEmail`: the user whose stored email equals the normalised
      argument, password included. */
  function FindByEmail(users: UserStore, email: string): (r: Option<UserId>)
    requires EmailsUnique(users)
    ensures r.Some? ==> r.value in users && users[r.value].email == NormalizeEmail(email)
    ensures r.None? ==> forall id :: id in users ==> users[id].email != NormalizeEmail(email)
  {
    var key := NormalizeEmail(email);
    if exists id :: id in users && users[id].email == key then
      var id :| id in users && users[id].email == key;
      Some(id)
    else None
  }

  function ToPublic(id: UserId, u: User): PublicUser
  {
    PublicUser(id, u.name, u.email, u.role, u.isActive)
  }

  /** `findById`: the user without its password, or null. */
  function FindById(users: UserStore, id: UserId): (r: Option<PublicUser>)
    ensures r.Some? <==> id in users
    ensures r.Some? ==> (r.value.id == id && r.value.name == users[id].name && r.value.email == users[id].email
                         && r.value.role == users[id].role && r.value.isActive == users[id].isActive)
  {
    if id in users then Some(ToPublic(id, users[id])) else None
  }

  /** `create`: stores the built user under a fresh id, unless the unique
      email index refuses it. */
  function Create(users: UserStore, id: UserId, data: NewUser): (r: Result<UserStore, UserError>)
    requires id !in users
    ensures r.Ok? <==> Build(data).Ok? && forall k :: k in users ==> users[k].email != Build(data).value.email
    ensures r.Ok? ==> r.value == users[id := Build(data).value]
  {
    match Build(data)
    case Err(e) => Err(e)
    case Ok(u) =>
      if exists k :: k in users && users[k].email == u.email then Err(DuplicateEmail)
      else Ok(users[id := u])
  }

  /** With its email not yet taken, a user is created exactly when the
      document passes validation. */
  lemma CreateUnclaimed(users: UserStore, id: UserId, data: NewUser)
    requires EmailsUnique(users) && id !in users && FindByEmail(users, data.email).None?
    ensures Create(users, id, data).Ok? <==> Build(data).Ok?
  {
  }

  /** Storing a well-formed user under an id keeps the store valid when no
      other user holds its email. */
  lemma StoreKeepsValid(users: UserStore, id: UserId, u: User)
    requires Valid(users) && WellFormedUser(u)
    requires forall k :: k in users && k != id ==> users[k].email != u.email
    ensures Valid(users[id := u])
  {
    var r := users[id := u];
    forall a, b | a in r && b in r && r[a].email == r[b].email
      ensures a == b
    {
      if a != id && b != id {
        assert users[a].email == users[b].email;
      }
    }
  }

  /** Creating a user keeps the store valid. */
  lemma CreateKeepsValid(users: UserStore, id: UserId, data: NewUser)
    requires Valid(users) && id !in users
    requires Create(users, id, data).Ok?
    ensures Valid(Create(users, id, data).value)
  {
    var u := Build(data).value;
    assert forall k :: k in users ==> users[k].email != u.email;
    StoreKeepsValid(users, id, u);
  }

  /** Creating a user makes it findable by the email it was created with. */
  lemma CreateThenFind(users: UserStore, id: UserId, data: NewUser)
    requires Valid(users) && id !in users
    requires Create(users, id, data).Ok?
    ensures EmailsUnique(Create(users, id, data).value)
    ensures FindByEmail(Create(users, id, data).value, data.email) == Some(id)
  {
    CreateKeepsValid(users, id, data);
    var r := Create(users, id, data).value;
    var f := FindByEmail(r, data.email);
    assert r[id].email == NormalizeEmail(data.email);
    assert f.Some?;
    assert r[f.value].email == r[id].email;
  }

  datatype UserPatch = UserPatch(name: Option<string>, email: Option<string>, password: Option<Hash>,
                                 role: Option<Role>, isActive: Option<bool>)

  /** The fields of a patch after the setters, layered over a user. */
  function Merge(u: User, p: UserPatch): User
  {
    User(
      if p.name.Some? then Trim(p.name.value) else u.name,
      if p.email.Some? then NormalizeEmail(p.email.value) else u.email,
      p.password.GetOr(u.password),
      p.role.GetOr(u.role),
      p.isActive.GetOr(u.isActive))
  }

  /** The update validators of the supplied paths, run on the values after
      the setters: the trimmed name is at least two UTF-16 units and the
      normalised email is non-empty. */
  predicate PatchValid(p: UserPatch)
  {
    && (p.name.Some? ==> Utf16Length(Trim(p.name.value)) >= NameMinLength)
    && (p.email.Some? ==> NormalizeEmail(p.email.value) != [])
  }

  lemma MergeWellFormed(u: User, p: UserPatch)
    requires PatchValid(p)
    ensures WellFormedUser(u) ==> WellFormedUser(Merge(u, p))
  {
    if p.name.Some? { TrimIdempotent(p.name.value); }
    if p.email.Some? { NormalizeEmailIdempotent(p.email.value); }
  }

  datatype Updated = Updated(users: UserStore, result: Result<Option<PublicUser>, UserError>)

  /** `update` with `runValidators`: the update is cast and its validators run
      on the supplied paths before the query is sent, so an invalid patch is
      refused whether or not the id exists; a valid patch for a missing id
      gives null; the unique index, which only a write reaches, refuses an
      email that another user holds. */
  function Update(users: UserStore, id: UserId, patch: UserPatch): (r: Updated)
    ensures r.result.Err? || id !in users ==> r.users == users
    ensures id !in users ==> (r.result.Ok? <==> PatchValid(patch)) && (r.result.Ok? ==> r.result.value.None?)
    ensures r.result.Ok? && id in users ==>
      && r.users == users[id := Merge(users[id], patch)]
      && r.result.value == Some(ToPublic(id, Merge(users[id], patch)))
    ensures id in users ==>
      (r.result.Ok? <==>
        && PatchValid(patch)
        && forall k :: k in users && k != id ==> users[k].email != Merge(users[id], patch).email)
  {
    if patch.name.Some? && Utf16Length(Trim(patch.name.value)) < NameMinLength then
      Updated(users, Err(ValidationFailed("name")))
    else if patch.email.Some? && NormalizeEmail(patch.email.value) == [] then
      Updated(users, Err(ValidationFailed("email")))
    else if id !in users then Updated(users, Ok(None))
    else
      var u := Merge(users[id], patch);
      if exists k :: k in users && k != id && users[k].email == u.email then Updated(users, Err(DuplicateEmail))
      else
        MergeWellFormed(users[id], patch);
        Updated(users[id := u], Ok(Some(ToPublic(id, u))))
  }

  /** A patch the validators refuse gets the same error for every id, stored
      or not: validation does not look at the store. */
  lemma InvalidPatchRefusedForAnyId(users: UserStore, id: UserId, other: UserId, patch: UserPatch)
    requires !PatchValid(patch)
    ensures Update(users, id, patch).result.Err?
    ensures Update(users, id, patch) == Update(users, other, patch)
  {
  }

  /** An update keeps the store valid. */
  lemma UpdateKeepsValid(users: UserStore, id: UserId, patch: UserPatch)
    requires Valid(users)
    ensures Valid(Update(users, id, patch).users)
  {
    var r := Update(users, id, patch);
    if id in users && r.result.Ok? {
      var u := Merge(users[id], patch);
      assert r.users == users[id := u];
      assert forall k :: k in users && k != id ==> users[k].email != u.email;
      MergeWellFormed(users[id], patch);
      StoreKeepsValid(users, id, u);
    }
  }

  /** An update that supplies nothing changes nothing. */
  lemma EmptyPatchIsIdentity(users: UserStore, id: UserId)
    requires EmailsUnique(users) && id in users
    ensures Update(users, id, UserPatch(None, None, None, None, None)) == Updated(users, Ok(Some(ToPublic(id, users[id]))))
  {
    var u := users[id];
    assert Merge(u, UserPatch(None, None, None, None, None)) == u;
    assert users[id := u] == users;
  }

  /** `getCurrentUser`: the stored user minus its password, every other
      field unchanged; an unknown id is an error. */
  function GetCurrentUser(users: UserStore, id: UserId): (r: Result<PublicUser, UserError>)
    ensures r.Ok? <==> id in users
    ensures r.Err? ==> r.error == UserNotFound
    ensures r.Ok? ==> (r.value.id == id && r.value.name == users[id].name && r.value.email == users[id].email
                       && r.value.role == users[id].role && r.value.isActive == users[id].isActive)
  {
    match FindById(users, id)
    case None => Err(UserNotFound)
    case Some(u) => Ok(u)
  }

  /** The profile read back for a user found by email is that user's record. */
  lemma CurrentUserOfEmail(users: UserStore, email: string)
    requires EmailsUnique(users)
    requires FindByEmail(users, email).Some?
    ensures var id := FindByEmail(users, email).value;
      GetCurrentUser(users, id) == Ok(ToPublic(id, users[id]))
      && GetCurrentUser(users, id).value.email == NormalizeEmail(email)
  {
  }
}

=== FILE: validation.dfy ===
/** The shape shared by class-validator, Mongoose and Yup: every declared
    path is checked, and the failing ones are reported in declaration order.
 */
module Validation {

  /** The paths of `paths` that lie in `failing`, in their order. */
  function Failing<P(==,!new)>(paths: seq<P>, failing: set<P>): (errs: seq<P>)
    ensures forall p :: p in errs <==> p in paths && p in failing
    ensures |errs| <= |paths|
  {
    if paths == [] then []
    else (if paths[0] in failing then [paths[0]] else []) + Failing(paths[1..], failing)
  }
}

=== FILE: wrappers.dfy ===
/** Failure-carrying datatypes shared by every module of the model.
    - Option<T> stands for a JavaScript value that may be `null` or `undefined`.
    - Result<T, E> stands for a promise that either resolves with a value or
      rejects with an error (`throw new Error(...)` in the services).
 */
module Wrappers {

  datatype Option<+T> = None | Some(value: T) {

    /** The value, or `default` when absent (the `??` / `||` fallbacks). */
    function GetOr(default: T): T
    {
      match this
      case Some(v) => v
      case None => default
    }
  }

  datatype Result<+T, +E> = Ok(value: T) | Err(error: E) {

    /** Drops the error detail, keeping only whether a value came back. */
    function ToOption(): Option<T>
    {
      match this
      case Ok(v) => Some(v)
      case Err(_) => None
    }
  }

  /** `findById` on a store keyed by id: the stored record, or `null` when
      no record has that id. */
  function Lookup<K, V>(store: map<K, V>, id: K): (r: Option<V>)
    ensures r.Some? <==> id in store
    ensures r.Some? ==> r.value == store[id]
  {
    if id in store then Some(store[id]) else None
  }
}
